=== FILE: README.md ===
# Counter-deck builder: the deck-search core in Dafny

The counter-deck builder searches for Hearthstone decks that beat a set of
reference decks. It climbs hills: it evaluates every legal one-card swap of
the incumbent deck by simulated games, sorts the candidates by win rate
(ties go to the lower variance of the per-opponent wins) and keeps the best.
A bash-driven variant splits the neighbourhood among processes. Each process
appends its evaluated part to a report file (`Winrate-<w>-<v>` header, card
names, a dashes line). The hill-climbing step program reads those reports
back and writes the best deck for the next round. The evolution parser
summarises every generation as its worst, median and best win rates.

The model keeps the search logic and replaces everything else with
parameters:
- the game engine is a finite tree of options with heuristic scores;
- randomness is a sequence of draws or sort keys;
- a simulated game is an oracle result;
- files are sequences of lines;
- numbers in report files are opaque tokens, handled by a `show`/`parse`
  pair of functions.

Modules follow the source:

| Module | What it holds |
|---|---|
| `Common` | Options, sequence helpers, split/join on a character, stable insertion sort |
| `Cards` | Cards, name counts, the last non-neutral class, sorting by name |
| `Decks` | `Deck`: copy limit, `DeepCopy`, mana curves, `FindHands` and its fallback loop, random card of a mana cost |
| `Mutations` | `MutatingDeck.Mutate` (aliasing clone) and `HillClimbingTester.GetAllMutations` |
| `Fitness` | `CompareTo`, sorting a generation, `HillClimbStep`, the worst/median/best summary |
| `Evaluation` | `HillClimbing`: slicing for threads and bash parts, `HillClimb`, `TestDeck`, `TestDeckNoHands` |
| `Statistics` | `Deck.Variance`, as written and in exact arithmetic |
| `Combinatorics` | `Combinations` and `Shuffle` |
| `Drafts` | `Draft.CompareTo`, `DeserializeDrafts`/`XmlDeserializeDrafts`, `DraftSeeker.GetAllDrafts` |
| `Simulator` | `SimulateGames`: the game-count loop, the circuit breaker, position pinning, hand removal |
| `Agents` | the four agents' `GetNextMove`/`HasNextMove`, `GetTaskIndices`, `GetPlayer` |
| `Metrics` | `GameStateObserver.GetGameState` |
| `Commands` | the `commands.txt` parser and 32-bit integer parsing |
| `DeckFiles` | the `DeckParser` readers of deck lists and of `newdeck.txt` |
| `Reports` | the report writer, the two `GetLastGeneration` readers, the step's `Main`, the evolution parser's summary |

## Model

| member | source | states |
|---|---|---|
| Decks.CardAvailable | CounterDeckBuilderCore/CounterDeckBuilderCore/Evolution.cs:159-164 | A card may be added iff the deck holds fewer than 2 cards of its name (fewer than 1 if it is legendary) |
| Decks.AvailableReplacementWithinLimit | CounterDeckBuilderCore/CounterDeckBuilderCore/Evolution.cs:159-164 | Writing an available card over any slot keeps that name within its copy limit |
| Decks.DeepCopy | CounterDeckBuilderCore/CounterDeckBuilderCore/Evolution.cs:175-187 | The copy keeps name, win rate, class, cards, hands, forbidden list and positions; variance, simulation result and curve are fresh defaults |
| Decks.GetManaCurves | CounterDeckBuilderCore/CounterDeckBuilderCore/Evolution.cs:73-90 | One curve per deck, entry i being the cost of card i |
| Decks.FirstOfCost | CounterDeckBuilderCore/CounterDeckBuilderCore/Evolution.cs:138 | `deck.Find` for a cost: a usable card of exactly that cost, absent iff no usable card has it |
| Decks.FirstOfCostIsFirst | CounterDeckBuilderCore/CounterDeckBuilderCore/Evolution.cs:138 | The card found is the first usable card of that cost in deck order |
| Decks.HighestMatchExists | CounterDeckBuilderCore/CounterDeckBuilderCore/Evolution.cs:139-146 | Searching downward from a cost finds a card iff some usable card costs at most that much |
| Decks.FallbackLoopSound | CounterDeckBuilderCore/CounterDeckBuilderCore/Evolution.cs:139-146 | Whenever the literal decrement-and-wrap loop finishes, it returns the highest usable cost below the request, or else the highest at most 3 (never 4) |
| Decks.FallbackLoopFindsBelow | CounterDeckBuilderCore/CounterDeckBuilderCore/Evolution.cs:139-146 | With a usable card cheaper than the request, the loop finishes on the most expensive such cost |
| Decks.FallbackLoopWraps | CounterDeckBuilderCore/CounterDeckBuilderCore/Evolution.cs:139-146 | With nothing cheaper but something of cost at most 3, the loop wraps once and finishes there |
| Decks.PickForCostIsLoop | CounterDeckBuilderCore/CounterDeckBuilderCore/Evolution.cs:137-146 | The closed-form choice agrees with the literal loop; the loop finishes within a bound iff the choice exists, and never otherwise |
| Decks.PickForCostSpec | CounterDeckBuilderCore/CounterDeckBuilderCore/Evolution.cs:137-146 | A card is chosen iff some usable card costs at most max(cost, 3); an exact-cost card wins |
| Decks.HandForCosts | CounterDeckBuilderCore/CounterDeckBuilderCore/Evolution.cs:135-149 | A hand exists iff every requested cost can be served; card k is the choice for cost k |
| Decks.HandsForCosts | CounterDeckBuilderCore/CounterDeckBuilderCore/Evolution.cs:133-150 | One draft per cost tuple, in order, each with win rate 0 |
| Decks.FindHands | CounterDeckBuilderCore/CounterDeckBuilderCore/Evolution.cs:130-152 | Only the hands change; it finishes iff every cost has a usable card of cost at most max(cost, 3); each hand has one usable deck card per cost, the first exact match when there is one |
| Decks.FindHandIsFindHands | CounterDeckBuilderCore/CounterDeckBuilderCore/Evolution.cs:130-152 | The single-tuple call used by the testers is `FindHands` on a one-element list |
| Decks.RandomCardOfManaCost | CounterDeckBuilderCore/CounterDeckBuilderCore/Evolution.cs:54-71 | The card drawn is of the class or neutral and costs at least the requested mana (the request rises every 10000 misses) |
| Decks.ClassOk | CounterDeckBuilderCore/CounterDeckBuilderCore/Evolution.cs:57-58 | Exactly the catalogue cards that are neutral or of the hero class |
| Cards.FromName | GameExecutor/GameExecutor/Program.cs:249-250 | A catalogue card with that name, absent iff no card has it |
| Cards.SortByName | CounterDeckBuilderCore/CounterDeckBuilderCore/Evolution.cs:312 | A permutation of the deck, sorted by name |
| Cards.NameRunStart | CounterDeckBuilderCore/CounterDeckBuilderCore/Evolution.cs:312-321 | In a deck sorted by name, a card whose name differs from its predecessor's is the first of its name |
| Mutations.MakeChild | CounterDeckBuilderCore/CounterDeckBuilderCore/Evolution.cs:339-349 | The child equals the parent except at slot i; it forbids the new card on hand, pins it at its cost, and is tagged (old name, new name) |
| Mutations.GetAllMutations | CounterDeckBuilderCore/CounterDeckBuilderCore/Evolution.cs:302-355 | The parent's cards are sorted by name in place: a permutation, and nothing else of the parent changes |
| Mutations.GetAllMutationsMembers | CounterDeckBuilderCore/CounterDeckBuilderCore/Evolution.cs:302-355 | A child is produced iff it is the swap at a first-of-name slot for a class-legal, non-denied catalogue card that passes every filter |
| Mutations.ChildShape | CounterDeckBuilderCore/CounterDeckBuilderCore/Evolution.cs:308-349 | Every child: one slot replaced; new card neither denied nor already present twice; cost within 1 under the cost bound; copy limit kept; forbidden and pinned; source slot is first of its name |
| Mutations.ChildrenDiffer | CounterDeckBuilderCore/CounterDeckBuilderCore/Evolution.cs:314-349 | Different (slot, replacement) pairs give different children |
| Mutations.ChildMayEqualParent | CounterDeckBuilderCore/CounterDeckBuilderCore/Evolution.cs:323-349 | A singleton non-legendary card can be replaced by itself, giving a child whose cards equal the parent's |
| Mutations.MutateCards | CounterDeckBuilderCore/CounterDeckBuilderCore/Evolution.cs:231-236 | Each slot keeps its card or holds a drawn card at least as expensive, and only drawn slots change |
| Mutations.Mutate | CounterDeckBuilderCore/CounterDeckBuilderCore/Evolution.cs:228-244 | The mutant's cards are written through to the parent; its hand is cards 0, 5 and 9; every changed slot holds a class-legal card at least as expensive |
| Mutations.MutateAliasesParent | CounterDeckBuilderCore/CounterDeckBuilderCore/Evolution.cs:230-236 | A mutation that changes a card also changes the parent |
| Fitness.CompareReal | CounterDeckBuilderCore/CounterDeckBuilderCore/Evolution.cs:205 | `Double.CompareTo` on ordinary numbers: the sign of a - b |
| Fitness.Compare | CounterDeckBuilderCore/CounterDeckBuilderCore/Evolution.cs:203-206 | A candidate is smaller iff its win rate is lower, or equal with a higher variance |
| Fitness.CompareIsTotalPreorder | CounterDeckBuilderCore/CounterDeckBuilderCore/Evolution.cs:203-206 | The order is total and transitive, so sorting by it is well defined |
| Fitness.CompareRanks | CounterDeckBuilderCore/CounterDeckBuilderCore/Evolution.cs:203-206 | For any two candidates: one with a lower win rate ranks below the other whatever the variances, and at equal win rates the one with the higher variance ranks below; both comparisons agree in either argument order |
| Fitness.SortGeneration | CounterDeckBuilderCore/CounterDeckBuilderCore/Evolution.cs:423 | A sorted permutation of the generation |
| Fitness.HillClimbStep | CounterDeckBuilderCore/CounterDeckBuilderCore/Evolution.cs:479-482 | The last candidate: absent iff the generation is empty, and a maximum when the generation is sorted |
| Fitness.HillClimbLastGeneration | CounterDeckBuilderCore/CounterDeckBuilderCore/Evolution.cs:434-439 | Sort then step: a member of the generation no other candidate beats |
| Fitness.Summary | EvolutionParser/EvolutionParser/Program.cs:183-196 | Worst, median and best of a sorted generation: elements 0, Count/2 and Count-1, in order, bounding every win rate |
| Evaluation.SliceStart | CounterDeckBuilderCore/CounterDeckBuilderCore/Evolution.cs:502-518 | Slice j starts so that it fits, and the last slice holds N/T + N%T items |
| Evaluation.Slice | CounterDeckBuilderCore/CounterDeckBuilderCore/Evolution.cs:502-518 | Slice j has N/T items (the last also takes N%T), read contiguously from its start |
| Evaluation.SlicesCover | CounterDeckBuilderCore/CounterDeckBuilderCore/Evolution.cs:513-527 | The slices, concatenated in task order, give back the population |
| Evaluation.Partition | CounterDeckBuilderCore/CounterDeckBuilderCore/Evolution.cs:502-520 | The Take/Skip loop with `part += mod` on the last thread produces exactly these slices, whose concatenation is the population |
| Evaluation.EvaluateGeneration | CounterDeckBuilderCore/CounterDeckBuilderCore/Evolution.cs:490-527 | Fails only for a negative thread count (an array of negative size) |
| Evaluation.EvaluateGenerationIsSequential | CounterDeckBuilderCore/CounterDeckBuilderCore/Evolution.cs:490-527 | Threaded or not, the result is every candidate evaluated, in population order |
| Evaluation.PartForBashLoop | CounterDeckBuilderCore/CounterDeckBuilderCore/Evolution.cs:453-463 | The loop returns slice `index`, or the last slice for an index out of range, and nothing for a negative part count |
| Evaluation.BashPart | CounterDeckBuilderCore/CounterDeckBuilderCore/Evolution.cs:453-463 | Undefined for zero parts (division by zero); slice size N/parts, the last N/parts + N%parts |
| Evaluation.BashPartIsLoop | CounterDeckBuilderCore/CounterDeckBuilderCore/Evolution.cs:453-463 | The closed form agrees with the loop |
| Evaluation.BashPartsCover | CounterDeckBuilderCore/CounterDeckBuilderCore/Evolution.cs:453-463 | Running every index 0..parts-1 covers the neighbourhood exactly once, in order |
| Evaluation.TestGenerationPartForBash | CounterDeckBuilderCore/CounterDeckBuilderCore/Evolution.cs:448-477 | The result is sorted and is a permutation of the evaluated part of the first candidate's neighbourhood |
| Evaluation.ClimbStep | CounterDeckBuilderCore/CounterDeckBuilderCore/Evolution.cs:414-426 | The next incumbent is an evaluated neighbour that no evaluated neighbour beats |
| Evaluation.HillClimb | CounterDeckBuilderCore/CounterDeckBuilderCore/Evolution.cs:412-428 | Zero iterations return the parent unchanged |
| Evaluation.HillClimbTakesBest | CounterDeckBuilderCore/CounterDeckBuilderCore/Evolution.cs:412-428 | One iteration returns a best evaluated neighbour of the parent |
| Evaluation.WinRate | CounterDeckBuilderCore/CounterDeckBuilderCore/Evolution.cs:585-586 | The win percentage, within [0, 100]; it equals the source's formula whenever a game was played |
| Evaluation.TestDeckRateUndefined | CounterDeckBuilderCore/CounterDeckBuilderCore/Evolution.cs:585-586 | As written, the win rate is not a number exactly when no game is asked for or no reference deck has a draft |
| Evaluation.PlayDrafts | CounterDeckBuilderCore/CounterDeckBuilderCore/Evolution.cs:570-579 | Against one reference deck: it finishes iff every call finds the candidate's hand in the card list the call before it left; the candidate ends with the list the last call left and the hand of the last call, the reference deck with its list reshuffled; wins are the sum of the calls' wins, games numGames per draft |
| Evaluation.HandsFoundEvery | CounterDeckBuilderCore/CounterDeckBuilderCore/Evolution.cs:570-579 | The hand search of call t runs in the list call t - 1 left, or in the deck's own list for the first call |
| Evaluation.PlayAll | CounterDeckBuilderCore/CounterDeckBuilderCore/Evolution.cs:565-584 | Every reference deck in turn, each starting from the candidate's list as the previous deck's calls left it; one `Results` entry per reference deck is appended; wins and games are the totals; `DeckGames` is the last reference deck's count; every reference deck comes back with the list its last call left |
| Evaluation.TestDeck | CounterDeckBuilderCore/CounterDeckBuilderCore/Evolution.cs:557-588 | Finishes iff every hand search succeeds in the list the previous simulation call left; the candidate keeps its forbidden list, positions and class but holds the list the last call left; results gain the per-opponent wins; the win rate is the source's formula whenever a game was played; the reference decks come back reshuffled |
| Evaluation.PlaySingles | CounterDeckBuilderCore/CounterDeckBuilderCore/Evolution.cs:609-616 | It gets stuck iff some game, before the first throw, cannot find one of the two hands in the lists the game before it left; a throw stops the loop; otherwise the wins are the sum of the games' results, both decks hold the lists the last game left and the reference deck holds one hand |
| Evaluation.TestDeckNoHands | CounterDeckBuilderCore/CounterDeckBuilderCore/Evolution.cs:594-632 | Finishes iff every game up to the first throw finds both hands in the lists the previous game left; only the candidate's cards, hands, results, win rate and variance change, and only the reference decks' cards and hands; without throws: the results gain the games won against each reference deck in turn, `DeckGames` is `numGames` (unchanged with no reference deck), the win rate is the summed wins over `numGames` times the number of reference decks, as a percentage computed as written, and every reference deck is re-handed and reshuffled; on a throw: win rate and variance reset to 0, results keep the entries added before it |
| Evaluation.PlayAllSingles | CounterDeckBuilderCore/CounterDeckBuilderCore/Evolution.cs:602-621 | The loops stop at the first hand search that never ends or, failing that, the first throw; when every game is played, the wins are the sum over the reference decks of the games won against each, out of `numGames` games per reference deck, one result per deck is appended and the game count is `numGames` |
| Statistics.TruncatedVarianceNonNegative | CounterDeckBuilderCore/CounterDeckBuilderCore/DraftSeeker.cs:68-82 | The radicand as written, with integer division on every term, is never negative, and 0 for no results |
| Statistics.Variance | CounterDeckBuilderCore/CounterDeckBuilderCore/DraftSeeker.cs:68-82 | E[X^2] - E[X]^2 of the per-opponent wins is never negative, and 0 for no results |
| Statistics.VarianceOfEqualResults | CounterDeckBuilderCore/CounterDeckBuilderCore/DraftSeeker.cs:68-82 | Equal results have no variance |
| Statistics.SquareOfSumBound | CounterDeckBuilderCore/CounterDeckBuilderCore/DraftSeeker.cs:74-81 | (sum x)^2 <= n * sum x^2, the inequality behind both radicands |
| Combinatorics.CombinationsCount | CounterDeckBuilderCore/CounterDeckBuilderCore/DraftSeeker.cs:30-33 | There are C(n, k) combinations (exactly one for k = 0) |
| Combinatorics.CombinationsAreSubseqs | CounterDeckBuilderCore/CounterDeckBuilderCore/DraftSeeker.cs:30-33 | Every combination has length k and is a subsequence of the input |
| Combinatorics.CombinationsOfRange | CounterDeckBuilderCore/CounterDeckBuilderCore/DraftSeeker.cs:30-33 | Over positions, the combinations are exactly the increasing k-sequences in range |
| Combinatorics.CombinationsOfRangeDistinct | CounterDeckBuilderCore/CounterDeckBuilderCore/DraftSeeker.cs:30-33 | No choice of positions appears twice |
| Combinatorics.Shuffle | CounterDeckBuilderCore/CounterDeckBuilderCore/DraftSeeker.cs:42-48 | min(n, size) elements (none for size <= 0), drawn without repetition; a permutation when size >= n |
| Combinatorics.ShuffleWithIncreasingKeys | CounterDeckBuilderCore/CounterDeckBuilderCore/DraftSeeker.cs:42-48 | `OrderBy` is stable: keys already in order leave the list as it is |
| Combinatorics.ShuffleOrdersByKey | CounterDeckBuilderCore/CounterDeckBuilderCore/DraftSeeker.cs:44 | The keyed elements come out in key order |
| Drafts.CompareDrafts | CounterDeckBuilderCore/CounterDeckBuilderCore/DraftSeeker.cs:273-276 | Drafts compare as their win rates do |
| Drafts.CompareDraftsByWinrateOnly | CounterDeckBuilderCore/CounterDeckBuilderCore/DraftSeeker.cs:273-276 | The cards play no part, and the comparison is antisymmetric |
| Drafts.ReadDraft | CounterDeckBuilderCore/CounterDeckBuilderCore/DraftSeeker.cs:343-351 | A stored entry becomes a 3-card draft with win rate 0 iff its first three names are known; card i bears name i |
| Drafts.ReadDrafts | CounterDeckBuilderCore/CounterDeckBuilderCore/DraftSeeker.cs:340-352 | Every entry is read, in order, or the whole read fails |
| Drafts.SelectThree | CounterDeckBuilderCore/CounterDeckBuilderCore/DraftSeeker.cs:354-359 | From a non-empty list: its first, middle (Count/2) and last elements; an empty list throws |
| Drafts.DeserializeDrafts | CounterDeckBuilderCore/CounterDeckBuilderCore/DraftSeeker.cs:333-360 | Succeeds iff the list is non-empty and every entry reads; returns the drafts of entries 0, Count/2 and Count-1 |
| Drafts.DeserializeSingleEntry | CounterDeckBuilderCore/CounterDeckBuilderCore/DraftSeeker.cs:354-358 | A one-entry list gives that draft three times |
| Drafts.AssembledDeckIsPermutation | CounterDeckBuilderCore/CounterDeckBuilderCore/DraftSeeker.cs:458-476 | The assembled deck is a permutation of the rest deck, and it opens with the rest draft reversed |
| Drafts.RestDeckOfHand | CounterDeckBuilderCore/CounterDeckBuilderCore/DraftSeeker.cs:451-455 | Removing one occurrence of each hand card leaves a deck three shorter that, with the hand, makes the whole deck |
| Drafts.WinsAndLosses | CounterDeckBuilderCore/CounterDeckBuilderCore/DraftSeeker.cs:509-519 | Each completed game adds exactly one win or one loss |
| Drafts.PercentWon | CounterDeckBuilderCore/CounterDeckBuilderCore/DraftSeeker.cs:528-529 | `wins*100/total` in integers: undefined for no games, else the floor of the percentage, within [0, 100] |
| Drafts.HandRates | CounterDeckBuilderCore/CounterDeckBuilderCore/DraftSeeker.cs:458-529 | A hand's rate is a percentage, absent iff none of its games completed |
| Drafts.DraftsFrom | CounterDeckBuilderCore/CounterDeckBuilderCore/DraftSeeker.cs:440-531 | Every draft kept is a hand from the current one on, with a percentage win rate, and no two drafts (nor any draft and a key tried earlier) share a sorted-name key; that each first hand of a key is kept is `GetAllDraftsKeepsFirst` |
| Drafts.GetAllDrafts | CounterDeckBuilderCore/CounterDeckBuilderCore/DraftSeeker.cs:423-534 | Null iff the sequence is shorter than 4; otherwise distinct keys, 3-card subsequences of the deck, percentages |
| Drafts.GetAllDraftsFails | CounterDeckBuilderCore/CounterDeckBuilderCore/DraftSeeker.cs:528-529 | The search divides by zero iff the first hand of some key completes no game |
| Drafts.GetAllDraftsKeepsFirst | CounterDeckBuilderCore/CounterDeckBuilderCore/DraftSeeker.cs:440-531 | The first hand of every key is returned with its own win rate |
| Drafts.GetAllDraftsCoversHands | CounterDeckBuilderCore/CounterDeckBuilderCore/DraftSeeker.cs:443-445 | Every combination's key is represented among the drafts |
| Simulator.TrailingRunMeaning | CounterDeckBuilderCore/CounterDeckBuilderCore/SimulateGames.cs:183-201 | The counter is the length of the run of non-end-turn actions since the last end of turn |
| Simulator.AbortsMeaning | CounterDeckBuilderCore/CounterDeckBuilderCore/SimulateGames.cs:183-201 | A game is aborted iff, before some action, more than 10000 non-end-turn actions in a row have been processed |
| Simulator.PlayActions | CounterDeckBuilderCore/CounterDeckBuilderCore/SimulateGames.cs:176-201 | The literal counter loop aborts exactly when that happens |
| Simulator.FindIndexByName | CounterDeckBuilderCore/CounterDeckBuilderCore/SimulateGames.cs:143 | `FindIndex`: the first card of that name, or -1 when there is none |
| Simulator.PinOne | CounterDeckBuilderCore/CounterDeckBuilderCore/SimulateGames.cs:141-148 | A slot past the end throws before anything is written; otherwise a card of the pinned name lands at its slot, the names are kept as a multiset, and the deck stays a permutation when the found card is the pinned one; whenever the name is present this is the pin as written |
| Simulator.PinAll | CounterDeckBuilderCore/CounterDeckBuilderCore/SimulateGames.cs:141-148 | All pins in turn keep the length and the names of the deck; the loop throws iff some slot is past the end |
| Simulator.ShuffleDeck | CounterDeckBuilderCore/CounterDeckBuilderCore/SimulateGames.cs:153-154 | `Shuffle(30)`: at most 30 cards, drawn from the deck |
| Simulator.PrepareDecks | CounterDeckBuilderCore/CounterDeckBuilderCore/SimulateGames.cs:136-155 | Both decks end with min(size, 30) cards drawn from their previous contents; the pinning throws iff a slot lies past the end; with no positions the first deck is only shuffled |
| Simulator.GameDecks | CounterDeckBuilderCore/CounterDeckBuilderCore/SimulateGames.cs:158-170 | With hands, each deck given to the game is the shuffled deck minus one occurrence of each hand card |
| Simulator.SimulateGames | CounterDeckBuilderCore/CounterDeckBuilderCore/SimulateGames.cs:101-213 | The two win counts add up to the games requested; the wins of each player, the lists the decks hold and the attempts made are those of the attempts replayed one after another until enough have counted (`Tally`), so failed attempts count for nobody and the decks keep the lists the last attempt left; decks hold min(size, 30) cards; a pin past the end makes the call never finish; when every attempt completes, exactly that many are made; `None` only when `maxAttempts` attempts leave fewer than requested counted |
| Simulator.PlayAttempt | CounterDeckBuilderCore/CounterDeckBuilderCore/SimulateGames.cs:121-209 | One attempt is the `Attempt` the tally replays: it keeps the cut size and draws from the previous lists, counts only for a completed game, never counts when a pin lies past the end, and always counts when pins fit and every game completes |
| Simulator.SimulateConfigured | CounterDeckBuilderCore/CounterDeckBuilderCore/SimulateGames.cs:85-88 | The configuration overload plays the configured number of games |
| Agents.NonGreedyMove | CounterDeckBuilderCore/CounterDeckBuilderCore/CoreAI.cs:92-104 | No move iff there are no options, otherwise the drawn option |
| Agents.DumbGreedyDraws | CounterDeckBuilderCore/CounterDeckBuilderCore/CoreAI.cs:335-343 | The first drawn option that is acceptable (not an end of turn while several options exist) |
| Agents.DumbGreedyMove | CounterDeckBuilderCore/CounterDeckBuilderCore/CoreAI.cs:331-348 | Never returns an end of turn while more than one option exists; a single option is returned as is |
| Agents.StepGreedyMove | CounterDeckBuilderCore/CounterDeckBuilderCore/CoreAI.cs:131-188 | A single option is returned; otherwise the last non-end-turn option scoring at least the current state and every earlier improver, or option 0 when none improves |
| Agents.TaskIndices | CounterDeckBuilderCore/CounterDeckBuilderCore/CoreAI.cs:266-299 | The recursion fails only on a dead end; it returns a valid plan; with the score passed up, the plan's score dominates every alternative |
| Agents.TaskIndicesFrom | CounterDeckBuilderCore/CounterDeckBuilderCore/CoreAI.cs:280-298 | The loop over options 1.. keeps the last option of best score: ties go to the later index |
| Agents.GetTaskIndices | CounterDeckBuilderCore/CounterDeckBuilderCore/CoreAI.cs:266-299 | The plan found scores its own score, and no plan of the turn scores higher |
| Agents.ValidPlanShape | CounterDeckBuilderCore/CounterDeckBuilderCore/CoreAI.cs:266-299 | A plan starts with 0 and all its other entries are at least 1 |
| Agents.TurnGreedyMove | CounterDeckBuilderCore/CounterDeckBuilderCore/CoreAI.cs:220-253 | A single option clears the plan; a stored plan is popped from its end; otherwise a fresh best plan is computed and its last entry played |
| Agents.GetPlayer | CounterDeckBuilderCore/CounterDeckBuilderCore/CoreAI.cs:55-72 | Each agent kind maps to its agent; a turn-greedy agent starts with no plan |
| Agents.NextMove | CounterDeckBuilderCore/CounterDeckBuilderCore/CoreAI.cs:92-104 | For every agent: no move iff no options; only the turn-greedy agent changes state |
| Metrics.ObserveBoard | CounterDeckBuilderCore/CounterDeckBuilderCore/GameState.cs:112-128 | The board loop sums minion costs and the attack of minions that are not frozen |
| Metrics.GetGameState | CounterDeckBuilderCore/CounterDeckBuilderCore/GameState.cs:101-139 | Lethal is set iff the damage ready reaches the opponent's health plus armour; health, board-mana, board-size, card and damage advantages are own minus opponent's; damage set up is unfrozen attack plus weapon; trade advantage stays 0 |
| Metrics.AdvantagesAntisymmetric | CounterDeckBuilderCore/CounterDeckBuilderCore/GameState.cs:109-136 | Seen from the other player, every advantage changes sign |
| Metrics.FrozenMinionDealsNoDamage | CounterDeckBuilderCore/CounterDeckBuilderCore/GameState.cs:112-129 | A frozen minion adds its cost to the board mana and nothing to the damage |
| Commands.ParseInt32 | GameExecutor/GameExecutor/Program.cs:27 | `int.Parse`: white space around an optional sign and decimal digits; the value is the digits' value with that sign, within the 32-bit range |
| Commands.ParseNatToString | GameExecutor/GameExecutor/Program.cs:27 | A written number within range reads back as itself |
| Commands.ParsePaddedNumber | GameExecutor/GameExecutor/Program.cs:27 | Any number that fits, with or without a minus sign and with any white space around it, is read back as itself |
| Commands.HeuristicFromName | GameExecutor/GameExecutor/Program.cs:46-67 | A known name gives its heuristic, any other name `DEFAULT` |
| Commands.HeuristicNameRoundTrip | GameExecutor/GameExecutor/Program.cs:46-67 | Every heuristic's name reads back as that heuristic |
| Commands.PlayerFromName | GameExecutor/GameExecutor/Program.cs:69-84 | A known name gives its agent, any other name the random greedy agent |
| Commands.PlayerNameRoundTrip | GameExecutor/GameExecutor/Program.cs:69-84 | Every agent's name reads back as that agent |
| Commands.ApplyLine | GameExecutor/GameExecutor/Program.cs:23-35 | A line parses iff it has five '-' tokens and a number first; a failing line never sets the second player |
| Commands.ApplyLineOverwrites | GameExecutor/GameExecutor/Program.cs:23-35 | A line that parses sets every field, whatever came before |
| Commands.LastLineWins | GameExecutor/GameExecutor/Program.cs:13-44 | A file whose last line was written for a configuration configures exactly that one |
| Commands.BadNumberStops | GameExecutor/GameExecutor/Program.cs:13-44 | A line without a number ends the parse with what the earlier lines set |
| DeckFiles.FallbackCard | GameExecutor/GameExecutor/Program.cs:209-218 | An unknown name is replaced by a drawn neutral card not yet in the deck; none iff every draw hits the deck |
| DeckFiles.CardLine | GameExecutor/GameExecutor/Program.cs:207-224 | A `qty_name` line adds the named card (or the replacement), twice for `x2`/`2x` |
| DeckFiles.DecksFrom | GameExecutor/GameExecutor/Program.cs:195-235 | Each deck's curve is the costs of its cards, and its class is the last non-neutral class, carried over from earlier decks |
| DeckFiles.GetAllDecks | GameExecutor/GameExecutor/Program.cs:178-237 | The same for the whole file, starting from `INVALID`; an empty file gives no decks |
| DeckFiles.GetAllDecksRoundTrip | GameExecutor/GameExecutor/Program.cs:178-237 | Reading a written deck-list file gives back every deck's name and cards |
| DeckFiles.FindLine | GameExecutor/GameExecutor/Program.cs:134-142 | The first line equal to the name, absent iff there is none |
| DeckFiles.GetDeckByName | GameExecutor/GameExecutor/Program.cs:115-176 | An absent header gives the fallback deck; a present one gives that name and class, with the curve when the variant builds one |
| DeckFiles.GetDeckByNameRoundTrip | HillClimbStep/HillClimbStep/HillClimbStep/Program.cs:41-95 | The deck is read from the block under its header, whatever lines come before |
| DeckFiles.GetRandomDeck | GameExecutor/GameExecutor/Program.cs:91-113 | 30 cards, each of the class or neutral and from the catalogue, none more than twice |
| DeckFiles.GetBestDeckOfLastGeneration | GameExecutor/GameExecutor/Program.cs:239-263 | Catalogue cards only; class of the last non-neutral card; empty curve |
| DeckFiles.BestDeckRoundTrip | GameExecutor/GameExecutor/Program.cs:239-263 | Card names written one per line read back as those cards |
| Reports.ReportConcat | GameExecutor/GameExecutor/Program.cs:328-340 | The reports of consecutive parts, appended one after another, are the report of the whole |
| Reports.HeaderTokens | GameExecutor/GameExecutor/Program.cs:333 | The header splits into `Winrate`, the win rate and the variance |
| Reports.ReadCards | HillClimbStep/HillClimbStep/Program.cs:36-50 | Card reading keeps the curve equal to the costs and the class equal to the last non-neutral one |
| Reports.GetLastGeneration | HillClimbStep/HillClimbStep/HillClimbStep/Program.cs:161-205 | Every candidate read has curve = costs, class from `INVALID`, an empty name and no mutations, with the simulation win rate set |
| Reports.ReadCardsNames | HillClimbStep/HillClimbStep/Program.cs:36-50 | Known names followed by the dashes line are read as exactly those cards |
| Reports.ReportRoundTrip | HillClimbStep/HillClimbStep/HillClimbStep/Program.cs:170-197 | Parsing the writer's output gives back each candidate's cards, win rate and variance, in order |
| Reports.HillClimbMain | HillClimbStep/HillClimbStep/Program.cs:63-78 | Writes the cards of a best candidate of the last generation; fails iff the report does not parse or is empty |
| Reports.StepFeedsNextGeneration | GameExecutor/GameExecutor/Program.cs:239-263 | The executor reads the written deck back as that best candidate's cards |
| Reports.GenerationFitness | EvolutionParser/EvolutionParser/Program.cs:183-196 | Worst <= median <= best, and every win rate of the generation lies between worst and best |
| Reports.FitnessLineTokens | EvolutionParser/EvolutionParser/Program.cs:232 | The summary line splits back into its three win rates |
| Reports.GenerationNumber | EvolutionParser/EvolutionParser/Program.cs:177-181 | A directory whose third character is not a digit is skipped; a name too short throws |
| Reports.GenerationNumberOfName | EvolutionParser/EvolutionParser/Program.cs:177-181 | The directory `.\<n>` is generation n |
| Reports.LastEntry | EvolutionParser/EvolutionParser/Program.cs:233 | The line of the last entry for a generation number, absent iff there is none |
| Reports.FillTable | EvolutionParser/EvolutionParser/Program.cs:233 | Succeeds iff every number is in 1..size; each slot holds its last entry's line or stays as it was |
| Reports.SummarizeGenerations | EvolutionParser/EvolutionParser/Program.cs:155-270 | A table of `|dirs| - 2` lines, each the summary of the last directory with that number, or empty |
| Common.JoinSplit | GameExecutor/GameExecutor/Program.cs:24 | Splitting and joining on the same character gives back the text |
| Common.SplitJoin | GameExecutor/GameExecutor/Program.cs:24 | Tokens without the separator, joined and split again, come back |
| Common.RemoveFirst | CounterDeckBuilderCore/CounterDeckBuilderCore/SimulateGames.cs:162-169 | `List.Remove`: one occurrence fewer when present, nothing changed otherwise |
| Common.SortBySorted | CounterDeckBuilderCore/CounterDeckBuilderCore/Evolution.cs:423 | The insertion sort used for `List.Sort` gives sorted output for a total order |

## Left out

- The game engine (`Game`, `Options`, `Process`, `Clone`, `FairStartGame`, `LazyClone`, `GetPrivateField`): it is a finite tree of options (`Agents.GameNode`) and an oracle of game outcomes.
- Heuristic scoring (`Heuristics.cs`): floating point over engine state. Scores are integers on the tree's nodes.
- `System.Random`, `NextGaussian`: random choices are sequences of draws or sort keys passed in.
- `Math.Sqrt` and `GetVariance`: the variance is kept as its radicand. The square root is monotone, so comparisons agree.
- Double formatting and parsing, including the '.' to ',' swap: numbers in reports go through a `show`/`parse` pair that is assumed to read back what it shows.
- Threads (`Task.Factory.StartNew`, `Task.WaitAll`): only the slicing and the concatenation of the results.
- Files, `BinaryFormatter`/`XmlSerializer`, `Directory`, `Console`, `Stopwatch`: files are sequences of lines, and serialized drafts are lists of name lists.
- `Draft.SerializeDrafts`/`XmlSerializeDrafts`: writers whose only reader is the deserializer already modelled.
- `metastats_scraper.py`: HTTP scraping. `Observer.cs`: an interface only.
- `Evolution`, `DumbEvolvingDeck`, `EvolutionTester` and `HillClimbLastGeneration(20)` in the second step program's `Main`: their classes are not part of this model.
- `HillClimbingTester.TestDeckWinrate`, `MutatingDeck.Crossover` and `Mutations()`: not on the search path.
- The evolution parser's initial `GetAllDecks` and `XmlDeserializeDrafts`: their results are never used. `GetBestDeckOfGeneration` is called only from commented-out code, and it reads the same way as `DeckFiles.GetBestDeckOfLastGeneration`.
- The report-reading `Main`s re-evaluate nothing; the step program's appending to `newdeck.txt` (when a previous file exists) is not modelled: `Reports.HillClimbMain` takes the existing lines as `newdeck`.
- Fitness.SortGeneration: `List.Sort` is unstable. The model sorts stably, so the order among equal-fitness candidates, and which of them `HillClimbStep` returns, may differ from the source's.
- Decks.RandomCardOfManaCost: the rejection loop is modelled over a finite draw sequence and fails when the draws run out; the source may loop for ever.
- DeckFiles.FallbackCard and DeckFiles.GetRandomDeck: the rejection loops are modelled over a finite draw sequence and fail when the draws run out. In the source the fallback loops for ever when every neutral card is already in the deck (GameExecutor/GameExecutor/Program.cs:213-216), and `GetRandomDeck` loops for ever when fewer than 15 distinct cards fit the class (GameExecutor/GameExecutor/Program.cs:99-110).
- Decks.PickForCostIsLoop: the loop is bounded by fuel. The unbounded loop that never ends when no usable card costs at most 3 is stated as "no fuel suffices".
- Drafts.ReadDraft: an unknown card name, which the source stores as a null card in the draft, is modelled as a failed read; an entry with fewer than three names throws in the source and fails here too.
- Reports.GenerationNumber: `Char.IsDigit` is restricted to ASCII digits. Directory names use the Windows `.\` prefix.
- Reports.GetLastGeneration: a missing line at end of file, where the source gets `null` and throws, is modelled as failure, and so is an unknown card name.
- Evaluation.HillClimb: states only the zero-iteration case and the one-step case; longer runs follow by induction on the same step.
- Statistics.Variance: the exact variance stands in for the truncated one that `TestDeck`, `TestDeckNoHands` and the report writer use (see Findings).
- Evaluation.TestDeck and Evaluation.TestDeckNoHands: with no game played the win rate is 0, where the source computes 0/0.0, not a number (see Findings); the variance is the exact radicand, not the square root of the truncated one. Each simulation call is an oracle: its wins and the card lists it leaves in the two decks are parameters, not tied to `Simulator.SimulateGames`.
- Evaluation.EvaluateGenerationIsSequential: holds because the evaluation of a candidate is a pure function. In the source the worker threads share the reference `Deck` objects, which `SimulateGames` reshuffles in place and `TestDeckNoHands` re-hands, and the static `Random`, so the results also depend on how the threads interleave. `TestDeck` and `TestDeckNoHands` do return the reference decks as they leave them, but the generation-level functions do not pass them from one candidate to the next.
- Reports.ReportHeader: writes the exact variance of the candidate's results. The source writes `Variance()`, the square root of the truncated radicand (see Findings), so equal results can be written with a positive variance that the step program then uses for ranking. The candidates the writer receives come from `Evolution.TestGenerationPartForBash`, whose class is not part of this model; `Evaluation.TestGenerationPartForBash` of `HillClimbing`, which slices and evaluates the same way, stands in for it.
- Simulator.SimulateGames: uses the corrected pin (`PinOne`, `PinAll`). A pinned name that is missing from the shuffled deck is skipped. In the source the pinned card is first written over the card at its slot, then the throw is caught and the game is retried with that altered list, so the candidate loses a card for good (see Findings). This case is reachable, because `DeepCopy` keeps `positions` and a later child can swap the pinned card out. A slot past the end throws on every attempt as in the source, so the call never finishes.
- Reports.GenerationFitness: sorts the generation with `Fitness.Compare`, the order of `MutatingDeck.CompareTo` (CounterDeckBuilderCore/CounterDeckBuilderCore/Evolution.cs:203-206), in place of `DumbEvolvingDeck.CompareTo`, which `GetGeneration` wraps each deck in (EvolutionParser/EvolutionParser/Program.cs:122) and `gen.Sort()` uses (Program.cs:184); `DumbEvolvingDeck` is not part of this model.
- Agents.TurnGreedyMove: computes its plan with the corrected search `GetTaskIndices`, not the source's `GetTaskIndicesAsWritten` (see Findings). On `ShallowTrap` the source plans [0, 1], while the model plans [0, 1, 2] and so plays a different option.
- Cards.SortByName: names are compared by ordinal character order. The draft key `Drafts.HandKey` joins bare names, where the source joins the cards' `ToString()` values (CounterDeckBuilderCore/CounterDeckBuilderCore/DraftSeeker.cs:443; `Card` is not part of this model), so the keys of two hands can differ where the source's coincide and the reverse. The source's `string.CompareTo` (in `GetAllMutations`) and `OrderBy(x => x.Name)` (the draft keys of `GetAllDrafts`) compare culture-sensitively, weighing case, apostrophes and hyphens differently. So the order of the neighbourhood, and with it which bash part tests which child, may differ for such names.
- Commands.ParseInt32: the sign characters are the invariant culture's `-` and `+`; culture-specific signs and the trailing NUL characters .NET also accepts are not modelled.
- Agents.StepGreedyMove and Agents.TurnGreedyMove: the `catch` branches that return option 0 when the engine throws are not modelled; the engine tree never throws.

## Findings

| source | as written | input that shows it | evidently intended | confidence | as-written member | corrected member |
|---|---|---|---|---|---|---|
| CounterDeckBuilderCore/CounterDeckBuilderCore/CoreAI.cs:266-299 | `score` is assigned only for a single-option state, so a child with several options passes up 0 | a state whose option 1 leads to a one-option state of score 5 and whose option 2 leads to a two-option state whose best line scores 10 | the best plan's score is passed up and compared | high, not executed | Agents.GetTaskIndicesAsWritten, Agents.TaskIndicesAsWrittenMissesBest | Agents.GetTaskIndices |
| CounterDeckBuilderCore/CounterDeckBuilderCore/Evolution.cs:585-586, 622-623 | `gamesWon / (gamesCount / 100.0)` with no games is 0/0.0, not a number | no reference decks, reference decks without drafts, or zero games per call | a win rate of 0 when nothing was played | medium, not executed | Evaluation.WinRateAsWritten, Evaluation.TestDeckRateUndefined | Evaluation.WinRate |
| CounterDeckBuilderCore/CounterDeckBuilderCore/DraftSeeker.cs:74-78 | each term is divided by the number of opponents in integer arithmetic before summing | results [3, 3]: the radicand is 8 - 4 = 4 | equal results have variance 0 | medium, not executed | Statistics.TruncatedVariance, Statistics.TruncatedVarianceOfEqualResults | Statistics.Variance, Statistics.VarianceOfEqualResults |
| CounterDeckBuilderCore/CounterDeckBuilderCore/SimulateGames.cs:141-148 | the pinned card is written at its slot before `FindIndex(-1)` throws, so a pinned name missing from the shuffled deck replaces a card | deck [a, b] and a pin of c at position 1, c's name not in the deck | the deck stays a permutation of the shuffled deck | medium, not executed | Simulator.PinOneAsWritten, Simulator.PinAllAsWritten, Simulator.PinAsWrittenReplacesCard | Simulator.PinOne, Simulator.PinAll |

=== FILE: agents.dfy ===
/** The four agents of `CoreAI.cs`. A game state is a finite tree: every node
    carries the score the agent's heuristic gives it and the options of the
    current player, each leading to the state after processing it. The random
    number generator is a sequence of draws. */
module Agents {
  import opened Common

  datatype GameNode = GameNode(score: int, options: seq<Move>)
  /** `endTurn`: the option is an `EndTurnTask`. */
  datatype Move = Move(endTurn: bool, next: GameNode)

  /** `HasNextMove`, the same for every agent: the current player has options. */
  predicate HasNextMove(node: GameNode) {
    |node.options| > 0
  }

  /** What `GetNextMove` returns: `null`, the index of an option, or (for the
      random agents) a draw sequence too short to decide. */
  datatype Choice = NoMove | Chose(index: nat) | OutOfDraws

  // ---------------------------------------------------------------------------
  // Random agents

  /** `RandomNonGreedyPlayer.GetNextMove`: a uniformly drawn option
      (`Brain.Next(n)` is `draw % n`). */
  function NonGreedyMove(node: GameNode, draws: seq<nat>): (r: Choice)
    ensures r.NoMove? <==> !HasNextMove(node)
    ensures r.Chose? ==> |draws| > 0 && r.index < |node.options| && r.index == draws[0] % |node.options|
    ensures r.OutOfDraws? <==> HasNextMove(node) && |draws| == 0
  {
    if |node.options| == 0 then NoMove
    else if |draws| == 0 then OutOfDraws
    else Chose(draws[0] % |node.options|)
  }

  /** An option the random greedy agent may return: with more than one
      option, anything but the end of turn. */
  predicate Acceptable(options: seq<Move>, i: nat) {
    i < |options| && (|options| > 1 ==> !options[i].endTurn)
  }

  /** The redraw loop of `RandomDumbGreedyPlayer.GetNextMove`. */
  function DumbGreedyDraws(options: seq<Move>, draws: seq<nat>): (r: Choice)
    requires |options| > 0
    ensures r.Chose? ==> Acceptable(options, r.index)
    ensures r.Chose? <==> exists k :: 0 <= k < |draws| && Acceptable(options, draws[k] % |options|)
    ensures r.Chose? ==> exists k :: 0 <= k < |draws| && r.index == draws[k] % |options| &&
                                     forall k' :: 0 <= k' < k ==> !Acceptable(options, draws[k'] % |options|)
    ensures !r.NoMove?
  {
    if |draws| == 0 then OutOfDraws
    else
      var o := draws[0] % |options|;
      if !Acceptable(options, o) then
        var r := DumbGreedyDraws(options, draws[1..]);
        assert forall k :: 1 <= k < |draws| ==> draws[1..][k - 1] == draws[k];
        r
      else Chose(o)
  }

  /** `RandomDumbGreedyPlayer.GetNextMove`: draw until the option is not the
      end of turn, unless the end of turn is the only option. */
  function DumbGreedyMove(node: GameNode, draws: seq<nat>): (r: Choice)
    ensures r.NoMove? <==> !HasNextMove(node)
    ensures r.Chose? ==> r.index < |node.options|
    ensures r.Chose? && |node.options| > 1 ==> !node.options[r.index].endTurn
    ensures |node.options| == 1 && |draws| > 0 ==> r == Chose(0)
  {
    if |node.options| == 0 then NoMove else DumbGreedyDraws(node.options, draws)
  }

  // ---------------------------------------------------------------------------
  // Step greedy

  /** An option the step-greedy agent considers: not the end of turn, and
      leading to a score at least the current state's. */
  predicate Improves(node: GameNode, j: nat) {
    j < |node.options| && !node.options[j].endTurn && node.options[j].next.score >= node.score
  }

  /** `HeuristicStepGreedyPlayer.GetNextMove`: with one option, that option;
      otherwise the last option (not an end of turn) whose successor scores
      highest among those at least as good as the current state, or option 0
      when none is. */
  method StepGreedyMove(node: GameNode) returns (r: Choice)
    ensures r.NoMove? <==> !HasNextMove(node)
    ensures !r.OutOfDraws?
    ensures |node.options| == 1 ==> r == Chose(0)
    ensures |node.options| > 1 && (forall j :: 0 <= j < |node.options| ==> !Improves(node, j)) ==> r == Chose(0)
    ensures |node.options| > 1 && (exists j :: 0 <= j < |node.options| && Improves(node, j)) ==>
              r.Chose? && Improves(node, r.index) &&
              (forall j :: 0 <= j < |node.options| && Improves(node, j) ==>
                 node.options[j].next.score <= node.options[r.index].next.score) &&
              (forall j :: r.index < j < |node.options| && Improves(node, j) ==>
                 node.options[j].next.score < node.options[r.index].next.score)
  {
    var options := node.options;
    if |options| == 0 {
      return NoMove;
    }
    if |options| == 1 {
      return Chose(0);
    }
    var bestIndex: nat := 0;
    var bestScore := node.score;
    var found := false;
    for index := 0 to |options|
      invariant found <==> exists j :: 0 <= j < index && Improves(node, j)
      invariant !found ==> bestIndex == 0 && bestScore == node.score
      invariant bestScore >= node.score
      invariant found ==> bestIndex < index && Improves(node, bestIndex) && bestScore == options[bestIndex].next.score
      invariant forall j :: 0 <= j < index && Improves(node, j) ==> options[j].next.score <= bestScore
      invariant forall j :: bestIndex < j < index && Improves(node, j) ==> options[j].next.score < bestScore
    {
      if !options[index].endTurn {
        var score := options[index].next.score;
        if score >= bestScore {
          bestIndex, bestScore, found := index, score, true;
        }
      }
      assert Improves(node, index) ==> found;
    }
    return Chose(bestIndex);
  }

  // ---------------------------------------------------------------------------
  // Turn greedy

  /** A turn plan as `GetTaskIndices` stores it: the choice at the current
      state last, then the choices after it, ending in the 0 of a state whose
      only option is left (the end of turn). Only options 1.. are explored. */
  ghost predicate ValidPlan(node: GameNode, plan: seq<nat>)
    decreases node
  {
    if |node.options| == 1 then plan == [0]
    else
      |plan| >= 1 && 1 <= plan[|plan| - 1] < |node.options| &&
      ValidPlan(node.options[plan[|plan| - 1]].next, plan[..|plan| - 1])
  }

  /** The score of the state a plan ends in. */
  ghost function PlanScore(node: GameNode, plan: seq<nat>): int
    requires ValidPlan(node, plan)
    decreases node
  {
    if |node.options| == 1 then node.score
    else PlanScore(node.options[plan[|plan| - 1]].next, plan[..|plan| - 1])
  }

  /** No plan from `node` ends above `s`. */
  ghost predicate Dominates(node: GameNode, s: int) {
    forall plan :: ValidPlan(node, plan) ==> PlanScore(node, plan) <= s
  }

  /** Every plan from `node` ends below `s`. */
  ghost predicate Below(node: GameNode, s: int) {
    forall plan :: ValidPlan(node, plan) ==> PlanScore(node, plan) < s
  }

  /** Exploring `node` reaches a state without options, where the search
      dereferences its still-null result list. */
  ghost predicate DeadEnd(node: GameNode)
    decreases node
  {
    |node.options| == 0 ||
    (|node.options| > 1 && exists j :: 1 <= j < |node.options| && DeadEnd(node.options[j].next))
  }

  /** A plan and the score the search reports with it. */
  datatype Plan = Plan(indices: seq<nat>, score: int)

  /** `GetTaskIndices(game, ref score)`. With `propagate` false it is the
      method as written: on a state with several options the `score`
      parameter is never assigned, so the caller sees the 0 it passed in.
      With `propagate` true the best score is passed up. */
  function TaskIndices(node: GameNode, propagate: bool): (r: Option<Plan>)
    ensures r.None? <==> DeadEnd(node)
    ensures r.Some? ==> ValidPlan(node, r.value.indices)
    ensures r.Some? && !propagate ==> r.value.score == if |node.options| == 1 then node.score else 0
    ensures r.Some? && propagate ==> PlanScore(node, r.value.indices) == r.value.score && Dominates(node, r.value.score)
    decreases node, 1
  {
    if |node.options| == 1 then Some(Plan([0], node.score))
    else if |node.options| == 0 then None
    else TaskIndicesFrom(node, propagate, 1, None)
  }

  /** What the search loop knows before option `i`: the best so far is the
      last option among 1..i-1 whose reported score is at least every
      earlier one. */
  ghost predicate SearchState(node: GameNode, propagate: bool, i: nat, best: Option<(nat, Plan)>) {
    1 <= i <= |node.options| &&
    (best.None? <==> i == 1) &&
    (forall j :: 1 <= j < i ==> !DeadEnd(node.options[j].next)) &&
    (best.Some? ==>
      1 <= best.value.0 < i &&
      ValidPlan(node.options[best.value.0].next, best.value.1.indices) &&
      (propagate ==>
        PlanScore(node.options[best.value.0].next, best.value.1.indices) == best.value.1.score &&
        (forall j :: 1 <= j < i ==> Dominates(node.options[j].next, best.value.1.score)) &&
        (forall j :: best.value.0 < j < i ==> Below(node.options[j].next, best.value.1.score))))
  }

  /** The `for (int i = 1; i < options.Count; i++)` loop of `GetTaskIndices`
      from option `i` on. */
  function TaskIndicesFrom(node: GameNode, propagate: bool, i: nat, best: Option<(nat, Plan)>): (r: Option<Plan>)
    requires |node.options| > 1
    requires SearchState(node, propagate, i, best)
    ensures r.None? <==> exists j :: i <= j < |node.options| && DeadEnd(node.options[j].next)
    ensures r.Some? ==> ValidPlan(node, r.value.indices)
    ensures r.Some? && !propagate ==> r.value.score == 0
    ensures r.Some? && propagate ==>
              PlanScore(node, r.value.indices) == r.value.score &&
              (forall j :: 1 <= j < |node.options| ==> Dominates(node.options[j].next, r.value.score)) &&
              (forall j :: r.value.indices[|r.value.indices| - 1] < j < |node.options| ==>
                 Below(node.options[j].next, r.value.score))
    decreases node, 0, |node.options| - i
  {
    if i == |node.options| then
      var (index, plan) := best.value;
      var indices := plan.indices + [index];
      assert indices[..|indices| - 1] == plan.indices;
      Some(Plan(indices, if propagate then plan.score else 0))
    else
      var sub := TaskIndices(node.options[i].next, propagate);
      if sub.None? then None
      else if best.None? || sub.value.score >= best.value.1.score then
        TaskIndicesFrom(node, propagate, i + 1, Some((i, sub.value)))
      else
        TaskIndicesFrom(node, propagate, i + 1, best)
  }

  /** The search as written. */
  function GetTaskIndicesAsWritten(node: GameNode): (r: Option<Plan>)
    ensures r.None? <==> DeadEnd(node)
    ensures r.Some? ==> ValidPlan(node, r.value.indices)
    ensures r.Some? && |node.options| > 1 ==> r.value.score == 0
  {
    TaskIndices(node, false)
  }

  /** The search with the score passed up: its plan is valid, reaches the
      score it reports, and no plan reaches more. */
  function GetTaskIndices(node: GameNode): (r: Option<Plan>)
    ensures r.None? <==> DeadEnd(node)
    ensures r.Some? ==> ValidPlan(node, r.value.indices) &&
                        PlanScore(node, r.value.indices) == r.value.score &&
                        Dominates(node, r.value.score)
  {
    TaskIndices(node, true)
  }

  /** A plan is never empty and ends in the 0 of the end of turn. */
  lemma {:induction false} ValidPlanShape(node: GameNode, plan: seq<nat>)
    requires ValidPlan(node, plan)
    ensures |plan| >= 1 && plan[0] == 0
    ensures forall k :: 1 <= k < |plan| ==> plan[k] >= 1
    decreases node
  {
    if |node.options| != 1 {
      var last := plan[|plan| - 1];
      var rest := plan[..|plan| - 1];
      ValidPlanShape(node.options[last].next, rest);
      assert forall k :: 0 <= k < |rest| ==> plan[k] == rest[k];
    }
  }

  /** The tree on which the search as written goes wrong: option 1 ends the
      turn at score 5, option 2 leads to a state whose option 1 ends it at
      score 10. The deeper state has two options, so its score comes back as
      0 and the search picks option 1. */
  function ShallowTrap(): GameNode {
    var endTurn := Move(true, GameNode(0, []));
    var leaf5 := GameNode(5, [endTurn]);
    var leaf10 := GameNode(10, [endTurn]);
    GameNode(0, [endTurn, Move(false, leaf5), Move(false, GameNode(0, [endTurn, Move(false, leaf10)]))])
  }

  lemma TaskIndicesAsWrittenMissesBest()
    ensures GetTaskIndicesAsWritten(ShallowTrap()) == Some(Plan([0, 1], 0))
    ensures ValidPlan(ShallowTrap(), [0, 1, 2]) && PlanScore(ShallowTrap(), [0, 1, 2]) == 10
    ensures PlanScore(ShallowTrap(), [0, 1]) == 5
    ensures GetTaskIndices(ShallowTrap()) == Some(Plan([0, 1, 2], 10))
  {
    var root := ShallowTrap();
    var deep := root.options[2].next;
    assert [0, 1, 2][..2] == [0, 1];
    assert [0, 1][..1] == [0];
    var leaf5 := root.options[1].next;
    var leaf10 := deep.options[1].next;
    assert TaskIndices(leaf5, false) == Some(Plan([0], 5));
    assert TaskIndices(leaf10, false) == Some(Plan([0], 10));
    assert [0] + [1] == [0, 1];
    assert [0, 1] + [2] == [0, 1, 2];
    assert TaskIndicesFrom(deep, false, 2, Some((1, Plan([0], 10)))) == Some(Plan([0, 1], 0));
    assert TaskIndices(deep, false) == Some(Plan([0, 1], 0));
    assert TaskIndicesFrom(root, false, 3, Some((1, Plan([0], 5)))) == Some(Plan([0, 1], 0));
    assert TaskIndicesFrom(root, false, 2, Some((1, Plan([0], 5)))) == Some(Plan([0, 1], 0));
    assert TaskIndices(leaf5, true) == Some(Plan([0], 5));
    assert TaskIndices(leaf10, true) == Some(Plan([0], 10));
    assert TaskIndicesFrom(deep, true, 2, Some((1, Plan([0], 10)))) == Some(Plan([0, 1], 10));
    assert TaskIndices(deep, true) == Some(Plan([0, 1], 10));
    assert TaskIndicesFrom(root, true, 3, Some((2, Plan([0, 1], 10)))) == Some(Plan([0, 1, 2], 10));
  }

  /** `HeuristicTurnGreedyPlayer.GetNextMove` with the stored plan `plan`:
      with one option, play it and forget the plan; with a plan, pop its last
      index (an index past the options throws, and option 0 is played);
      otherwise search, play the plan's last index and keep the rest. A
      failed search plays option 0. */
  function TurnGreedyMove(node: GameNode, plan: seq<nat>): (r: (Choice, seq<nat>))
    ensures r.0.NoMove? <==> !HasNextMove(node)
    ensures r.0.Chose? ==> r.0.index < |node.options|
    ensures !r.0.OutOfDraws?
    ensures |node.options| == 1 ==> r == (Chose(0), [])
    ensures |node.options| > 1 && |plan| > 0 ==>
              (r.1 == plan[..|plan| - 1] &&
               (plan[|plan| - 1] < |node.options| ==> r.0 == Chose(plan[|plan| - 1])))
    ensures |node.options| > 1 && |plan| == 0 && !DeadEnd(node) ==>
              r.0.Chose? &&
              ValidPlan(node, r.1 + [r.0.index]) &&
              ValidPlan(node.options[r.0.index].next, r.1) &&
              Dominates(node, PlanScore(node, r.1 + [r.0.index]))
  {
    var options := node.options;
    if |options| == 0 then (NoMove, plan)
    else if |options| == 1 then (Chose(0), [])
    else if |plan| > 0 then
      var ind := plan[|plan| - 1];
      (Chose(if ind < |options| then ind else 0), plan[..|plan| - 1])
    else
      match GetTaskIndices(node)
      case None => (Chose(0), plan)
      case Some(found) =>
        var indices := found.indices;
        assert indices == indices[..|indices| - 1] + [indices[|indices| - 1]];
        (Chose(indices[|indices| - 1]), indices[..|indices| - 1])
  }

  // ---------------------------------------------------------------------------
  // Choosing an agent

  /** The `Player` enumeration. */
  datatype PlayerKind = RandomNonGreedy | HeuristicStep | HeuristicTurn | RandomDumbGreedy

  /** An agent with its state: the turn-greedy agent keeps its plan. The
      heuristic is the one that scored the game tree. */
  datatype Agent = NonGreedyAgent | StepGreedyAgent | TurnGreedyAgent(plan: seq<nat>) | DumbGreedyAgent

  /** `PlayerExtension.GetPlayer`: each kind becomes its agent; the turn-greedy
      agent starts without a plan. */
  function GetPlayer(pl: PlayerKind): (r: Agent)
    ensures r.TurnGreedyAgent? ==> r.plan == []
    ensures (r.StepGreedyAgent? || r.TurnGreedyAgent?) <==> (pl == HeuristicStep || pl == HeuristicTurn)
    ensures r.DumbGreedyAgent? <==> pl == RandomDumbGreedy
    ensures r.NonGreedyAgent? <==> pl == RandomNonGreedy
    ensures r.StepGreedyAgent? <==> pl == HeuristicStep
  {
    match pl
    case HeuristicStep => StepGreedyAgent
    case HeuristicTurn => TurnGreedyAgent([])
    case RandomDumbGreedy => DumbGreedyAgent
    case RandomNonGreedy => NonGreedyAgent
  }

  /** `GetNextMove` of whichever agent: every agent answers `null` exactly
      when `HasNextMove` is false and otherwise names one of the options. */
  method NextMove(agent: Agent, node: GameNode, draws: seq<nat>) returns (r: Choice, agent': Agent)
    ensures r.NoMove? <==> !HasNextMove(node)
    ensures r.Chose? ==> r.index < |node.options|
    ensures agent'.TurnGreedyAgent? <==> agent.TurnGreedyAgent?
    ensures !agent.TurnGreedyAgent? ==> agent' == agent
    ensures agent.DumbGreedyAgent? && r.Chose? && |node.options| > 1 ==> !node.options[r.index].endTurn
  {
    agent' := agent;
    match agent
    case NonGreedyAgent =>
      r := NonGreedyMove(node, draws);
    case StepGreedyAgent =>
      r := StepGreedyMove(node);
    case TurnGreedyAgent(plan) =>
      var (c, plan') := TurnGreedyMove(node, plan);
      r, agent' := c, TurnGreedyAgent(plan');
    case DumbGreedyAgent =>
      r := DumbGreedyMove(node, draws);
  }
}

=== FILE: cards.dfy ===
/** Cards as the deck-search code sees them: a name, a mana cost, a class and
    whether the card is legendary. The card catalogue itself belongs to the
    game engine and is passed in as a sequence. */
module Cards {
  import opened Common

  datatype CardClass = Invalid | Neutral | Hero(className: string)

  /** Catalogue cards are unique objects in the engine, so value equality of
      this datatype stands for reference equality there. */
  datatype Card = Card(name: string, cost: nat, cls: CardClass, legendary: bool)

  /** A card may go into a deck of `hero` when it is neutral or of that class. */
  predicate FitsClass(c: Card, hero: CardClass) {
    c.cls == Neutral || c.cls == hero
  }

  /** `cards.FindAll(card => card.Name == name).Count`. */
  function NameCount(cards: seq<Card>, name: string): nat
  {
    if |cards| == 0 then 0
    else (if cards[0].name == name then 1 else 0) + NameCount(cards[1..], name)
  }

  lemma {:induction false} NameCountAppend(a: seq<Card>, b: seq<Card>, name: string)
    ensures NameCount(a + b, name) == NameCount(a, name) + NameCount(b, name)
  {
    if |a| > 0 {
      NameCountAppend(a[1..], b, name);
      assert (a + b)[1..] == a[1..] + b;
    } else {
      assert a + b == b;
    }
  }

  /** Overwriting one slot changes the count of a name by at most the two cards involved. */
  lemma {:induction false} NameCountUpdate(cards: seq<Card>, i: nat, c: Card, name: string)
    requires i < |cards|
    ensures NameCount(cards[i := c], name)
         == NameCount(cards, name) - (if cards[i].name == name then 1 else 0) + (if c.name == name then 1 else 0)
  {
    if i == 0 {
      assert cards[i := c][1..] == cards[1..];
    } else {
      NameCountUpdate(cards[1..], i - 1, c, name);
      assert cards[i := c][1..] == cards[1..][i - 1 := c];
    }
  }

  /** A card of a deck counts towards its own name. */
  lemma {:induction false} NameCountPositive(cards: seq<Card>, i: nat)
    requires i < |cards|
    ensures NameCount(cards, cards[i].name) >= 1
  {
    if i > 0 {
      NameCountPositive(cards[1..], i - 1);
    }
  }

  /** The mana curve of a card list: its costs in order. */
  function Costs(cards: seq<Card>): (r: seq<int>)
    ensures |r| == |cards|
    ensures forall i :: 0 <= i < |cards| ==> r[i] == cards[i].cost
  {
    if |cards| == 0 then [] else [cards[0].cost] + Costs(cards[1..])
  }

  function Names(cards: seq<Card>): (r: seq<string>)
    ensures |r| == |cards|
    ensures forall i :: 0 <= i < |cards| ==> r[i] == cards[i].name
  {
    seq(|cards|, i requires 0 <= i < |cards| => cards[i].name)
  }

  /** `Cards.FromName`: the first catalogue card with that name, or null (None). */
  function FromName(catalog: seq<Card>, name: string): (r: Option<Card>)
    ensures r.Some? ==> r.value in catalog && r.value.name == name
    ensures r.None? <==> forall c :: c in catalog ==> c.name != name
  {
    if |catalog| == 0 then None
    else if catalog[0].name == name then Some(catalog[0])
    else FromName(catalog[1..], name)
  }

  /** The hero class the deck parsers infer: the class of the last non-neutral card, else `start`. */
  function LastClass(cards: seq<Card>, start: CardClass): (r: CardClass)
  {
    if |cards| == 0 then start
    else if cards[|cards| - 1].cls != Neutral then cards[|cards| - 1].cls
    else LastClass(cards[..|cards| - 1], start)
  }

  lemma {:induction false} LastClassAppend(cards: seq<Card>, c: Card, start: CardClass)
    ensures LastClass(cards + [c], start) == if c.cls != Neutral then c.cls else LastClass(cards, start)
  {
    assert (cards + [c])[..|cards|] == cards;
  }

  lemma {:induction false} LastClassConcat(a: seq<Card>, b: seq<Card>, start: CardClass)
    ensures LastClass(a + b, start) == LastClass(b, LastClass(a, start))
    decreases |b|
  {
    if |b| > 0 {
      var b' := b[..|b| - 1];
      assert a + b == (a + b') + [b[|b| - 1]];
      assert b == b' + [b[|b| - 1]];
      LastClassAppend(a + b', b[|b| - 1], start);
      LastClassAppend(b', b[|b| - 1], LastClass(a, start));
      LastClassConcat(a, b', start);
    } else {
      assert a + b == a;
    }
  }

  // ---------------------------------------------------------------------------
  // Ordinal string order, standing for the name comparison `List.Sort` uses.

  predicate NameLeq(a: string, b: string)
  {
    |a| == 0 || (|b| > 0 && (a[0] < b[0] || (a[0] == b[0] && NameLeq(a[1..], b[1..]))))
  }

  lemma {:induction false} NameLeqTotal(a: string, b: string)
    ensures NameLeq(a, b) || NameLeq(b, a)
  {
    if |a| > 0 && |b| > 0 && a[0] == b[0] {
      NameLeqTotal(a[1..], b[1..]);
    }
  }

  lemma {:induction false} NameLeqTransitive(a: string, b: string, c: string)
    requires NameLeq(a, b) && NameLeq(b, c)
    ensures NameLeq(a, c)
  {
    if |a| > 0 && |b| > 0 && |c| > 0 && a[0] == b[0] && b[0] == c[0] {
      NameLeqTransitive(a[1..], b[1..], c[1..]);
    }
  }

  lemma {:induction false} NameLeqAntisymmetric(a: string, b: string)
    requires NameLeq(a, b) && NameLeq(b, a)
    ensures a == b
  {
    if |a| > 0 && |b| > 0 {
      NameLeqAntisymmetric(a[1..], b[1..]);
      assert a == [a[0]] + a[1..] && b == [b[0]] + b[1..];
    }
  }

  /** `(c1, c2) => c1.Name.CompareTo(c2.Name)` as a "less or equal" relation. */
  predicate ByName(x: Card, y: Card) {
    NameLeq(x.name, y.name)
  }

  lemma ByNameTotalOrder()
    ensures TotalRel(ByName)
    ensures TransitiveRel(ByName)
  {
    forall a: Card, b: Card
      ensures ByName(a, b) || ByName(b, a)
    {
      NameLeqTotal(a.name, b.name);
    }
    forall a: Card, b: Card, c: Card | ByName(a, b) && ByName(b, c)
      ensures ByName(a, c)
    {
      NameLeqTransitive(a.name, b.name, c.name);
    }
  }

  /** `deck.Sort((c1, c2) => c1.Name.CompareTo(c2.Name))`. */
  function SortByName(cards: seq<Card>): (r: seq<Card>)
    ensures multiset(r) == multiset(cards)
    ensures |r| == |cards|
    ensures Sorted(r, ByName)
  {
    ByNameTotalOrder();
    SortBySorted(cards, ByName);
    AdjacentSortedIsSorted(SortBy(cards, ByName), ByName);
    SortBy(cards, ByName)
  }

  /** In a name-sorted list, a card whose name differs from its predecessor's is
      the first card of that name. */
  lemma NameRunStart(cards: seq<Card>, i: nat)
    requires Sorted(cards, ByName)
    requires 0 < i < |cards|
    requires cards[i - 1].name != cards[i].name
    ensures forall j :: 0 <= j < i ==> cards[j].name != cards[i].name
  {
    forall j | 0 <= j < i
      ensures cards[j].name != cards[i].name
    {
      if cards[j].name == cards[i].name {
        assert ByName(cards[j], cards[i - 1]) || j == i - 1;
        if j < i - 1 {
          assert NameLeq(cards[i].name, cards[i - 1].name);
          assert NameLeq(cards[i - 1].name, cards[i].name);
          NameLeqAntisymmetric(cards[i - 1].name, cards[i].name);
        }
      }
    }
  }
}

=== FILE: combinatorics.dfy ===
/** `MathsExtension.Combinations` and `MathsExtension.Shuffle`. */
module Combinatorics {
  import opened Common

  // ---------------------------------------------------------------------------
  // k-combinations

  /** `[x] ++ c` for every `c`, in order. */
  function Prepend<T>(x: T, cs: seq<seq<T>>): (r: seq<seq<T>>)
    ensures |r| == |cs|
    ensures forall i :: 0 <= i < |cs| ==> r[i] == [x] + cs[i]
  {
    seq(|cs|, i requires 0 <= i < |cs| => [x] + cs[i])
  }

  /** `Combinations(k)`: one empty combination for k = 0; otherwise, for each
      element in turn, that element followed by every (k-1)-combination of the
      elements after it. */
  function Combinations<T>(s: seq<T>, k: int): seq<seq<T>>
    decreases |s|, 1
  {
    if k == 0 then [[]] else FromEach(s, k)
  }

  /** The `SelectMany` over the elements of `s`: element `i` contributes the
      combinations that start with it and continue within `s.Skip(i + 1)`. */
  function FromEach<T>(s: seq<T>, k: int): seq<seq<T>>
    decreases |s|, 0
  {
    if |s| == 0 then []
    else Prepend(s[0], Combinations(s[1..], k - 1)) + FromEach(s[1..], k)
  }

  /** Binomial coefficient by Pascal's rule; 0 for k < 0 or k > n. */
  function Choose(n: nat, k: int): nat {
    if k < 0 then 0
    else if k == 0 then 1
    else if n == 0 then 0
    else Choose(n - 1, k - 1) + Choose(n - 1, k)
  }

  /** There are exactly C(n, k) combinations. */
  lemma {:induction false} CombinationsCount<T>(s: seq<T>, k: int)
    ensures |Combinations(s, k)| == Choose(|s|, k)
    decreases |s|, 1
  {
    if k != 0 {
      FromEachCount(s, k);
    }
  }

  lemma {:induction false} FromEachCount<T>(s: seq<T>, k: int)
    requires k != 0
    ensures |FromEach(s, k)| == Choose(|s|, k)
    decreases |s|, 0
  {
    if |s| > 0 {
      CombinationsCount(s[1..], k - 1);
      FromEachCount(s[1..], k);
    }
  }

  /** `c` is `s` with some elements left out, the rest kept in order. */
  predicate IsSubseq<T(==)>(c: seq<T>, s: seq<T>)
    decreases |s|
  {
    |c| == 0 || (|s| > 0 && ((c[0] == s[0] && IsSubseq(c[1..], s[1..])) || IsSubseq(c, s[1..])))
  }

  /** Every combination has k elements and is an order-preserving subsequence. */
  lemma {:induction false} CombinationsAreSubseqs<T>(s: seq<T>, k: int, c: seq<T>)
    requires c in Combinations(s, k)
    ensures |c| == k && IsSubseq(c, s)
    decreases |s|, 1
  {
    if k != 0 {
      FromEachAreSubseqs(s, k, c);
    }
  }

  lemma {:induction false} FromEachAreSubseqs<T>(s: seq<T>, k: int, c: seq<T>)
    requires c in FromEach(s, k)
    ensures |c| == k && IsSubseq(c, s)
    decreases |s|, 0
  {
    var head := Prepend(s[0], Combinations(s[1..], k - 1));
    if c in head {
      var i :| 0 <= i < |head| && head[i] == c;
      var rest := Combinations(s[1..], k - 1)[i];
      CombinationsAreSubseqs(s[1..], k - 1, rest);
      assert c[1..] == rest;
    } else {
      FromEachAreSubseqs(s[1..], k, c);
      assert IsSubseq(c, s[1..]);
    }
  }

  // Positions: combinations of the index range [lo, hi).

  function Range(lo: int, hi: int): (r: seq<int>)
    ensures |r| == if lo <= hi then hi - lo else 0
    ensures forall i :: 0 <= i < |r| ==> r[i] == lo + i
    decreases hi - lo
  {
    if lo >= hi then [] else [lo] + Range(lo + 1, hi)
  }

  predicate Increasing(c: seq<int>) {
    forall i, j :: 0 <= i < j < |c| ==> c[i] < c[j]
  }

  predicate Within(c: seq<int>, lo: int, hi: int) {
    forall i :: 0 <= i < |c| ==> lo <= c[i] < hi
  }

  /** An increasing sequence within [lo, hi) is its first element, in range,
      followed by an increasing sequence above it. */
  lemma ConsShape(c: seq<int>, lo: int, hi: int)
    requires |c| > 0
    ensures Increasing(c) && Within(c, lo, hi) <==>
            lo <= c[0] < hi && Increasing(c[1..]) && Within(c[1..], c[0] + 1, hi)
  {
    if lo <= c[0] < hi && Increasing(c[1..]) && Within(c[1..], c[0] + 1, hi) {
      forall i, j | 0 <= i < j < |c|
        ensures c[i] < c[j]
      {
        if i > 0 {
          assert c[i] == c[1..][i - 1] && c[j] == c[1..][j - 1];
        } else {
          assert c[j] == c[1..][j - 1];
        }
      }
      forall i | 0 <= i < |c|
        ensures lo <= c[i] < hi
      {
        if i > 0 {
          assert c[i] == c[1..][i - 1];
        }
      }
    }
  }

  /** Over positions, the combinations are exactly the increasing k-sequences
      of distinct positions: no position is used twice, and every such choice
      is produced. */
  lemma {:induction false} CombinationsOfRange(lo: int, hi: int, k: int, c: seq<int>)
    ensures c in Combinations(Range(lo, hi), k) <==> |c| == k && Increasing(c) && Within(c, lo, hi)
    decreases hi - lo, 1
  {
    if k != 0 {
      FromEachOfRangeSound(lo, hi, k, c);
      FromEachOfRangeComplete(lo, hi, k, c);
    }
  }

  /** `FromEach` over a non-empty range: the combinations starting at `lo`,
      then those of the range after it. */
  lemma FromEachOfRangeSplit(lo: int, hi: int, k: int)
    requires lo < hi
    ensures FromEach(Range(lo, hi), k) ==
            Prepend(lo, Combinations(Range(lo + 1, hi), k - 1)) + FromEach(Range(lo + 1, hi), k)
  {
    var s := Range(lo, hi);
    assert s[0] == lo;
    assert s[1..] == Range(lo + 1, hi);
  }

  lemma {:induction false} FromEachOfRangeSound(lo: int, hi: int, k: int, c: seq<int>)
    requires k != 0
    ensures c in FromEach(Range(lo, hi), k) ==> |c| == k && Increasing(c) && Within(c, lo, hi)
    decreases hi - lo, 0
  {
    if lo < hi && c in FromEach(Range(lo, hi), k) {
      var tails := Combinations(Range(lo + 1, hi), k - 1);
      var head := Prepend(lo, tails);
      var rest := FromEach(Range(lo + 1, hi), k);
      FromEachOfRangeSplit(lo, hi, k);
      assert c in head || c in rest;
      if c in head {
        var i :| 0 <= i < |head| && head[i] == c;
        CombinationsOfRange(lo + 1, hi, k - 1, tails[i]);
        assert c[0] == lo && c[1..] == tails[i];
        ConsShape(c, lo, hi);
      } else {
        FromEachOfRangeSound(lo + 1, hi, k, c);
        WithinWiden(c, lo, lo + 1, hi);
      }
    }
  }

  lemma WithinWiden(c: seq<int>, lo: int, lo': int, hi: int)
    requires lo <= lo' && Within(c, lo', hi)
    ensures Within(c, lo, hi)
  {
  }

  lemma {:induction false} FromEachOfRangeComplete(lo: int, hi: int, k: int, c: seq<int>)
    requires k != 0
    ensures |c| == k && Increasing(c) && Within(c, lo, hi) ==> c in FromEach(Range(lo, hi), k)
    decreases hi - lo, 0
  {
    if |c| == k && Increasing(c) && Within(c, lo, hi) {
      assert lo <= c[0] < hi;
      var tails := Combinations(Range(lo + 1, hi), k - 1);
      var head := Prepend(lo, tails);
      FromEachOfRangeSplit(lo, hi, k);
      if c[0] == lo {
        ConsShape(c, lo, hi);
        CombinationsOfRange(lo + 1, hi, k - 1, c[1..]);
        var i :| 0 <= i < |tails| && tails[i] == c[1..];
        assert head[i] == c;
      } else {
        assert Within(c, lo + 1, hi) by {
          forall i | 0 <= i < |c|
            ensures lo + 1 <= c[i]
          {
            if i > 0 {
              assert c[0] < c[i];
            }
          }
        }
        FromEachOfRangeComplete(lo + 1, hi, k, c);
      }
    }
  }

  predicate NoDuplicates<T(==)>(s: seq<T>) {
    forall i, j :: 0 <= i < j < |s| ==> s[i] != s[j]
  }

  /** Over positions no combination is produced twice, so the C(n, k) results
      are C(n, k) different choices. */
  lemma {:induction false} CombinationsOfRangeDistinct(lo: int, hi: int, k: int)
    ensures NoDuplicates(Combinations(Range(lo, hi), k))
    decreases hi - lo, 1
  {
    if k != 0 {
      FromEachOfRangeDistinct(lo, hi, k);
    }
  }

  lemma {:induction false} FromEachOfRangeDistinct(lo: int, hi: int, k: int)
    requires k != 0
    ensures NoDuplicates(FromEach(Range(lo, hi), k))
    decreases hi - lo, 0
  {
    if lo < hi {
      var s := Range(lo, hi);
      assert s[1..] == Range(lo + 1, hi);
      var tails := Combinations(Range(lo + 1, hi), k - 1);
      var head := Prepend(lo, tails);
      var rest := FromEach(Range(lo + 1, hi), k);
      CombinationsOfRangeDistinct(lo + 1, hi, k - 1);
      FromEachOfRangeDistinct(lo + 1, hi, k);
      assert NoDuplicates(head) by {
        forall i, j | 0 <= i < j < |head|
          ensures head[i] != head[j]
        {
          assert head[i][1..] == tails[i] && head[j][1..] == tails[j];
        }
      }
      forall j | 0 <= j < |rest|
        ensures |rest[j]| > 0 && rest[j][0] > lo
      {
        FromEachOfRangeSound(lo + 1, hi, k, rest[j]);
      }
      var all := head + rest;
      forall i, j | 0 <= i < j < |all|
        ensures all[i] != all[j]
      {
        if i < |head| && j >= |head| {
          assert all[i][0] == lo;
          assert all[j] == rest[j - |head|];
        } else if i >= |head| {
          assert all[i] == rest[i - |head|] && all[j] == rest[j - |head|];
        }
      }
    }
  }

  // ---------------------------------------------------------------------------
  // Shuffle

  /** `OrderBy(x => x.Number)` on (key, item) pairs: a stable sort by key. */
  predicate KeyLeq<T>(a: (nat, T), b: (nat, T)) {
    a.0 <= b.0
  }

  lemma KeyLeqTotalOrder<T(!new)>()
    ensures TotalRel(KeyLeq<T>)
    ensures TransitiveRel(KeyLeq<T>)
  {
  }

  function Zip<T>(keys: seq<nat>, items: seq<T>): (r: seq<(nat, T)>)
    requires |keys| == |items|
    ensures |r| == |items|
    ensures forall i :: 0 <= i < |r| ==> r[i] == (keys[i], items[i])
  {
    seq(|items|, i requires 0 <= i < |items| => (keys[i], items[i]))
  }

  function Items<T>(ps: seq<(nat, T)>): (r: seq<T>)
    ensures |r| == |ps|
    ensures forall i :: 0 <= i < |r| ==> r[i] == ps[i].1
  {
    if |ps| == 0 then [] else [ps[0].1] + Items(ps[1..])
  }

  lemma {:induction false} ItemsInsert<T>(x: (nat, T), ps: seq<(nat, T)>, leq: ((nat, T), (nat, T)) -> bool)
    ensures multiset(Items(Insert(x, ps, leq))) == multiset{x.1} + multiset(Items(ps))
  {
    if |ps| > 0 && !leq(x, ps[0]) {
      ItemsInsert(x, ps[1..], leq);
      assert Insert(x, ps, leq)[1..] == Insert(x, ps[1..], leq);
    }
  }

  lemma {:induction false} ItemsSortBy<T>(ps: seq<(nat, T)>, leq: ((nat, T), (nat, T)) -> bool)
    ensures multiset(Items(SortBy(ps, leq))) == multiset(Items(ps))
  {
    if |ps| > 0 {
      ItemsSortBy(ps[1..], leq);
      ItemsInsert(ps[0], SortBy(ps[1..], leq), leq);
    }
  }

  lemma TakeSubMultiset<T>(s: seq<T>, n: int)
    ensures multiset(Take(s, n)) <= multiset(s)
  {
    var t := Take(s, n);
    assert s == t + s[|t|..];
  }

  /** `Shuffle(size)`: tag every item with its random key (`keys[i]` for item
      `i`), sort stably by key and keep the first `size` items. */
  function Shuffle<T>(list: seq<T>, keys: seq<nat>, size: int): (r: seq<T>)
    requires |keys| == |list|
    ensures |r| == if size <= 0 then 0 else if size >= |list| then |list| else size
    ensures multiset(r) <= multiset(list)
    ensures size >= |list| ==> multiset(r) == multiset(list)
  {
    var sorted := SortBy(Zip(keys, list), KeyLeq);
    ItemsSortBy(Zip(keys, list), KeyLeq);
    assert Items(Zip(keys, list)) == list;
    TakeSubMultiset(Items(sorted), size);
    Take(Items(sorted), size)
  }

  lemma {:induction false} SortBySortedIsIdentity<T>(s: seq<T>, leq: (T, T) -> bool)
    requires AdjacentSorted(s, leq)
    ensures SortBy(s, leq) == s
  {
    if |s| > 1 {
      SortBySortedIsIdentity(s[1..], leq);
      assert leq(s[0], s[1]);
      assert s == [s[0]] + s[1..];
    }
  }

  /** Keys that happen to increase along the list leave it in place: the
      oracle fully determines the order. */
  lemma ShuffleWithIncreasingKeys<T>(list: seq<T>, keys: seq<nat>, size: int)
    requires |keys| == |list|
    requires forall i :: 0 < i < |keys| ==> keys[i - 1] <= keys[i]
    ensures Shuffle(list, keys, size) == Take(list, size)
  {
    SortBySortedIsIdentity(Zip(keys, list), KeyLeq);
    assert Items(Zip(keys, list)) == list;
  }

  /** The sorted keys come out in order: the items are ranked by their keys. */
  lemma ShuffleOrdersByKey<T(!new)>(list: seq<T>, keys: seq<nat>)
    requires |keys| == |list|
    ensures Sorted(SortBy(Zip(keys, list), KeyLeq), KeyLeq)
  {
    KeyLeqTotalOrder<T>();
    SortBySorted(Zip(keys, list), KeyLeq);
    AdjacentSortedIsSorted(SortBy(Zip(keys, list), KeyLeq), KeyLeq);
  }
}

=== FILE: commands.dfy ===
/** `CommandsParser` of the game executor: the `commands.txt` format
    `numGames-heuristic1-heuristic2-player1-player2`, and the decimal
    numbers it and the report files use. */
module Commands {
  import opened Common
  import opened Agents

  // ---------------------------------------------------------------------------
  // Decimal integers

  const Int32Min := -0x8000_0000
  const Int32Max := 0x7FFF_FFFF

  predicate IsDigit(c: char) {
    '0' <= c <= '9'
  }

  predicate AllDigits(s: string) {
    forall i :: 0 <= i < |s| ==> IsDigit(s[i])
  }

  /** The value of a string of decimal digits. */
  function DigitsValue(s: string): nat
    requires AllDigits(s)
  {
    if |s| == 0 then 0
    else DigitsValue(s[..|s| - 1]) * 10 + (s[|s| - 1] - '0') as nat
  }

  /** The white space `int.Parse` skips around a number: space and the
      control characters tab to carriage return. */
  predicate IsWhite(c: char) {
    c == ' ' || '\t' <= c <= '\r'
  }

  /** The text without its leading and trailing white space. */
  function TrimWhite(s: string): (r: string)
    ensures |r| > 0 ==> !IsWhite(r[0]) && !IsWhite(r[|r| - 1])
    ensures forall i :: 0 <= i < |s| && !IsWhite(s[i]) ==> s[i] in r
    decreases |s|
  {
    if |s| > 0 && IsWhite(s[0]) then TrimWhite(s[1..])
    else if |s| > 0 && IsWhite(s[|s| - 1]) then TrimWhite(s[..|s| - 1])
    else s
  }

  /** `int.Parse` with the default `NumberStyles.Integer`: white space around
      an optional sign and at least one digit, within the range of a 32-bit
      integer; anything else throws (`None`). */
  function ParseInt32(s: string): (r: Option<int>)
    ensures r.Some? ==> Int32Min <= r.value <= Int32Max
    ensures r.Some? ==> |s| > 0
    ensures r.Some? ==>
              var t := TrimWhite(s);
              |t| > 0 &&
              var digits := if t[0] == '-' || t[0] == '+' then t[1..] else t;
              |digits| > 0 && AllDigits(digits) &&
              r.value == if t[0] == '-' then -(DigitsValue(digits) as int) else DigitsValue(digits) as int
  {
    var t := TrimWhite(s);
    var signed := |t| > 0 && (t[0] == '-' || t[0] == '+');
    var digits := if signed then t[1..] else t;
    if |digits| == 0 || !AllDigits(digits) then None
    else
      var v := if signed && t[0] == '-' then -(DigitsValue(digits) as int) else DigitsValue(digits) as int;
      if Int32Min <= v <= Int32Max then Some(v) else None
  }

  /** `n.ToString()` for a non-negative integer. */
  function NatToString(n: nat): (r: string)
    ensures |r| > 0 && AllDigits(r)
  {
    if n < 10 then [('0' as int + n) as char]
    else NatToString(n / 10) + [('0' as int + n % 10) as char]
  }

  lemma {:induction false} NatToStringValue(n: nat)
    ensures DigitsValue(NatToString(n)) == n
  {
    var s := NatToString(n);
    if n >= 10 {
      NatToStringValue(n / 10);
      assert s[..|s| - 1] == NatToString(n / 10);
    }
  }

  /** A text without white space at either end is its own trimmed form. */
  lemma TrimWhiteUntouched(s: string)
    requires |s| > 0 ==> !IsWhite(s[0]) && !IsWhite(s[|s| - 1])
    ensures TrimWhite(s) == s
  {
  }

  lemma {:induction false} TrimWhitePadded(pre: string, s: string, post: string)
    requires forall i :: 0 <= i < |pre| ==> IsWhite(pre[i])
    requires forall i :: 0 <= i < |post| ==> IsWhite(post[i])
    requires |s| > 0 && !IsWhite(s[0]) && !IsWhite(s[|s| - 1])
    ensures TrimWhite(pre + s + post) == s
    decreases |pre| + |post|
  {
    var t := pre + s + post;
    if |pre| > 0 {
      assert t[0] == pre[0];
      assert t[1..] == pre[1..] + s + post;
      TrimWhitePadded(pre[1..], s, post);
    } else if |post| > 0 {
      assert t == s + post;
      assert t[|t| - 1] == post[|post| - 1];
      assert t[..|t| - 1] == pre + s + post[..|post| - 1];
      TrimWhitePadded(pre, s, post[..|post| - 1]);
    } else {
      assert t == s;
      TrimWhiteUntouched(s);
    }
  }

  /** The digits `NatToString` writes, with or without a minus sign. */
  function SignedText(n: nat, negative: bool): string {
    (if negative then "-" else "") + NatToString(n)
  }

  lemma SignedTextShape(n: nat, negative: bool)
    ensures var t := SignedText(n, negative);
            |t| > 0 && !IsWhite(t[0]) && !IsWhite(t[|t| - 1]) &&
            (if t[0] == '-' || t[0] == '+' then t[1..] else t) == NatToString(n) &&
            (t[0] == '-' <==> negative)
  {
    var digits := NatToString(n);
    var t := SignedText(n, negative);
    assert IsDigit(digits[0]) && IsDigit(digits[|digits| - 1]);
    assert t[|t| - 1] == digits[|digits| - 1];
    if negative {
      assert t[1..] == digits;
    } else {
      assert t == digits;
    }
  }

  /** Numbers written by `NatToString`, with or without a minus sign and with
      any white space around them, are read back by `ParseInt32`, as long as
      they fit. */
  lemma ParsePaddedNumber(pre: string, n: nat, negative: bool, post: string)
    requires forall i :: 0 <= i < |pre| ==> IsWhite(pre[i])
    requires forall i :: 0 <= i < |post| ==> IsWhite(post[i])
    requires if negative then n <= -Int32Min else n <= Int32Max
    ensures ParseInt32(pre + SignedText(n, negative) + post) == Some(if negative then -(n as int) else n)
  {
    SignedTextShape(n, negative);
    NatToStringValue(n);
    TrimWhitePadded(pre, SignedText(n, negative), post);
  }

  /** Numbers written by `NatToString` are read back by `ParseInt32`, as long
      as they fit. */
  lemma ParseNatToString(n: nat)
    requires n <= Int32Max
    ensures ParseInt32(NatToString(n)) == Some(n)
  {
    NatToStringValue(n);
    var s := NatToString(n);
    assert IsDigit(s[0]) && IsDigit(s[|s| - 1]);
    TrimWhiteUntouched(s);
  }

  // ---------------------------------------------------------------------------
  // Names

  /** The `Heuristic` enumeration. */
  datatype Heuristic = FaceHunter | HearthAgent | AggroPally | SecretMage | ControlPriest | Basic | Default

  /** The name `commands.txt` uses for each heuristic. */
  function HeuristicName(h: Heuristic): string {
    match h
    case Default => "DEFAULT"
    case Basic => "BASIC"
    case HearthAgent => "HEARTHAGENT"
    case FaceHunter => "FACEHUNTER"
    case AggroPally => "AGGROPALLY"
    case SecretMage => "SECRETMAGE"
    case ControlPriest => "CONTROLPRIEST"
  }

  /** `GetHeuristicFromName`: the heuristic with that name, `DEFAULT` for any
      other name. */
  function HeuristicFromName(name: string): (r: Heuristic)
    ensures (exists h :: HeuristicName(h) == name) ==> HeuristicName(r) == name
    ensures (forall h :: HeuristicName(h) != name) ==> r == Default
  {
    match name
    case "DEFAULT" => Default
    case "BASIC" => Basic
    case "HEARTHAGENT" => HearthAgent
    case "FACEHUNTER" => FaceHunter
    case "AGGROPALLY" => AggroPally
    case "SECRETMAGE" => SecretMage
    case "CONTROLPRIEST" => ControlPriest
    case _ => Default
  }

  lemma HeuristicNameRoundTrip(h: Heuristic)
    ensures HeuristicFromName(HeuristicName(h)) == h
  {
  }

  /** The name `commands.txt` uses for each agent. */
  function PlayerName(p: PlayerKind): string {
    match p
    case RandomDumbGreedy => "RANDOMDUMB"
    case RandomNonGreedy => "RANDOM"
    case HeuristicStep => "HEURISTICSTEP"
    case HeuristicTurn => "HEURISTICTURN"
  }

  /** `GetPlayerFromName`: the agent with that name, the random greedy agent
      for any other name. */
  function PlayerFromName(name: string): (r: PlayerKind)
    ensures (exists p :: PlayerName(p) == name) ==> PlayerName(r) == name
    ensures (forall p :: PlayerName(p) != name) ==> r == RandomDumbGreedy
  {
    match name
    case "RANDOMDUMB" => RandomDumbGreedy
    case "RANDOM" => RandomNonGreedy
    case "HEURISTICSTEP" => HeuristicStep
    case "HEURISTICTURN" => HeuristicTurn
    case _ => RandomDumbGreedy
  }

  lemma PlayerNameRoundTrip(p: PlayerKind)
    ensures PlayerFromName(PlayerName(p)) == p
  {
  }

  // ---------------------------------------------------------------------------
  // The commands file

  /** The part of `EvolutionConfiguration` the commands file sets. */
  datatype Commands = Commands(numGames: int, heuristic1: Heuristic, heuristic2: Heuristic,
                               player1: PlayerKind, player2: PlayerKind)

  /** The fields of one line, assigned one after the other; the flag is false
      when a missing token or a bad number throws, with the fields assigned
      before the throw kept. */
  function ApplyLine(config: Commands, line: string): (r: (Commands, bool))
    ensures r.1 <==> |Split(line, '-')| >= 5 && ParseInt32(Split(line, '-')[0]).Some?
    ensures !r.1 ==> r.0.player2 == config.player2
  {
    var tokens := Split(line, '-');
    match ParseInt32(tokens[0])
    case None => (config, false)
    case Some(n) =>
      var c1 := config.(numGames := n);
      if |tokens| < 2 then (c1, false)
      else
        var c2 := c1.(heuristic1 := HeuristicFromName(tokens[1]));
        if |tokens| < 3 then (c2, false)
        else
          var c3 := c2.(heuristic2 := HeuristicFromName(tokens[2]));
          if |tokens| < 4 then (c3, false)
          else
            var c4 := c3.(player1 := PlayerFromName(tokens[3]));
            if |tokens| < 5 then (c4, false)
            else (c4.(player2 := PlayerFromName(tokens[4])), true)
  }

  /** A line that parses sets every field, whatever the configuration held. */
  lemma ApplyLineOverwrites(c: Commands, c': Commands, line: string)
    requires ApplyLine(c, line).1
    ensures ApplyLine(c, line) == ApplyLine(c', line)
  {
  }

  /** `GetCommands`: every line in turn; the first line that throws ends the
      parse with the configuration as far as it got. */
  function GetCommands(lines: seq<string>, config: Commands): Commands
  {
    if |lines| == 0 then config
    else
      var (c, ok) := ApplyLine(config, lines[0]);
      if ok then GetCommands(lines[1..], c) else c
  }

  /** The tokens of the line that writes a configuration. */
  function CommandTokens(c: Commands): seq<string>
    requires 0 <= c.numGames
  {
    [NatToString(c.numGames), HeuristicName(c.heuristic1), HeuristicName(c.heuristic2),
     PlayerName(c.player1), PlayerName(c.player2)]
  }

  /** The line that writes a configuration. */
  function CommandLine(c: Commands): string
    requires 0 <= c.numGames
  {
    Join(CommandTokens(c), '-')
  }

  lemma CommandLineTokens(c: Commands)
    requires 0 <= c.numGames
    ensures Split(CommandLine(c), '-') == CommandTokens(c)
  {
    var ts := CommandTokens(c);
    assert '-' !in ts[0] by {
      assert forall i :: 0 <= i < |ts[0]| ==> IsDigit(ts[0][i]);
    }
    SplitJoin(ts, '-');
  }

  /** Whatever came before, a file whose last line was written for `c` (and
      whose earlier lines all parse) configures exactly `c`. */
  lemma {:induction false} LastLineWins(lines: seq<string>, config: Commands, c: Commands)
    requires 0 <= c.numGames <= Int32Max
    requires forall i :: 0 <= i < |lines| ==> ApplyLine(config, lines[i]).1
    ensures GetCommands(lines + [CommandLine(c)], config) == c
    decreases |lines|
  {
    var line := CommandLine(c);
    CommandLineTokens(c);
    ParseNatToString(c.numGames);
    HeuristicNameRoundTrip(c.heuristic1);
    HeuristicNameRoundTrip(c.heuristic2);
    PlayerNameRoundTrip(c.player1);
    PlayerNameRoundTrip(c.player2);
    assert ApplyLine(config, line) == (c, true);
    if |lines| == 0 {
      assert [line][1..] == [];
    } else {
      var next := ApplyLine(config, lines[0]).0;
      assert (lines + [line])[1..] == lines[1..] + [line];
      forall i | 0 <= i < |lines[1..]|
        ensures ApplyLine(next, lines[1..][i]).1
      {
        assert ApplyLine(config, lines[i + 1]).1;
      }
      LastLineWins(lines[1..], next, c);
    }
  }

  /** A line without a usable number stops the parse before it changes
      anything: `GetCommands` returns what the earlier lines set. */
  lemma {:induction false} BadNumberStops(lines: seq<string>, bad: string, rest: seq<string>, config: Commands)
    requires ParseInt32(Split(bad, '-')[0]).None?
    ensures GetCommands(lines + [bad] + rest, config) == GetCommands(lines, config)
    decreases |lines|
  {
    if |lines| == 0 {
      assert ([] + [bad] + rest)[1..] == rest;
      assert ([] + [bad] + rest)[0] == bad;
    } else {
      var (c, ok) := ApplyLine(config, lines[0]);
      assert (lines + [bad] + rest)[1..] == lines[1..] + [bad] + rest;
      assert (lines + [bad] + rest)[0] == lines[0];
      if ok {
        BadNumberStops(lines[1..], bad, rest, c);
      }
    }
  }
}

=== FILE: common.dfy ===
/** Sequence and string helpers shared by every part of the model: the
    failure-compatible Option type, the .NET list operations the program
    relies on (`Remove`, `Take`, `Skip`, `Reverse`, `String.Split`) and a
    functional insertion sort that stands for `List.Sort`. */
module Common {

  datatype Option<+T> = None | Some(value: T) {
    predicate IsFailure() { None? }
    function PropagateFailure<U>(): Option<U>
      requires None?
    {
      None
    }
    function Extract(): T
      requires Some?
    {
      value
    }
  }

  /** `List.Remove(x)`: drops the first occurrence of `x`, if any. */
  function RemoveFirst<T(==)>(s: seq<T>, x: T): (r: seq<T>)
    ensures multiset(r) == multiset(s) - multiset{x}
    ensures x in s ==> |r| == |s| - 1
    ensures x !in s ==> r == s
  {
    if |s| == 0 then []
    else
      assert s == [s[0]] + s[1..];
      if s[0] == x then s[1..]
      else
        var rest := RemoveFirst(s[1..], x);
        RemoveFirstCons(s[0], rest, s[1..], x);
        [s[0]] + rest
  }

  lemma RemoveFirstCons<T>(h: T, rest: seq<T>, tail: seq<T>, x: T)
    requires h != x && multiset(rest) == multiset(tail) - multiset{x}
    ensures multiset([h] + rest) == multiset([h] + tail) - multiset{x}
  {
    assert multiset([h] + rest) == multiset{h} + multiset(rest);
    assert multiset([h] + tail) == multiset{h} + multiset(tail);
  }

  /** `foreach (c in xs) list.Remove(c)`. */
  function RemoveEach<T(==)>(s: seq<T>, xs: seq<T>): (r: seq<T>)
    ensures multiset(r) == multiset(s) - multiset(xs)
    decreases |xs|
  {
    if |xs| == 0 then s
    else
      assert xs == [xs[0]] + xs[1..];
      RemoveEach(RemoveFirst(s, xs[0]), xs[1..])
  }

  /** `List.Reverse()`. */
  function Reverse<T>(s: seq<T>): (r: seq<T>)
    ensures |r| == |s|
    ensures forall i :: 0 <= i < |s| ==> r[i] == s[|s| - 1 - i]
  {
    if |s| == 0 then [] else Reverse(s[1..]) + [s[0]]
  }

  lemma ReversePermutes<T>(s: seq<T>)
    ensures multiset(Reverse(s)) == multiset(s)
  {
    if |s| > 0 {
      ReversePermutes(s[1..]);
      assert s == [s[0]] + s[1..];
    }
  }

  /** Reversing a concatenation reverses the order of the parts too. */
  lemma {:induction false} ReverseAppend<T>(a: seq<T>, b: seq<T>)
    ensures Reverse(a + b) == Reverse(b) + Reverse(a)
  {
    if |a| == 0 {
      assert a + b == b;
    } else {
      assert (a + b)[1..] == a[1..] + b;
      ReverseAppend(a[1..], b);
    }
  }

  /** LINQ `Take(n)`: a negative count takes nothing, a count past the end takes everything. */
  function Take<T>(s: seq<T>, n: int): (r: seq<T>)
    ensures |r| == if n <= 0 then 0 else if n >= |s| then |s| else n
    ensures r <= s
  {
    if n <= 0 then [] else if n >= |s| then s else s[..n]
  }

  /** LINQ `Skip(n)`: a negative count skips nothing. */
  function Skip<T>(s: seq<T>, n: int): (r: seq<T>)
    ensures Take(s, n) + r == s
  {
    if n <= 0 then s else if n >= |s| then [] else s[n..]
  }

  /** `String.Split(sep)`: always at least one token, empty tokens kept. */
  function Split(s: string, sep: char): (r: seq<string>)
    ensures |r| >= 1
    ensures forall i :: 0 <= i < |r| ==> sep !in r[i]
  {
    if |s| == 0 then [""]
    else
      var rest := Split(s[1..], sep);
      if s[0] == sep then [""] + rest
      else [[s[0]] + rest[0]] + rest[1..]
  }

  /** `String.Join(sep, tokens)`. */
  function Join(ts: seq<string>, sep: char): string
    requires |ts| >= 1
  {
    if |ts| == 1 then ts[0] else ts[0] + [sep] + Join(ts[1..], sep)
  }

  /** Splitting and joining again gives back the original line. */
  lemma {:induction false} JoinSplit(s: string, sep: char)
    ensures Join(Split(s, sep), sep) == s
  {
    if |s| > 0 {
      JoinSplit(s[1..], sep);
      var rest := Split(s[1..], sep);
      if s[0] == sep {
        assert Split(s, sep) == [""] + rest;
        assert s == [s[0]] + s[1..];
      } else {
        var r := [[s[0]] + rest[0]] + rest[1..];
        assert Split(s, sep) == r;
        if |rest| == 1 {
          assert Join(r, sep) == [s[0]] + rest[0];
        } else {
          assert r[1..] == rest[1..];
          assert Join(r, sep) == [s[0]] + rest[0] + [sep] + Join(rest[1..], sep);
          assert Join(rest, sep) == rest[0] + [sep] + Join(rest[1..], sep);
        }
        assert s == [s[0]] + s[1..];
      }
    }
  }

  /** A token without the separator, followed by the separator, is split off whole. */
  lemma {:induction false} SplitPrefix(a: string, b: string, sep: char)
    requires sep !in a
    ensures Split(a + [sep] + b, sep) == [a] + Split(b, sep)
  {
    if |a| == 0 {
      assert a + [sep] + b == [sep] + b;
      assert ([sep] + b)[1..] == b;
    } else {
      SplitPrefix(a[1..], b, sep);
      assert (a + [sep] + b)[1..] == a[1..] + [sep] + b;
      assert (a + [sep] + b)[0] == a[0];
      assert [a[0]] + a[1..] == a;
    }
  }

  /** A token without the separator splits into itself alone. */
  lemma {:induction false} SplitNoSep(a: string, sep: char)
    requires sep !in a
    ensures Split(a, sep) == [a]
  {
    if |a| > 0 {
      SplitNoSep(a[1..], sep);
      assert [a[0]] + a[1..] == a;
    }
  }

  /** Tokens without the separator, joined, split back into themselves. */
  lemma {:induction false} SplitJoin(ts: seq<string>, sep: char)
    requires |ts| >= 1
    requires forall i :: 0 <= i < |ts| ==> sep !in ts[i]
    ensures Split(Join(ts, sep), sep) == ts
  {
    if |ts| == 1 {
      SplitNoSep(ts[0], sep);
    } else {
      SplitJoin(ts[1..], sep);
      SplitPrefix(ts[0], Join(ts[1..], sep), sep);
      assert ts == [ts[0]] + ts[1..];
    }
  }

  /** `String.Replace(from, to)` on characters. */
  function ReplaceChar(s: string, from: char, to: char): (r: string)
    ensures |r| == |s|
    ensures forall i :: 0 <= i < |s| ==> r[i] == if s[i] == from then to else s[i]
  {
    if |s| == 0 then [] else [if s[0] == from then to else s[0]] + ReplaceChar(s[1..], from, to)
  }

  // ---------------------------------------------------------------------------
  // Sorting: `List.Sort` with a comparison is modelled by an insertion sort over
  // a total "less or equal" relation.

  ghost predicate TotalRel<T(!new)>(leq: (T, T) -> bool) {
    forall a, b :: leq(a, b) || leq(b, a)
  }

  ghost predicate TransitiveRel<T(!new)>(leq: (T, T) -> bool) {
    forall a, b, c :: leq(a, b) && leq(b, c) ==> leq(a, c)
  }

  ghost predicate AdjacentSorted<T>(s: seq<T>, leq: (T, T) -> bool) {
    forall i :: 0 < i < |s| ==> leq(s[i - 1], s[i])
  }

  ghost predicate Sorted<T>(s: seq<T>, leq: (T, T) -> bool) {
    forall i, j :: 0 <= i < j < |s| ==> leq(s[i], s[j])
  }

  function Insert<T>(x: T, s: seq<T>, leq: (T, T) -> bool): (r: seq<T>)
    ensures multiset(r) == multiset(s) + multiset{x}
    ensures |r| == |s| + 1
  {
    if |s| == 0 then [x]
    else if leq(x, s[0]) then [x] + s
    else
      assert s == [s[0]] + s[1..];
      [s[0]] + Insert(x, s[1..], leq)
  }

  lemma {:induction false} InsertSorted<T(!new)>(x: T, s: seq<T>, leq: (T, T) -> bool)
    requires TotalRel(leq)
    requires AdjacentSorted(s, leq)
    ensures AdjacentSorted(Insert(x, s, leq), leq)
    ensures |s| > 0 ==> Insert(x, s, leq)[0] == x || Insert(x, s, leq)[0] == s[0]
  {
    if |s| > 0 && !leq(x, s[0]) {
      InsertSorted(x, s[1..], leq);
      assert leq(s[0], x);
    }
  }

  function SortBy<T>(s: seq<T>, leq: (T, T) -> bool): (r: seq<T>)
    ensures multiset(r) == multiset(s)
    ensures |r| == |s|
  {
    if |s| == 0 then []
    else
      assert s == [s[0]] + s[1..];
      Insert(s[0], SortBy(s[1..], leq), leq)
  }

  /** The insertion sort orders its output under any total relation. */
  lemma {:induction false} SortBySorted<T(!new)>(s: seq<T>, leq: (T, T) -> bool)
    requires TotalRel(leq)
    ensures AdjacentSorted(SortBy(s, leq), leq)
  {
    if |s| > 0 {
      SortBySorted(s[1..], leq);
      InsertSorted(s[0], SortBy(s[1..], leq), leq);
    }
  }

  /** With a transitive relation, neighbour-wise order is order between any two positions. */
  lemma {:induction false} AdjacentSortedIsSorted<T(!new)>(s: seq<T>, leq: (T, T) -> bool)
    requires TransitiveRel(leq)
    requires AdjacentSorted(s, leq)
    ensures Sorted(s, leq)
  {
    forall i, j | 0 <= i < j < |s|
      ensures leq(s[i], s[j])
    {
      var k := i + 1;
      while k < j
        invariant i < k <= j
        invariant leq(s[i], s[k])
      {
        k := k + 1;
      }
    }
  }
}

=== FILE: deckfiles.dfy ===
/** `DeckParser` of the game executor (and its copies in the hill-climbing and
    evolution-parser programs): deck lists in `qty_name` lines, the random
    fallback deck, and the card list of the best deck of a generation. Files
    are sequences of lines as `ReadLine` returns them; the random number
    generator is a sequence of draws. */
module DeckFiles {
  import opened Common
  import opened Cards
  import opened Decks

  /** `x2` or `2x` in front of a card name means two copies. */
  predicate TwoCopies(qty: string) {
    qty == "x2" || qty == "2x"
  }

  /** The replacement for a card name the catalogue does not know: a random
      neutral card not yet in the deck, redrawn while it is. `None` when
      there are no neutral cards (the source indexes an empty list) or the
      draws run out. */
  function FallbackCard(neutrals: seq<Card>, deck: seq<Card>, draws: seq<nat>): (r: Option<Card>)
    ensures r.Some? ==> r.value in neutrals && r.value !in deck
    ensures r.None? ==> |neutrals| == 0 || forall k :: 0 <= k < |draws| ==> neutrals[draws[k] % |neutrals|] in deck
  {
    if |neutrals| == 0 || |draws| == 0 then None
    else
      var c := neutrals[draws[0] % |neutrals|];
      if c in deck then
        var r := FallbackCard(neutrals, deck, draws[1..]);
        assert forall k :: 1 <= k < |draws| ==> draws[k] == draws[1..][k - 1];
        r
      else Some(c)
  }

  /** The cards a `qty_name` line adds to `deck`: the named card, twice for
      `x2`/`2x`. `None` when the line has no `_` (the source indexes a missing
      token) or no fallback card is found. */
  function CardLine(line: string, deck: seq<Card>, catalog: seq<Card>, neutrals: seq<Card>, draws: seq<nat>)
    : (r: Option<seq<Card>>)
    ensures r.Some? <==> |Split(line, '_')| >= 2 &&
                         (FromName(catalog, Split(line, '_')[1]).Some? || FallbackCard(neutrals, deck, draws).Some?)
    ensures r.Some? ==> var tokens := Split(line, '_');
                        (if TwoCopies(tokens[0]) then |r.value| == 2 && r.value[1] == r.value[0] else |r.value| == 1) &&
                        (FromName(catalog, tokens[1]).Some? ==> r.value[0] == FromName(catalog, tokens[1]).value) &&
                        (FromName(catalog, tokens[1]).None? ==> r.value[0] in neutrals && r.value[0] !in deck)
  {
    var tokens := Split(line, '_');
    if |tokens| < 2 then None
    else
      var card := match FromName(catalog, tokens[1])
                  case Some(c) => Some(c)
                  case None => FallbackCard(neutrals, deck, draws);
      if card.None? then None
      else if TwoCopies(tokens[0]) then Some([card.value, card.value])
      else Some([card.value])
  }

  /** How a card line is read: the line, the deck so far and the number of
      lines from it to the end of the file give the cards the line adds, or
      `None` when the source throws. */
  type LineReader = (string, seq<Card>, nat) -> Option<seq<Card>>

  /** The source's card-line reader; `draws(n)` are the draws for an unknown
      name on the line `n` lines before the end of the file. */
  function CardReader(catalog: seq<Card>, neutrals: seq<Card>, draws: nat -> seq<nat>): LineReader {
    (line: string, deck: seq<Card>, n: nat) => CardLine(line, deck, catalog, neutrals, draws(n))
  }

  /** What reading the card lines of one deck produced: the cards, and the
      lines after the deck. */
  datatype Body = Body(cards: seq<Card>, rest: seq<string>)

  /** The inner loop over one deck's lines: up to an empty line (consumed) or
      the end of the file. A line equal to `skip` is passed over, as the
      by-name reader does with its header. `cards` are the cards read so far. */
  function ReadBody(lines: seq<string>, skip: Option<string>, cards: seq<Card>, parse: LineReader): (r: Option<Body>)
    ensures r.Some? ==> |r.value.rest| <= |lines|
  {
    if |lines| == 0 then Some(Body(cards, []))
    else if skip == Some(lines[0]) then ReadBody(lines[1..], skip, cards, parse)
    else if lines[0] == "" then Some(Body(cards, lines[1..]))
    else
      match parse(lines[0], cards, |lines|)
      case None => None
      case Some(added) => ReadBody(lines[1..], skip, cards + added, parse)
  }

  // ---------------------------------------------------------------------------
  // GetAllDecks

  /** The class a deck starts from: the one given for the first deck, the
      previous deck's class for the others. */
  function ClassBefore(ds: seq<Deck>, k: nat, cl: CardClass): CardClass
    requires k < |ds|
  {
    if k == 0 then cl else ds[k - 1].heroClass
  }

  /** The decks in `lines`: a header line, then the deck's card lines, and
      so on. `cl` is the hero class carried over from the decks before. */
  function DecksFrom(lines: seq<string>, cl: CardClass, parse: LineReader): (r: Option<seq<Deck>>)
    ensures r.Some? ==> forall k :: 0 <= k < |r.value| ==> r.value[k].curve == Costs(r.value[k].cards)
    ensures r.Some? ==> forall k :: 0 <= k < |r.value| ==>
                          r.value[k].heroClass == LastClass(r.value[k].cards, ClassBefore(r.value, k, cl))
    decreases |lines|
  {
    if |lines| == 0 then Some([])
    else
      match ReadBody(lines[1..], None, [], parse)
      case None => None
      case Some(b) =>
        var cl' := LastClass(b.cards, cl);
        var d := EmptyDeck().(deckname := lines[0], cards := b.cards, heroClass := cl', curve := Costs(b.cards));
        match DecksFrom(b.rest, cl', parse)
        case None => None
        case Some(more) =>
          DeckInFront(d, more, cl);
          Some([d] + more)
  }

  /** A deck whose class carries over from `cl`, in front of decks whose
      classes carry over from it. */
  lemma DeckInFront(d: Deck, more: seq<Deck>, cl: CardClass)
    requires d.curve == Costs(d.cards) && d.heroClass == LastClass(d.cards, cl)
    requires forall k :: 0 <= k < |more| ==> more[k].curve == Costs(more[k].cards)
    requires forall k :: 0 <= k < |more| ==> more[k].heroClass == LastClass(more[k].cards, ClassBefore(more, k, d.heroClass))
    ensures forall k :: 0 <= k < |[d] + more| ==> ([d] + more)[k].curve == Costs(([d] + more)[k].cards)
    ensures forall k :: 0 <= k < |[d] + more| ==>
              ([d] + more)[k].heroClass == LastClass(([d] + more)[k].cards, ClassBefore([d] + more, k, cl))
  {
    var ds := [d] + more;
    forall k | 0 <= k < |ds|
      ensures ds[k].curve == Costs(ds[k].cards)
      ensures ds[k].heroClass == LastClass(ds[k].cards, ClassBefore(ds, k, cl))
    {
      if k > 0 {
        assert ds[k] == more[k - 1];
        assert ClassBefore(ds, k, cl) == ClassBefore(more, k - 1, d.heroClass);
      }
    }
  }

  /** `GetAllDecks`: the first line is skipped, then one deck per header.
      Every deck's curve lists its cards' costs, and its hero class is that
      of its last non-neutral card, or else the class of the deck before: the
      class carries over from deck to deck. `None`: a line the source cannot
      parse. */
  function GetAllDecks(lines: seq<string>, catalog: seq<Card>, neutrals: seq<Card>, draws: nat -> seq<nat>)
    : (r: Option<seq<Deck>>)
    ensures r.Some? ==> forall k :: 0 <= k < |r.value| ==> r.value[k].curve == Costs(r.value[k].cards)
    ensures r.Some? ==> forall k :: 0 <= k < |r.value| ==>
                          r.value[k].heroClass == LastClass(r.value[k].cards, ClassBefore(r.value, k, Invalid))
    ensures |lines| <= 1 ==> r == Some([])
  {
    if |lines| == 0 then Some([]) else DecksFrom(lines[1..], Invalid, CardReader(catalog, neutrals, draws))
  }

  // ---------------------------------------------------------------------------
  // The deck-list format, written

  /** A line of a deck list: a card, and whether it asks for two copies. */
  function CardLineText(entry: (Card, bool)): string {
    (if entry.1 then "x2" else "1") + "_" + entry.0.name
  }

  /** The card lines of a deck list, followed by the lines `after`. */
  function CardLinesThen(entries: seq<(Card, bool)>, after: seq<string>): (r: seq<string>)
    ensures |r| == |entries| + |after|
  {
    if |entries| == 0 then after else [CardLineText(entries[0])] + CardLinesThen(entries[1..], after)
  }

  /** The cards one card line asks for. */
  function EntryCards(e: (Card, bool)): seq<Card> {
    if e.1 then [e.0, e.0] else [e.0]
  }

  /** The cards a deck list asks for. */
  function Expand(entries: seq<(Card, bool)>): seq<Card> {
    if |entries| == 0 then [] else EntryCards(entries[0]) + Expand(entries[1..])
  }

  /** A name the format can carry, of a card the catalogue finds by it. */
  predicate Listable(catalog: seq<Card>, c: Card) {
    '_' !in c.name && FromName(catalog, c.name) == Some(c)
  }

  lemma CardLineTextParses(entry: (Card, bool))
    requires '_' !in entry.0.name
    ensures Split(CardLineText(entry), '_') == [if entry.1 then "x2" else "1", entry.0.name]
  {
    var qty := if entry.1 then "x2" else "1";
    SplitNoSep(entry.0.name, '_');
    SplitPrefix(qty, entry.0.name, '_');
    assert CardLineText(entry) == qty + ['_'] + entry.0.name;
  }

  lemma CardLineOfListable(e: (Card, bool), deck: seq<Card>, catalog: seq<Card>, neutrals: seq<Card>, draws: seq<nat>)
    requires Listable(catalog, e.0)
    ensures CardLine(CardLineText(e), deck, catalog, neutrals, draws) == Some(EntryCards(e))
  {
    CardLineTextParses(e);
    var tokens := Split(CardLineText(e), '_');
    assert tokens[1] == e.0.name;
    assert TwoCopies(tokens[0]) <==> e.1;
  }

  /** A reader that reads the written line of a listable card as that card. */
  ghost predicate ReadsListed(parse: LineReader, catalog: seq<Card>) {
    forall e: (Card, bool), deck: seq<Card>, n: nat ::
      Listable(catalog, e.0) ==> parse(CardLineText(e), deck, n) == Some(EntryCards(e))
  }

  lemma CardReaderReadsListed(catalog: seq<Card>, neutrals: seq<Card>, draws: nat -> seq<nat>)
    ensures ReadsListed(CardReader(catalog, neutrals, draws), catalog)
  {
    forall e: (Card, bool), deck: seq<Card>, n: nat | Listable(catalog, e.0)
      ensures CardReader(catalog, neutrals, draws)(CardLineText(e), deck, n) == Some(EntryCards(e))
    {
      CardLineOfListable(e, deck, catalog, neutrals, draws(n));
    }
  }

  predicate AllListable(catalog: seq<Card>, entries: seq<(Card, bool)>) {
    forall k :: 0 <= k < |entries| ==> Listable(catalog, entries[k].0)
  }

  /** No card line of a deck list is `line`. */
  predicate NoLineIs(entries: seq<(Card, bool)>, line: string) {
    forall k :: 0 <= k < |entries| ==> CardLineText(entries[k]) != line
  }

  /** The card lines of a deck list, followed by an empty line, read back as
      the cards they ask for, leaving the lines after. */
  lemma {:induction false} ReadBodyLines(entries: seq<(Card, bool)>, after: seq<string>, skip: Option<string>,
                                         cards: seq<Card>, catalog: seq<Card>, parse: LineReader)
    requires AllListable(catalog, entries) && ReadsListed(parse, catalog)
    requires skip.None? || (skip.value != "" && NoLineIs(entries, skip.value))
    ensures ReadBody(CardLinesThen(entries, [""] + after), skip, cards, parse) == Some(Body(cards + Expand(entries), after))
    decreases |entries|
  {
    var lines := CardLinesThen(entries, [""] + after);
    if |entries| == 0 {
      assert lines[1..] == after;
      assert cards + Expand(entries) == cards;
    } else {
      var e := entries[0];
      var rest := entries[1..];
      assert lines[0] == CardLineText(e) && lines[1..] == CardLinesThen(rest, [""] + after);
      assert lines[0] != "" by {
        assert |CardLineText(e)| > 0;
      }
      assert parse(lines[0], cards, |lines|) == Some(EntryCards(e));
      assert AllListable(catalog, rest) && (skip.None? || NoLineIs(rest, skip.value)) by {
        forall k | 0 <= k < |rest|
          ensures rest[k] == entries[k + 1]
        {
        }
      }
      ReadBodyLines(rest, after, skip, cards + EntryCards(e), catalog, parse);
      assert cards + EntryCards(e) + Expand(rest) == cards + Expand(entries);
    }
  }

  /** One deck of a deck-list file (its header, its card lines, an empty
      line), followed by the lines `after`. */
  function DeckBlockThen(name: string, entries: seq<(Card, bool)>, after: seq<string>): seq<string> {
    [name] + CardLinesThen(entries, [""] + after)
  }

  function DeckBlocks(decks: seq<(string, seq<(Card, bool)>)>): seq<string> {
    if |decks| == 0 then [] else DeckBlockThen(decks[0].0, decks[0].1, DeckBlocks(decks[1..]))
  }

  /** A deck-list file: an empty first line, then the blocks. */
  function DeckFile(decks: seq<(string, seq<(Card, bool)>)>): seq<string> {
    [""] + DeckBlocks(decks)
  }

  /** Every card of every deck is listable. */
  predicate DecksListable(catalog: seq<Card>, decks: seq<(string, seq<(Card, bool)>)>) {
    forall i :: 0 <= i < |decks| ==> AllListable(catalog, decks[i].1)
  }

  /** The decks read are the written ones, by name and cards. */
  predicate ReadAs(ds: seq<Deck>, decks: seq<(string, seq<(Card, bool)>)>) {
    |ds| == |decks| && forall k :: 0 <= k < |decks| ==> ds[k].deckname == decks[k].0 && ds[k].cards == Expand(decks[k].1)
  }

  lemma {:induction false} DecksFromBlocks(decks: seq<(string, seq<(Card, bool)>)>, cl: CardClass,
                                           catalog: seq<Card>, parse: LineReader)
    requires DecksListable(catalog, decks) && ReadsListed(parse, catalog)
    ensures var r := DecksFrom(DeckBlocks(decks), cl, parse);
            r.Some? && ReadAs(r.value, decks)
    decreases |decks|
  {
    if |decks| > 0 {
      var (name, entries) := decks[0];
      var lines := DeckBlocks(decks);
      var after := DeckBlocks(decks[1..]);
      assert lines[0] == name && lines[1..] == CardLinesThen(entries, [""] + after);
      DecksListableTail(catalog, decks);
      ReadBodyLines(entries, after, None, [], catalog, parse);
      assert [] + Expand(entries) == Expand(entries);
      var cl' := LastClass(Expand(entries), cl);
      DecksFromBlocks(decks[1..], cl', catalog, parse);
      DecksFromCons(lines, cl, parse, Expand(entries), after);
      ReadAsCons(DecksFrom(lines, cl, parse).value, decks);
    }
  }

  lemma DecksListableTail(catalog: seq<Card>, decks: seq<(string, seq<(Card, bool)>)>)
    requires |decks| > 0 && DecksListable(catalog, decks)
    ensures AllListable(catalog, decks[0].1) && DecksListable(catalog, decks[1..])
  {
    forall i | 0 <= i < |decks[1..]|
      ensures AllListable(catalog, decks[1..][i].1)
    {
      assert decks[1..][i] == decks[i + 1];
    }
  }

  /** The first deck of a file in front of the decks after it. */
  lemma DecksFromCons(lines: seq<string>, cl: CardClass, parse: LineReader, cards: seq<Card>, after: seq<string>)
    requires |lines| > 0 && ReadBody(lines[1..], None, [], parse) == Some(Body(cards, after))
    requires DecksFrom(after, LastClass(cards, cl), parse).Some?
    ensures var r := DecksFrom(lines, cl, parse);
            r.Some? && |r.value| > 0 && r.value[0].deckname == lines[0] && r.value[0].cards == cards &&
            r.value[1..] == DecksFrom(after, LastClass(cards, cl), parse).value
  {
  }

  lemma ReadAsCons(r: seq<Deck>, decks: seq<(string, seq<(Card, bool)>)>)
    requires |r| > 0 && |decks| > 0
    requires r[0].deckname == decks[0].0 && r[0].cards == Expand(decks[0].1) && ReadAs(r[1..], decks[1..])
    ensures ReadAs(r, decks)
  {
    forall k | 0 <= k < |decks|
      ensures r[k].deckname == decks[k].0 && r[k].cards == Expand(decks[k].1)
    {
      if k > 0 {
        assert r[k] == r[1..][k - 1];
        assert decks[k] == decks[1..][k - 1];
      }
    }
  }

  /** Reading a written deck-list file gives back every deck's name and
      cards, whatever the draws. */
  lemma GetAllDecksRoundTrip(decks: seq<(string, seq<(Card, bool)>)>, catalog: seq<Card>, neutrals: seq<Card>,
                             draws: nat -> seq<nat>)
    requires DecksListable(catalog, decks)
    ensures var r := GetAllDecks(DeckFile(decks), catalog, neutrals, draws);
            r.Some? && ReadAs(r.value, decks)
  {
    assert DeckFile(decks)[1..] == DeckBlocks(decks);
    CardReaderReadsListed(catalog, neutrals, draws);
    DecksFromBlocks(decks, Invalid, catalog, CardReader(catalog, neutrals, draws));
  }

  // ---------------------------------------------------------------------------
  // GetDeckByName

  /** The first line equal to `name`. */
  function FindLine(lines: seq<string>, name: string): (r: Option<nat>)
    ensures r.Some? ==> r.value < |lines| && lines[r.value] == name &&
                        forall k :: 0 <= k < r.value ==> lines[k] != name
    ensures r.None? <==> name !in lines
  {
    if |lines| == 0 then None
    else if lines[0] == name then Some(0)
    else
      var r := FindLine(lines[1..], name);
      assert forall k :: 1 <= k < |lines| ==> lines[k] == lines[1..][k - 1];
      if r.None? then None else Some(r.value + 1)
  }

  /** `GetDeckByName(deckfile, deckname, cl)`: the card lines after the first
      line equal to `deckname`, up to the next empty line; further copies of
      the header line are passed over. Without the header it is the random
      deck `fallback`. `withCurve`: the game executor's copy, which also
      fills the curve; the hill-climbing copy leaves it empty. */
  function GetDeckByName(lines: seq<string>, deckname: string, cl: CardClass, fallback: Deck, withCurve: bool,
                         catalog: seq<Card>, neutrals: seq<Card>, draws: nat -> seq<nat>): (r: Option<Deck>)
    ensures deckname !in lines ==> r == Some(fallback)
    ensures r.Some? && deckname in lines ==>
              r.value.deckname == deckname && r.value.heroClass == cl &&
              r.value.curve == (if withCurve then Costs(r.value.cards) else [])
  {
    match FindLine(lines, deckname)
    case None => Some(fallback)
    case Some(h) =>
      match ReadBody(lines[h + 1..], Some(deckname), [], CardReader(catalog, neutrals, draws))
      case None => None
      case Some(b) =>
        Some(EmptyDeck().(heroClass := cl, deckname := deckname, cards := b.cards,
                          curve := if withCurve then Costs(b.cards) else []))
  }

  /** A file holding the deck's block after lines that are not its header is
      read as the deck's cards. */
  lemma GetDeckByNameRoundTrip(before: seq<string>, deckname: string, entries: seq<(Card, bool)>, after: seq<string>,
                               cl: CardClass, fallback: Deck, withCurve: bool,
                               catalog: seq<Card>, neutrals: seq<Card>, draws: nat -> seq<nat>)
    requires deckname !in before && deckname != "" && NoLineIs(entries, deckname)
    requires AllListable(catalog, entries)
    ensures var r := GetDeckByName(before + DeckBlockThen(deckname, entries, after), deckname, cl, fallback, withCurve,
                                   catalog, neutrals, draws);
            r.Some? && r.value.cards == Expand(entries) && r.value.deckname == deckname
  {
    var block := DeckBlockThen(deckname, entries, after);
    var lines := before + block;
    var h := |before|;
    assert lines[h..] == block;
    assert lines[h] == deckname;
    assert lines[h + 1..] == block[1..] == CardLinesThen(entries, [""] + after);
    assert forall k :: 0 <= k < h ==> lines[k] == before[k];
    assert FindLine(lines, deckname) == Some(h);
    CardReaderReadsListed(catalog, neutrals, draws);
    ReadBodyLines(entries, after, Some(deckname), [], catalog, CardReader(catalog, neutrals, draws));
    assert [] + Expand(entries) == Expand(entries);
  }

  // ---------------------------------------------------------------------------
  // GetRandomDeck

  const DeckSize := 30

  /** `GetRandomDeck(Class)`: draw catalogue cards, skipping those of another
      class and those already in the deck twice, until there are 30. `None`
      when the catalogue is empty or the draws run out. */
  method GetRandomDeck(standard: seq<Card>, cls: CardClass, draws: seq<nat>) returns (r: Option<Deck>)
    ensures r.Some? ==> |r.value.cards| == DeckSize && r.value.heroClass == cls
    ensures r.Some? ==> forall c :: c in r.value.cards ==> c in standard && FitsClass(c, cls)
    ensures r.Some? ==> forall c :: c in r.value.cards ==> multiset(r.value.cards)[c] <= 2
  {
    if |standard| == 0 {
      return None;
    }
    var deck: seq<Card> := [];
    var k := 0;
    while |deck| < DeckSize
      invariant k <= |draws|
      invariant |deck| <= DeckSize
      invariant forall c :: c in deck ==> c in standard && FitsClass(c, cls)
      invariant forall c :: c in deck ==> multiset(deck)[c] <= 2
      decreases |draws| - k
    {
      if k == |draws| {
        return None;
      }
      var card := standard[draws[k] % |standard|];
      k := k + 1;
      if !FitsClass(card, cls) {
        continue;
      }
      if multiset(deck)[card] > 1 {
        continue;
      }
      deck := deck + [card];
    }
    return Some(EmptyDeck().(heroClass := cls, cards := deck));
  }

  // ---------------------------------------------------------------------------
  // GetBestDeckOfLastGeneration

  /** The catalogue cards named by the lines from `j` on, up to an empty line,
      a name the catalogue does not know, or the end of the file. */
  function ReadNames(lines: seq<string>, j: nat, catalog: seq<Card>): (r: seq<Card>)
    requires j <= |lines|
    ensures forall c :: c in r ==> c in catalog
    decreases |lines| - j
  {
    if j == |lines| || lines[j] == "" then []
    else match FromName(catalog, lines[j])
      case None => []
      case Some(c) => [c] + ReadNames(lines, j + 1, catalog)
  }

  /** `GetBestDeckOfLastGeneration` (and the evolution parser's
      `GetBestDeckOfGeneration`): the named cards, the hero class of the last
      non-neutral one; the curve stays empty. */
  function GetBestDeckOfLastGeneration(lines: seq<string>, catalog: seq<Card>): (r: Deck)
    ensures forall c :: c in r.cards ==> c in catalog
    ensures r.heroClass == LastClass(r.cards, Invalid) && r.curve == []
  {
    var cards := ReadNames(lines, 0, catalog);
    EmptyDeck().(cards := cards, heroClass := LastClass(cards, Invalid))
  }

  /** The names of a deck's cards, one per line, read back as that deck. */
  lemma {:induction false} ReadNamesRoundTrip(lines: seq<string>, j: nat, cards: seq<Card>, catalog: seq<Card>)
    requires j + |cards| <= |lines|
    requires forall k :: 0 <= k < |cards| ==> lines[j + k] == cards[k].name &&
                                              cards[k].name != "" && FromName(catalog, cards[k].name) == Some(cards[k])
    requires j + |cards| == |lines| || lines[j + |cards|] == ""
    ensures ReadNames(lines, j, catalog) == cards
    decreases |cards|
  {
    if |cards| > 0 {
      ReadNamesRoundTrip(lines, j + 1, cards[1..], catalog);
      assert cards == [cards[0]] + cards[1..];
    }
  }

  lemma BestDeckRoundTrip(cards: seq<Card>, catalog: seq<Card>)
    requires forall c :: c in cards ==> c.name != "" && FromName(catalog, c.name) == Some(c)
    ensures GetBestDeckOfLastGeneration(Names(cards), catalog).cards == cards
  {
    ReadNamesRoundTrip(Names(cards), 0, cards, catalog);
  }
}

=== FILE: decks.dfy ===
/** The `Deck` of the counter-deck builder: its cards, opening hands ("drafts"),
    fitness record and the two pieces of draw-biasing metadata (cards forbidden
    on the opening hand and pinned draw positions), together with the copy-limit
    rule, the deterministic opening-hand finder and the deep copy. */
module Decks {
  import opened Common
  import opened Cards

  /** A fixed opening hand and the win rate measured with it. */
  datatype Draft = Draft(cards: seq<Card>, winrate: real)

  /** `SimulationResult`: games per opponent and wins against each opponent. */
  datatype SimResult = SimResult(deckGames: int, results: seq<nat>, winrate: real)

  const NoSimulation := SimResult(0, [], 0.0)

  /** `positions` is a dictionary; its enumeration order is insertion order,
      so it is kept as a list of pairs with distinct keys. */
  datatype Deck = Deck(
    deckname: string,
    winrate: real,
    variance: real,
    heroClass: CardClass,
    cards: seq<Card>,
    hands: seq<Draft>,
    sim: SimResult,
    curve: seq<int>,
    forbidden: seq<Card>,
    positions: seq<(Card, int)>)

  /** A deck as `new Deck()` leaves it before its fields are filled in. */
  function EmptyDeck(): Deck {
    Deck("", 0.0, 0.0, Invalid, [], [], NoSimulation, [], [], [])
  }

  /** The copy limit of the game: two copies of a card, one of a legendary. */
  function CopyLimit(c: Card): nat {
    if c.legendary then 1 else 2
  }

  /** `Deck.CardAvailable`: one more copy of `c` would still respect the copy limit. */
  function CardAvailable(d: Deck, c: Card): (r: bool)
    ensures r <==> NameCount(d.cards, c.name) + 1 <= CopyLimit(c)
  {
    var count := NameCount(d.cards, c.name);
    var count' := if c.legendary then count + 1 else count;
    count' < 2
  }

  /** Every card of the list respects the copy limit. */
  ghost predicate WithinCopyLimit(cards: seq<Card>) {
    forall i :: 0 <= i < |cards| ==> NameCount(cards, cards[i].name) <= CopyLimit(cards[i])
  }

  /** Writing an available card over any slot keeps its own copy count within the limit. */
  lemma {:induction false} AvailableReplacementWithinLimit(d: Deck, i: nat, c: Card)
    requires i < |d.cards|
    requires CardAvailable(d, c)
    ensures NameCount(d.cards[i := c], c.name) <= CopyLimit(c)
  {
    NameCountUpdate(d.cards, i, c, c.name);
  }

  /** `Deck.DeepCopy`: a fresh deck with the same name, win rate, class, cards,
      hands, forbidden list and positions; variance, simulation result and mana
      curve start over as in `new Deck()`. */
  function DeepCopy(d: Deck): (r: Deck)
    ensures r.cards == d.cards && r.hands == d.hands
    ensures r.forbidden == d.forbidden && r.positions == d.positions
    ensures r.deckname == d.deckname && r.winrate == d.winrate && r.heroClass == d.heroClass
    ensures r.variance == 0.0 && r.sim == NoSimulation && r.curve == []
  {
    EmptyDeck().(deckname := d.deckname, winrate := d.winrate, heroClass := d.heroClass,
                 cards := d.cards, hands := d.hands, forbidden := d.forbidden,
                 positions := d.positions)
  }

  /** `Deck.GetManaCurves`: one curve per deck, each the costs of its cards. */
  function GetManaCurves(decks: seq<Deck>): (r: seq<seq<int>>)
    ensures |r| == |decks|
    ensures forall k :: 0 <= k < |decks| ==> |r[k]| == |decks[k].cards|
    ensures forall k, i :: 0 <= k < |decks| && 0 <= i < |decks[k].cards| ==> r[k][i] == decks[k].cards[i].cost
  {
    seq(|decks|, k requires 0 <= k < |decks| => Costs(decks[k].cards))
  }

  /** `positions[card] = value`: overwrite in place or append at the end. */
  function SetPosition(ps: seq<(Card, int)>, c: Card, v: int): (r: seq<(Card, int)>)
    ensures (c, v) in r
    ensures |r| == |ps| || |r| == |ps| + 1
    ensures forall k :: 0 <= k < |ps| && ps[k].0 != c ==> ps[k] in r
  {
    if |ps| == 0 then [(c, v)]
    else if ps[0].0 == c then [(c, v)] + ps[1..]
    else [ps[0]] + SetPosition(ps[1..], c, v)
  }

  // ---------------------------------------------------------------------------
  // Opening-hand finder.

  /** A card `FindHands` may put on an opening hand. */
  predicate Usable(c: Card, forbidden: seq<Card>) {
    c !in forbidden
  }

  /** `deck.Find(card => !forbidden.Contains(card) && card.Cost == cost)`. */
  function FirstOfCost(cards: seq<Card>, forbidden: seq<Card>, cost: int): (r: Option<Card>)
    ensures r.Some? ==> r.value in cards && Usable(r.value, forbidden) && r.value.cost == cost
    ensures r.None? <==> forall c :: c in cards && Usable(c, forbidden) ==> c.cost != cost
  {
    if |cards| == 0 then None
    else if Usable(cards[0], forbidden) && cards[0].cost == cost then Some(cards[0])
    else FirstOfCost(cards[1..], forbidden, cost)
  }

  /** `Find` returns the earliest matching card in deck order. */
  lemma {:induction false} FirstOfCostIsFirst(cards: seq<Card>, forbidden: seq<Card>, cost: int)
    requires FirstOfCost(cards, forbidden, cost).Some?
    ensures exists i :: 0 <= i < |cards| && cards[i] == FirstOfCost(cards, forbidden, cost).value &&
              forall j :: 0 <= j < i ==> !(Usable(cards[j], forbidden) && cards[j].cost == cost)
  {
    if !(Usable(cards[0], forbidden) && cards[0].cost == cost) {
      FirstOfCostIsFirst(cards[1..], forbidden, cost);
      var i :| 0 <= i < |cards[1..]| && cards[1..][i] == FirstOfCost(cards[1..], forbidden, cost).value &&
               forall j :: 0 <= j < i ==> !(Usable(cards[1..][j], forbidden) && cards[1..][j].cost == cost);
      assert cards[i + 1] == FirstOfCost(cards, forbidden, cost).value;
      forall j | 0 <= j < i + 1
        ensures !(Usable(cards[j], forbidden) && cards[j].cost == cost)
      {
        if j > 0 {
          assert cards[j] == cards[1..][j - 1];
        }
      }
    } else {
      assert cards[0] == FirstOfCost(cards, forbidden, cost).value;
    }
  }

  /** The match found by searching costs `a, a-1, ..., 0` in that order. */
  function HighestMatch(cards: seq<Card>, forbidden: seq<Card>, a: int): (r: Option<Card>)
    decreases a + 1
  {
    if a < 0 then None
    else if FirstOfCost(cards, forbidden, a).Some? then FirstOfCost(cards, forbidden, a)
    else HighestMatch(cards, forbidden, a - 1)
  }

  lemma {:induction false} HighestMatchExists(cards: seq<Card>, forbidden: seq<Card>, a: int)
    ensures HighestMatch(cards, forbidden, a).Some? <==>
            exists c :: c in cards && Usable(c, forbidden) && c.cost <= a
    ensures HighestMatch(cards, forbidden, a).Some? ==>
            var c := HighestMatch(cards, forbidden, a).value;
            c in cards && Usable(c, forbidden) && c.cost <= a
    decreases a + 1
  {
    if a >= 0 && FirstOfCost(cards, forbidden, a).None? {
      HighestMatchExists(cards, forbidden, a - 1);
      if exists c :: c in cards && Usable(c, forbidden) && c.cost <= a {
        var c :| c in cards && Usable(c, forbidden) && c.cost <= a;
        assert c.cost <= a - 1;
      }
    }
  }

  /** The card `FindHands` picks for one requested cost, in closed form: the first
      usable card of exactly that cost; failing that, the highest cost below it
      that has one; failing that, the highest cost from 3 down. `None` stands for
      the search that never ends. */
  function PickForCost(cards: seq<Card>, forbidden: seq<Card>, cost: int): Option<Card>
  {
    var exact := FirstOfCost(cards, forbidden, cost);
    if exact.Some? then exact
    else if HighestMatch(cards, forbidden, cost - 1).Some? then HighestMatch(cards, forbidden, cost - 1)
    else HighestMatch(cards, forbidden, 3)
  }

  /** The fallback loop of `FindHands` as written, one iteration per unit of
      fuel: decrement `a`, search cost `a`, and wrap to 4 once `a` is negative. */
  function FallbackLoop(cards: seq<Card>, forbidden: seq<Card>, a: int, fuel: nat): Option<Card>
    decreases fuel
  {
    if fuel == 0 then None
    else
      var a' := a - 1;
      var c := FirstOfCost(cards, forbidden, a');
      if c.Some? then c
      else FallbackLoop(cards, forbidden, if a' < 0 then 4 else a', fuel - 1)
  }

  /** One requested cost as the source computes it, given a bound on iterations. */
  function PickForCostLooped(cards: seq<Card>, forbidden: seq<Card>, cost: int, fuel: nat): Option<Card>
  {
    var c := FirstOfCost(cards, forbidden, cost);
    if c.Some? then c else FallbackLoop(cards, forbidden, cost, fuel)
  }

  /** Whatever the loop finds is what the closed form names. */
  lemma {:induction false} FallbackLoopSound(cards: seq<Card>, forbidden: seq<Card>, a: int, fuel: nat)
    requires FallbackLoop(cards, forbidden, a, fuel).Some?
    ensures FallbackLoop(cards, forbidden, a, fuel) ==
            if HighestMatch(cards, forbidden, a - 1).Some? then HighestMatch(cards, forbidden, a - 1)
            else HighestMatch(cards, forbidden, 3)
    decreases fuel
  {
    var a' := a - 1;
    if FirstOfCost(cards, forbidden, a').None? {
      if a' < 0 {
        FallbackLoopSound(cards, forbidden, 4, fuel - 1);
      } else {
        FallbackLoopSound(cards, forbidden, a', fuel - 1);
      }
    }
  }

  /** Searching down from `a - 1` reaches the highest match below `a` within `a` iterations. */
  lemma {:induction false} FallbackLoopFindsBelow(cards: seq<Card>, forbidden: seq<Card>, a: int, fuel: nat)
    requires HighestMatch(cards, forbidden, a - 1).Some?
    requires fuel >= a
    ensures FallbackLoop(cards, forbidden, a, fuel) == HighestMatch(cards, forbidden, a - 1)
    decreases a
  {
    if FirstOfCost(cards, forbidden, a - 1).None? {
      FallbackLoopFindsBelow(cards, forbidden, a - 1, fuel - 1);
    }
  }

  /** With nothing below `a`, the loop wraps once to 4 and then searches 3 down to 0. */
  lemma {:induction false} FallbackLoopWraps(cards: seq<Card>, forbidden: seq<Card>, a: int, fuel: nat)
    requires HighestMatch(cards, forbidden, a - 1).None?
    requires HighestMatch(cards, forbidden, 3).Some?
    requires fuel >= (if a > 0 then a else 0) + 5
    ensures FallbackLoop(cards, forbidden, a, fuel) == HighestMatch(cards, forbidden, 3)
    decreases if a > 0 then a else 0
  {
    var a' := a - 1;
    if a' < 0 {
      FallbackLoopFindsBelow(cards, forbidden, 4, fuel - 1);
    } else {
      FallbackLoopWraps(cards, forbidden, a', fuel - 1);
    }
  }

  /** The iteration bound after which the loop has either found a card or never will. */
  function IterationBound(cost: int): nat {
    (if cost > 0 then cost else 0) + 5
  }

  /** The closed form is exactly the source's loop: every run that stops agrees
      with it, it stops within `IterationBound(cost)` iterations whenever the
      closed form finds a card, and it runs forever otherwise. */
  lemma PickForCostIsLoop(cards: seq<Card>, forbidden: seq<Card>, cost: int)
    ensures forall fuel: nat :: PickForCostLooped(cards, forbidden, cost, fuel).Some? ==>
              PickForCostLooped(cards, forbidden, cost, fuel) == PickForCost(cards, forbidden, cost)
    ensures PickForCost(cards, forbidden, cost).Some? ==>
              PickForCostLooped(cards, forbidden, cost, IterationBound(cost)) == PickForCost(cards, forbidden, cost)
    ensures PickForCost(cards, forbidden, cost).None? ==>
              forall fuel: nat :: PickForCostLooped(cards, forbidden, cost, fuel).None?
  {
    forall fuel: nat | PickForCostLooped(cards, forbidden, cost, fuel).Some?
      ensures PickForCostLooped(cards, forbidden, cost, fuel) == PickForCost(cards, forbidden, cost)
    {
      if FirstOfCost(cards, forbidden, cost).None? {
        FallbackLoopSound(cards, forbidden, cost, fuel);
      }
    }
    if FirstOfCost(cards, forbidden, cost).None? {
      if HighestMatch(cards, forbidden, cost - 1).Some? {
        FallbackLoopFindsBelow(cards, forbidden, cost, IterationBound(cost));
      } else if HighestMatch(cards, forbidden, 3).Some? {
        FallbackLoopWraps(cards, forbidden, cost, IterationBound(cost));
      }
    }
  }

  /** The search for one cost ends exactly when some usable card costs at most
      max(cost, 3); the card it ends with is a usable card of the deck, and an
      exact-cost card is preferred, taking the first one in deck order. */
  lemma PickForCostSpec(cards: seq<Card>, forbidden: seq<Card>, cost: int)
    ensures PickForCost(cards, forbidden, cost).Some? <==>
            exists c :: c in cards && Usable(c, forbidden) && c.cost <= (if cost > 3 then cost else 3)
    ensures PickForCost(cards, forbidden, cost).Some? ==>
            PickForCost(cards, forbidden, cost).value in cards && Usable(PickForCost(cards, forbidden, cost).value, forbidden)
    ensures FirstOfCost(cards, forbidden, cost).Some? ==>
            PickForCost(cards, forbidden, cost) == FirstOfCost(cards, forbidden, cost)
  {
    HighestMatchExists(cards, forbidden, cost);
    HighestMatchExists(cards, forbidden, cost - 1);
    HighestMatchExists(cards, forbidden, 3);
    if FirstOfCost(cards, forbidden, cost).None? && exists c :: c in cards && Usable(c, forbidden) && c.cost <= (if cost > 3 then cost else 3) {
      var c :| c in cards && Usable(c, forbidden) && c.cost <= (if cost > 3 then cost else 3);
      if c.cost > 3 {
        assert c.cost <= cost - 1;
      }
    }
  }

  /** One hand: one card per requested cost, or `None` when a search never ends. */
  function HandForCosts(cards: seq<Card>, forbidden: seq<Card>, handCost: seq<int>): (r: Option<seq<Card>>)
    ensures r.Some? <==> forall k :: 0 <= k < |handCost| ==> PickForCost(cards, forbidden, handCost[k]).Some?
    ensures r.Some? ==> (|r.value| == |handCost| &&
              forall k :: 0 <= k < |handCost| ==> r.value[k] == PickForCost(cards, forbidden, handCost[k]).value)
  {
    if |handCost| == 0 then Some([])
    else
      var c := PickForCost(cards, forbidden, handCost[0]);
      var rest := HandForCosts(cards, forbidden, handCost[1..]);
      if c.None? || rest.None? then
        assert c.None? ==> !PickForCost(cards, forbidden, handCost[0]).Some?;
        None
      else Some([c.value] + rest.value)
  }

  function HandsForCosts(cards: seq<Card>, forbidden: seq<Card>, costs: seq<seq<int>>): (r: Option<seq<Draft>>)
    ensures r.Some? <==> forall k :: 0 <= k < |costs| ==> HandForCosts(cards, forbidden, costs[k]).Some?
    ensures r.Some? ==> (|r.value| == |costs| &&
              forall k :: 0 <= k < |costs| ==> r.value[k] == Draft(HandForCosts(cards, forbidden, costs[k]).value, 0.0))
  {
    if |costs| == 0 then Some([])
    else
      var h := HandForCosts(cards, forbidden, costs[0]);
      var rest := HandsForCosts(cards, forbidden, costs[1..]);
      if h.None? || rest.None? then None
      else Some([Draft(h.value, 0.0)] + rest.value)
  }

  /** `Deck.FindHands`: replaces the hands by one hand per cost tuple; `None`
      when one of the searches would never end. */
  function FindHands(d: Deck, costs: seq<seq<int>>): (r: Option<Deck>)
    ensures r.Some? ==> r.value == d.(hands := r.value.hands)
    ensures r.Some? <==> forall k, j :: 0 <= k < |costs| && 0 <= j < |costs[k]| ==>
              exists c :: c in d.cards && Usable(c, d.forbidden) && c.cost <= (if costs[k][j] > 3 then costs[k][j] else 3)
    ensures r.Some? ==> (|r.value.hands| == |costs| &&
              forall k :: 0 <= k < |costs| ==>
                (|r.value.hands[k].cards| == |costs[k]| &&
                 forall j :: 0 <= j < |costs[k]| ==>
                   var c := r.value.hands[k].cards[j];
                   c in d.cards && Usable(c, d.forbidden) &&
                   (FirstOfCost(d.cards, d.forbidden, costs[k][j]).Some? ==> c == FirstOfCost(d.cards, d.forbidden, costs[k][j]).value)))
  {
    forall k, j | 0 <= k < |costs| && 0 <= j < |costs[k]| {
      PickForCostSpec(d.cards, d.forbidden, costs[k][j]);
    }
    var hands := HandsForCosts(d.cards, d.forbidden, costs);
    if hands.None? then None else Some(d.(hands := hands.value))
  }

  /** `FindHands` with a single cost tuple, the only way the evaluation calls it:
      the deck with exactly one hand, or `None`. */
  function FindHand(d: Deck, handCost: seq<int>): (r: Option<Deck>)
    ensures r.Some? <==> HandForCosts(d.cards, d.forbidden, handCost).Some?
    ensures r.Some? ==> r.value == d.(hands := r.value.hands) && |r.value.hands| == 1
  {
    var hand := HandForCosts(d.cards, d.forbidden, handCost);
    if hand.None? then None else Some(d.(hands := [Draft(hand.value, 0.0)]))
  }

  lemma FindHandIsFindHands(d: Deck, handCost: seq<int>)
    ensures FindHand(d, handCost) == FindHands(d, [handCost])
  {
    var costs := [handCost];
    assert costs[0] == handCost && costs[1..] == [];
    var hand := HandForCosts(d.cards, d.forbidden, handCost);
    assert HandsForCosts(d.cards, d.forbidden, costs[1..]) == Some([]);
    if hand.Some? {
      assert [Draft(hand.value, 0.0)] + [] == [Draft(hand.value, 0.0)];
    }
    assert HandsForCosts(d.cards, d.forbidden, costs) ==
           if hand.None? then None else Some([Draft(hand.value, 0.0)]);
  }

  // ---------------------------------------------------------------------------
  // Random card of a given cost.

  /** How many misses `GetRandomCardOfManaCost` tolerates before raising the cost. */
  const MissesPerCost := 10000

  /** `Deck.GetRandomCardOfManaCost` over a stream of random indices into the
      class-legal cards: draw until the cost matches, raising the wanted cost
      by one after every 10000 misses. `None` when the stream runs out first. */
  function RandomCardOfManaCost(classOk: seq<Card>, manacost: int, draws: seq<nat>): (r: Option<Card>)
    requires forall k :: 0 <= k < |draws| ==> draws[k] < |classOk|
    ensures r.Some? ==> r.value in classOk && r.value.cost >= manacost
  {
    if |draws| == 0 then None
    else DrawUntilCost(classOk, classOk[draws[0]], manacost, 0, draws[1..])
  }

  function DrawUntilCost(classOk: seq<Card>, c: Card, manacost: int, loop: nat, draws: seq<nat>): (r: Option<Card>)
    requires forall k :: 0 <= k < |draws| ==> draws[k] < |classOk|
    requires c in classOk
    ensures r.Some? ==> r.value in classOk && r.value.cost >= manacost
    decreases |draws|
  {
    if c.cost == manacost then Some(c)
    else if |draws| == 0 then None
    else
      var c' := classOk[draws[0]];
      if loop + 1 == MissesPerCost then DrawUntilCost(classOk, c', manacost + 1, 0, draws[1..])
      else DrawUntilCost(classOk, c', manacost, loop + 1, draws[1..])
  }

  /** The cards `GetRandomCardOfManaCost` and `GetAllMutations` draw from, in catalogue order. */
  function ClassOk(catalog: seq<Card>, hero: CardClass): (r: seq<Card>)
    ensures forall c :: c in r <==> c in catalog && FitsClass(c, hero)
  {
    if |catalog| == 0 then []
    else (if FitsClass(catalog[0], hero) then [catalog[0]] else []) + ClassOk(catalog[1..], hero)
  }
}

=== FILE: drafts.dfy ===
/** Opening-hand ("draft") bookkeeping of `DraftSeeker`: the draft order, the
    selection `DeserializeDrafts` makes from a stored list, and the search of
    `GetAllDrafts`, which tries every 3-card hand once per distinct set of card
    names and plays one game for every way of stacking the top of the deck. */
module Drafts {
  import opened Common
  import opened Cards
  import opened Decks
  import opened Combinatorics

  // ---------------------------------------------------------------------------
  // Draft.CompareTo

  /** `Draft.CompareTo`: `Winrate.CompareTo(other.Winrate)`. */
  function CompareDrafts(a: Draft, b: Draft): (r: int)
    ensures -1 <= r <= 1
    ensures r < 0 <==> a.winrate < b.winrate
    ensures r == 0 <==> a.winrate == b.winrate
  {
    if a.winrate < b.winrate then -1 else if a.winrate > b.winrate then 1 else 0
  }

  /** The order looks at the win rate only: swapping the cards of either draft
      changes nothing, and comparing the other way round flips the sign. */
  lemma CompareDraftsByWinrateOnly(a: Draft, b: Draft, x: seq<Card>, y: seq<Card>)
    ensures CompareDrafts(a.(cards := x), b.(cards := y)) == CompareDrafts(a, b)
    ensures CompareDrafts(b, a) == -CompareDrafts(a, b)
  {
  }

  // ---------------------------------------------------------------------------
  // DeserializeDrafts / XmlDeserializeDrafts

  /** One stored entry: the catalogue cards named by its first three strings.
      `None`: fewer than three names, or a name the catalogue does not know. */
  function ReadDraft(names: seq<string>, catalog: seq<Card>): (r: Option<Draft>)
    ensures r.Some? <==> |names| >= 3 && forall i :: 0 <= i < 3 ==> FromName(catalog, names[i]).Some?
    ensures r.Some? ==> |r.value.cards| == 3 && r.value.winrate == 0.0 &&
                        forall i :: 0 <= i < 3 ==> r.value.cards[i] in catalog && r.value.cards[i].name == names[i]
  {
    if |names| < 3 then None
    else
      var a := FromName(catalog, names[0]);
      var b := FromName(catalog, names[1]);
      var c := FromName(catalog, names[2]);
      if a.None? || b.None? || c.None? then None
      else Some(Draft([a.value, b.value, c.value], 0.0))
  }

  function ReadDrafts(data: seq<seq<string>>, catalog: seq<Card>): (r: Option<seq<Draft>>)
    ensures r.Some? <==> forall k :: 0 <= k < |data| ==> ReadDraft(data[k], catalog).Some?
    ensures r.Some? ==> |r.value| == |data| &&
                        forall k :: 0 <= k < |data| ==> Some(r.value[k]) == ReadDraft(data[k], catalog)
  {
    if |data| == 0 then Some([])
    else
      var d := ReadDraft(data[0], catalog);
      var rest := ReadDrafts(data[1..], catalog);
      if d.None? then None
      else if rest.None? then
        assert forall k :: 1 <= k < |data| ==> data[k] == data[1..][k - 1];
        None
      else
        assert forall k :: 1 <= k < |data| ==> data[k] == data[1..][k - 1];
        Some([d.value] + rest.value)
  }

  /** The three drafts kept from the stored list: the first, the one at
      `Count / 2` and the last. `None` for an empty list (the source indexes
      out of range). */
  function SelectThree(ds: seq<Draft>): (r: Option<seq<Draft>>)
    ensures r.None? <==> |ds| == 0
    ensures r.Some? ==> |r.value| == 3 && forall x :: x in r.value ==> x in ds
    ensures r.Some? ==> r.value[0] == ds[0] && r.value[1] == ds[|ds| / 2] && r.value[2] == ds[|ds| - 1]
  {
    if |ds| == 0 then None else Some([ds[0], ds[|ds| / 2], ds[|ds| - 1]])
  }

  /** `Draft.DeserializeDrafts` (and `XmlDeserializeDrafts`, which reads the
      same list of name lists from XML): build a 3-card draft per entry, then
      keep the first, middle and last. */
  function DeserializeDrafts(data: seq<seq<string>>, catalog: seq<Card>): (r: Option<seq<Draft>>)
    ensures r.Some? <==> |data| > 0 && forall k :: 0 <= k < |data| ==> ReadDraft(data[k], catalog).Some?
    ensures r.Some? ==> |r.value| == 3
    ensures r.Some? ==> Some(r.value[0]) == ReadDraft(data[0], catalog) &&
                        Some(r.value[1]) == ReadDraft(data[|data| / 2], catalog) &&
                        Some(r.value[2]) == ReadDraft(data[|data| - 1], catalog)
  {
    var ds := ReadDrafts(data, catalog);
    if ds.None? then None else SelectThree(ds.value)
  }

  /** A single stored entry yields that draft three times. */
  lemma DeserializeSingleEntry(names: seq<string>, catalog: seq<Card>)
    requires ReadDraft(names, catalog).Some?
    ensures DeserializeDrafts([names], catalog) == Some([ReadDraft(names, catalog).value, ReadDraft(names, catalog).value, ReadDraft(names, catalog).value])
  {
    var r := DeserializeDrafts([names], catalog);
    assert r.Some?;
    assert |[names]| / 2 == 0 && |[names]| - 1 == 0;
  }

  // ---------------------------------------------------------------------------
  // GetAllDrafts

  /** `String.Join("-", hand.OrderBy(x => x.Name))`: the key under which a hand
      counts as already tried. The source joins the cards' `ToString()` values
      (`Card` is not part of this model), which this key stands in for with the
      bare names; two hands whose joined strings coincide only because a name
      contains '-' can thus be told apart differently. */
  function HandKey(hand: seq<Card>): string {
    var names := Names(SortByName(hand));
    if |names| == 0 then "" else Join(names, '-')
  }

  /** No two drafts share a key. */
  predicate DistinctKeys(ds: seq<Draft>, key: seq<Card> -> string) {
    forall i, j :: 0 <= i < j < |ds| ==> key(ds[i].cards) != key(ds[j].cards)
  }

  /** A win rate `GetAllDrafts` can record: a whole percentage. */
  predicate IsPercent(w: real) {
    0.0 <= w <= 100.0 && w == w.Floor as real
  }

  /** The deck a draft game is played with: the rest of the deck without the
      draft cards, shuffled (the oracle `key` gives each card its random sort
      key), the draft cards appended, and the whole list reversed, so that the
      draft cards come out on top, last one first. */
  function AssembleDeck(restDeck: seq<Card>, restDraft: seq<Card>, key: nat -> nat): (r: seq<Card>)
    ensures |r| == |RemoveEach(restDeck, restDraft)| + |restDraft|
    ensures r[..|restDraft|] == Reverse(restDraft)
    ensures multiset(r) == (multiset(restDeck) - multiset(restDraft)) + multiset(restDraft)
  {
    var newDeck := RemoveEach(restDeck, restDraft);
    var keys := seq(|newDeck|, i requires 0 <= i < |newDeck| => key(i));
    var shuffled := Shuffle(newDeck, keys, |newDeck|);
    var stacked := shuffled + restDraft;
    var r := Reverse(stacked);
    ReversePermutes(stacked);
    ReverseAppend(shuffled, restDraft);
    assert r[..|restDraft|] == Reverse(restDraft);
    r
  }

  /** A subsequence takes no card more often than the list holds it. */
  lemma {:induction false} SubseqSubMultiset<T>(c: seq<T>, s: seq<T>)
    requires IsSubseq(c, s)
    ensures multiset(c) <= multiset(s)
    decreases |s|
  {
    if |c| > 0 {
      assert s == [s[0]] + s[1..];
      if c[0] == s[0] && IsSubseq(c[1..], s[1..]) {
        SubseqSubMultiset(c[1..], s[1..]);
        assert c == [c[0]] + c[1..];
      } else {
        SubseqSubMultiset(c, s[1..]);
      }
    }
  }

  /** For a draft chosen among the combinations of the rest of the deck, the
      assembled deck holds exactly the rest of the deck, reordered, with the
      draft on top in reverse order. */
  lemma AssembledDeckIsPermutation(restDeck: seq<Card>, n: int, restDraft: seq<Card>, key: nat -> nat)
    requires restDraft in Combinations(restDeck, n)
    ensures multiset(AssembleDeck(restDeck, restDraft, key)) == multiset(restDeck)
    ensures |AssembleDeck(restDeck, restDraft, key)| == |restDeck|
    ensures AssembleDeck(restDeck, restDraft, key)[..|restDraft|] == Reverse(restDraft)
  {
    CombinationsAreSubseqs(restDeck, n, restDraft);
    SubseqSubMultiset(restDraft, restDeck);
    RestoreMultiset(AssembleDeck(restDeck, restDraft, key), restDeck, restDraft);
  }

  lemma RestoreMultiset<T>(r: seq<T>, whole: seq<T>, top: seq<T>)
    requires multiset(top) <= multiset(whole)
    requires multiset(r) == (multiset(whole) - multiset(top)) + multiset(top)
    ensures multiset(r) == multiset(whole) && |r| == |whole|
  {
    assert |r| == |multiset(r)|;
  }

  /** The cards left once a hand drawn from the deck is taken out. */
  lemma RestDeckOfHand(deck: seq<Card>, hand: seq<Card>)
    requires hand in Combinations(deck, 3)
    ensures multiset(RemoveEach(deck, hand)) + multiset(hand) == multiset(deck)
    ensures |RemoveEach(deck, hand)| == |deck| - 3
  {
    CombinationsAreSubseqs(deck, 3, hand);
    SubseqSubMultiset(hand, deck);
    var rest := RemoveEach(deck, hand);
    assert |rest| == |multiset(rest)|;
  }

  /** The outcome of every game played with one hand, in `restDrafts` order:
      `Some(true)` won, `Some(false)` lost, `None` the game threw and was
      skipped. The oracle `play(h, j, hand, deck)` stands for the engine and
      the random reference deck of game `j` of hand `h`; `keys(h, j, i)` is the
      shuffle key of card `i` in that game. */
  function HandOutcomes(deck: seq<Card>, hand: seq<Card>, h: nat, n: int,
                        keys: (nat, nat, nat) -> nat, play: (nat, nat, seq<Card>, seq<Card>) -> Option<bool>)
    : (r: seq<Option<bool>>)
    ensures |r| == |Combinations(RemoveEach(deck, hand), n)|
  {
    var restDeck := RemoveEach(deck, hand);
    var restDrafts := Combinations(restDeck, n);
    seq(|restDrafts|, j requires 0 <= j < |restDrafts| =>
      play(h, j, hand, AssembleDeck(restDeck, restDrafts[j], i => keys(h, j, i))))
  }

  /** How many games ended with `Some(won)`. */
  function Count(outs: seq<Option<bool>>, won: bool): (c: nat)
    ensures c <= |outs|
  {
    if |outs| == 0 then 0 else (if outs[0] == Some(won) then 1 else 0) + Count(outs[1..], won)
  }

  /** How many games completed at all. */
  function Completed(outs: seq<Option<bool>>): (c: nat)
    ensures c <= |outs|
  {
    if |outs| == 0 then 0 else (if outs[0].Some? then 1 else 0) + Completed(outs[1..])
  }

  /** Every completed game counts once, as a win or as a loss; a game that
      threw counts as neither. */
  lemma {:induction false} WinsAndLosses(outs: seq<Option<bool>>)
    ensures Count(outs, true) + Count(outs, false) == Completed(outs)
    ensures (forall j :: 0 <= j < |outs| ==> outs[j].Some?) ==> Completed(outs) == |outs|
    ensures (forall j :: 0 <= j < |outs| ==> outs[j].None?) ==> Completed(outs) == 0
  {
    if |outs| > 0 {
      WinsAndLosses(outs[1..]);
      var x := outs[0];
      assert Count(outs, true) == (if x == Some(true) then 1 else 0) + Count(outs[1..], true);
      assert Count(outs, false) == (if x == Some(false) then 1 else 0) + Count(outs[1..], false);
      assert Completed(outs) == (if x.Some? then 1 else 0) + Completed(outs[1..]);
      match x {
        case None =>
        case Some(won) =>
          if won {
            assert x == Some(true);
          } else {
            assert x == Some(false);
          }
      }
      assert forall j :: 1 <= j < |outs| ==> outs[1..][j - 1] == outs[j];
    }
  }

  /** `wins * 100 / totalgames` in integer arithmetic; `None` when no game
      completed (the division throws). */
  function PercentWon(wins: nat, losses: nat): (r: Option<int>)
    ensures r.None? <==> wins + losses == 0
    ensures r.Some? ==> 0 <= r.value <= 100
    ensures r.Some? ==> r.value * (wins + losses) <= wins * 100 < (r.value + 1) * (wins + losses)
  {
    var total := wins + losses;
    if total == 0 then None
    else
      var p := wins * 100 / total;
      PercentBounds(wins * 100, total, p);
      PercentAtMost(wins, total, p);
      Some(p)
  }

  lemma PercentBounds(x: nat, total: nat, p: int)
    requires total > 0 && p == x / total
    ensures p >= 0 && p * total <= x < (p + 1) * total
  {
    assert x == total * p + x % total;
    assert (p + 1) * total == p * total + total;
  }

  lemma PercentAtMost(wins: nat, total: nat, p: int)
    requires 0 < total && wins <= total && p * total <= wins * 100
    ensures p <= 100
  {
    assert (p - 100) * total == p * total - 100 * total;
    assert (p - 100) * total <= 0;
  }

  /** The win rate recorded for a hand, from its game outcomes. */
  function HandWinrate(outs: seq<Option<bool>>): (r: Option<int>)
    ensures r.None? <==> Completed(outs) == 0
    ensures r.Some? ==> 0 <= r.value <= 100
  {
    WinsAndLosses(outs);
    PercentWon(Count(outs, true), Count(outs, false))
  }

  /** The win rate of each hand of `hands`, from its own games. */
  function HandRates(deck: seq<Card>, hands: seq<seq<Card>>, n: int,
                     keys: (nat, nat, nat) -> nat, play: (nat, nat, seq<Card>, seq<Card>) -> Option<bool>)
    : (rate: nat -> Option<int>)
    ensures forall g :: rate(g).Some? ==> 0 <= rate(g).value <= 100
    ensures forall g: nat :: g < |hands| ==> (rate(g).None? <==> Completed(HandOutcomes(deck, hands[g], g, n, keys, play)) == 0)
  {
    (g: nat) => if g < |hands| then HandWinrate(HandOutcomes(deck, hands[g], g, n, keys, play)) else None
  }

  ghost predicate Percentages(rate: nat -> Option<int>) {
    forall g :: rate(g).Some? ==> 0 <= rate(g).value <= 100
  }

  /** `hands[g]` is the first of `hands[h..]` with its key, and its key was not
      tried before `h`. */
  predicate FirstFrom(hands: seq<seq<Card>>, key: seq<Card> -> string, h: nat, seen: seq<string>, g: nat)
    requires h <= g < |hands|
  {
    key(hands[g]) !in seen &&
    forall g' :: h <= g' < g ==> key(hands[g']) != key(hands[g])
  }

  /** What the drafts found from hand `h` on satisfy: distinct keys, none
      tried before `h`, each a hand of `hands[h..]` with a whole-percentage win rate. */
  ghost predicate GoodDrafts(ds: seq<Draft>, hands: seq<seq<Card>>, key: seq<Card> -> string, h: nat, seen: seq<string>)
    requires h <= |hands|
  {
    DistinctKeys(ds, key) &&
    forall i :: 0 <= i < |ds| ==> key(ds[i].cards) !in seen && ds[i].cards in hands[h..] && IsPercent(ds[i].winrate)
  }

  lemma GoodDraftsSkip(ds: seq<Draft>, hands: seq<seq<Card>>, key: seq<Card> -> string, h: nat, seen: seq<string>)
    requires h < |hands| && GoodDrafts(ds, hands, key, h + 1, seen)
    ensures GoodDrafts(ds, hands, key, h, seen)
  {
    assert forall x :: x in hands[h + 1..] ==> x in hands[h..];
  }

  lemma GoodDraftsCons(d: Draft, ds: seq<Draft>, hands: seq<seq<Card>>, key: seq<Card> -> string, h: nat, seen: seq<string>)
    requires h < |hands| && d.cards == hands[h] && IsPercent(d.winrate) && key(d.cards) !in seen
    requires GoodDrafts(ds, hands, key, h + 1, seen + [key(d.cards)])
    ensures GoodDrafts([d] + ds, hands, key, h, seen)
  {
    var r := [d] + ds;
    assert forall i :: 0 < i < |r| ==> r[i] == ds[i - 1];
    assert forall x :: x in hands[h + 1..] ==> x in hands[h..];
    assert hands[h] in hands[h..];
  }

  /** The `foreach (var hand in allHands)` loop from hand `h` on, with the keys
      already tried in `seen`: a hand whose key was tried is skipped, any other
      becomes a draft with its win rate. `None`: a hand without a completed
      game, whose win-rate division throws and ends the whole search. */
  function DraftsFrom(hands: seq<seq<Card>>, key: seq<Card> -> string, rate: nat -> Option<int>, h: nat, seen: seq<string>)
    : (r: Option<seq<Draft>>)
    requires h <= |hands| && Percentages(rate)
    ensures r.Some? ==> GoodDrafts(r.value, hands, key, h, seen)
    decreases |hands| - h
  {
    if h == |hands| then Some([])
    else if key(hands[h]) in seen then
      var rest := DraftsFrom(hands, key, rate, h + 1, seen);
      if rest.None? then None
      else
        GoodDraftsSkip(rest.value, hands, key, h, seen);
        rest
    else if rate(h).None? then None
    else
      var d := Draft(hands[h], rate(h).value as real);
      var rest := DraftsFrom(hands, key, rate, h + 1, seen + [key(hands[h])]);
      if rest.None? then None
      else
        GoodDraftsCons(d, rest.value, hands, key, h, seen);
        Some([d] + rest.value)
  }

  /** The result of `GetAllDrafts`: `null` for too short a sequence, the
      division by zero of a hand without a completed game, or the drafts. */
  datatype DraftSearch = TooShort | DivideByZero | Found(drafts: seq<Draft>)

  /** `DraftSeeker.GetAllDrafts(sequenceLength)`: every 3-card combination of
      the draft deck whose sorted card names were not tried yet becomes a draft;
      it plays one game for every `(sequenceLength - 3)`-combination of the
      remaining cards stacked on top of the deck, and records the integer
      percentage of the completed games it won. */
  function GetAllDrafts(deck: seq<Card>, sequenceLength: int,
                        keys: (nat, nat, nat) -> nat, play: (nat, nat, seq<Card>, seq<Card>) -> Option<bool>)
    : (r: DraftSearch)
    ensures r.TooShort? <==> sequenceLength < 4
    ensures r.Found? ==> DistinctKeys(r.drafts, HandKey)
    ensures r.Found? ==> forall i :: 0 <= i < |r.drafts| ==>
              |r.drafts[i].cards| == 3 && IsSubseq(r.drafts[i].cards, deck) && IsPercent(r.drafts[i].winrate)
  {
    if sequenceLength < 4 then TooShort
    else
      var hands := Combinations(deck, 3);
      var found := DraftsFrom(hands, HandKey, HandRates(deck, hands, sequenceLength - 3, keys, play), 0, []);
      if found.None? then DivideByZero
      else
        forall i | 0 <= i < |found.value|
          ensures |found.value[i].cards| == 3 && IsSubseq(found.value[i].cards, deck)
        {
          assert found.value[i].cards in hands[0..];
          assert hands[0..] == hands;
          CombinationsAreSubseqs(deck, 3, found.value[i].cards);
        }
        Found(found.value)
  }

  /** Each hand that is the first with its key gets its draft, with its own
      win rate. */
  lemma {:induction false} DraftsFromKeepsFirst(hands: seq<seq<Card>>, key: seq<Card> -> string, rate: nat -> Option<int>,
                                                h: nat, seen: seq<string>, g: nat)
    requires h <= g < |hands| && Percentages(rate) && FirstFrom(hands, key, h, seen, g)
    requires DraftsFrom(hands, key, rate, h, seen).Some?
    ensures rate(g).Some? && Draft(hands[g], rate(g).value as real) in DraftsFrom(hands, key, rate, h, seen).value
    decreases |hands| - h
  {
    if key(hands[h]) in seen {
      DraftsFromKeepsFirst(hands, key, rate, h + 1, seen, g);
    } else if g > h {
      assert key(hands[g]) !in seen + [key(hands[h])];
      DraftsFromKeepsFirst(hands, key, rate, h + 1, seen + [key(hands[h])], g);
    }
  }

  lemma FirstFromSkip(hands: seq<seq<Card>>, key: seq<Card> -> string, h: nat, seen: seq<string>, g: nat)
    requires h < g < |hands| && key(hands[h]) in seen
    ensures FirstFrom(hands, key, h, seen, g) <==> FirstFrom(hands, key, h + 1, seen, g)
  {
  }

  lemma FirstFromAdd(hands: seq<seq<Card>>, key: seq<Card> -> string, h: nat, seen: seq<string>, g: nat)
    requires h < g < |hands| && key(hands[h]) !in seen
    ensures FirstFrom(hands, key, h, seen, g) <==> FirstFrom(hands, key, h + 1, seen + [key(hands[h])], g)
  {
  }

  /** The search fails exactly when some hand that is the first with its key
      has no win rate. */
  lemma {:induction false} DraftsFromFails(hands: seq<seq<Card>>, key: seq<Card> -> string, rate: nat -> Option<int>,
                                           h: nat, seen: seq<string>)
    requires h <= |hands| && Percentages(rate)
    ensures DraftsFrom(hands, key, rate, h, seen).None? <==>
            exists g :: h <= g < |hands| && FirstFrom(hands, key, h, seen, g) && rate(g).None?
    decreases |hands| - h
  {
    if h < |hands| {
      if key(hands[h]) in seen {
        DraftsFromFails(hands, key, rate, h + 1, seen);
        forall g | h + 1 <= g < |hands| {
          FirstFromSkip(hands, key, h, seen, g);
        }
        assert !FirstFrom(hands, key, h, seen, h);
      } else if rate(h).None? {
        assert FirstFrom(hands, key, h, seen, h);
      } else {
        DraftsFromFails(hands, key, rate, h + 1, seen + [key(hands[h])]);
        forall g | h + 1 <= g < |hands| {
          FirstFromAdd(hands, key, h, seen, g);
        }
      }
    }
  }

  /** The search throws a division by zero exactly when some hand that is
      the first with its key completed no game. */
  lemma GetAllDraftsFails(deck: seq<Card>, sequenceLength: int,
                          keys: (nat, nat, nat) -> nat, play: (nat, nat, seq<Card>, seq<Card>) -> Option<bool>)
    requires sequenceLength >= 4
    ensures var hands := Combinations(deck, 3);
            GetAllDrafts(deck, sequenceLength, keys, play).DivideByZero? <==>
              exists g :: 0 <= g < |hands| && FirstFrom(hands, HandKey, 0, [], g) &&
                          Completed(HandOutcomes(deck, hands[g], g, sequenceLength - 3, keys, play)) == 0
  {
    var hands := Combinations(deck, 3);
    GetAllDraftsSearch(deck, sequenceLength, keys, play);
    DraftsFromFailsCompleted(deck, hands, sequenceLength - 3, keys, play);
  }

  lemma GetAllDraftsSearch(deck: seq<Card>, sequenceLength: int,
                           keys: (nat, nat, nat) -> nat, play: (nat, nat, seq<Card>, seq<Card>) -> Option<bool>)
    requires sequenceLength >= 4
    ensures var hands := Combinations(deck, 3);
            GetAllDrafts(deck, sequenceLength, keys, play).DivideByZero? <==>
              DraftsFrom(hands, HandKey, HandRates(deck, hands, sequenceLength - 3, keys, play), 0, []).None?
  {
  }

  /** The search over the hands fails exactly when some hand that is the
      first with its key completed no game. */
  lemma DraftsFromFailsCompleted(deck: seq<Card>, hands: seq<seq<Card>>, n: int,
                                 keys: (nat, nat, nat) -> nat, play: (nat, nat, seq<Card>, seq<Card>) -> Option<bool>)
    ensures DraftsFrom(hands, HandKey, HandRates(deck, hands, n, keys, play), 0, []).None? <==>
            exists g :: 0 <= g < |hands| && FirstFrom(hands, HandKey, 0, [], g) &&
                        Completed(HandOutcomes(deck, hands[g], g, n, keys, play)) == 0
  {
    var rate := HandRates(deck, hands, n, keys, play);
    DraftsFromFails(hands, HandKey, rate, 0, []);
    if DraftsFrom(hands, HandKey, rate, 0, []).None? {
      var g :| 0 <= g < |hands| && FirstFrom(hands, HandKey, 0, [], g) && rate(g).None?;
      assert Completed(HandOutcomes(deck, hands[g], g, n, keys, play)) == 0;
    } else {
      forall g | 0 <= g < |hands| && FirstFrom(hands, HandKey, 0, [], g)
        ensures Completed(HandOutcomes(deck, hands[g], g, n, keys, play)) != 0
      {
        assert rate(g).Some?;
      }
    }
  }

  /** Each hand that is the first with its key is a returned draft, with the
      win rate of its own games. */
  lemma GetAllDraftsKeepsFirst(deck: seq<Card>, sequenceLength: int,
                               keys: (nat, nat, nat) -> nat, play: (nat, nat, seq<Card>, seq<Card>) -> Option<bool>,
                               g: nat)
    requires sequenceLength >= 4
    requires GetAllDrafts(deck, sequenceLength, keys, play).Found?
    requires g < |Combinations(deck, 3)| && FirstFrom(Combinations(deck, 3), HandKey, 0, [], g)
    ensures var hands := Combinations(deck, 3);
            var rate := HandWinrate(HandOutcomes(deck, hands[g], g, sequenceLength - 3, keys, play));
            rate.Some? && Draft(hands[g], rate.value as real) in GetAllDrafts(deck, sequenceLength, keys, play).drafts
  {
    var hands := Combinations(deck, 3);
    DraftsFromKeepsFirst(hands, HandKey, HandRates(deck, hands, sequenceLength - 3, keys, play), 0, [], g);
  }

  /** Every 3-card hand of the deck is represented by a returned draft with
      the same sorted card names. */
  lemma GetAllDraftsCoversHands(deck: seq<Card>, sequenceLength: int,
                                keys: (nat, nat, nat) -> nat, play: (nat, nat, seq<Card>, seq<Card>) -> Option<bool>,
                                g: nat)
    requires GetAllDrafts(deck, sequenceLength, keys, play).Found?
    requires g < |Combinations(deck, 3)|
    ensures var r := GetAllDrafts(deck, sequenceLength, keys, play);
            exists i :: 0 <= i < |r.drafts| && HandKey(r.drafts[i].cards) == HandKey(Combinations(deck, 3)[g])
  {
    var hands := Combinations(deck, 3);
    var rate := HandRates(deck, hands, sequenceLength - 3, keys, play);
    var r := GetAllDrafts(deck, sequenceLength, keys, play);
    var f := FirstWithKey(hands, HandKey, g);
    DraftsFromKeepsFirst(hands, HandKey, rate, 0, [], f);
    var i :| 0 <= i < |r.drafts| && r.drafts[i] == Draft(hands[f], rate(f).value as real);
    assert HandKey(r.drafts[i].cards) == HandKey(hands[g]);
  }

  /** The first index whose hand has the key of `hands[g]`. */
  lemma FirstWithKey(hands: seq<seq<Card>>, key: seq<Card> -> string, g: nat) returns (f: nat)
    requires g < |hands|
    ensures f <= g && FirstFrom(hands, key, 0, [], f) && key(hands[f]) == key(hands[g])
  {
    f := 0;
    while key(hands[f]) != key(hands[g])
      invariant f <= g
      invariant forall g' :: 0 <= g' < f ==> key(hands[g']) != key(hands[g])
      decreases g - f
    {
      f := f + 1;
    }
  }
}

=== FILE: evaluation.dfy ===
/** Fitness evaluation of a generation (`HillClimbing`): the split of a
    population into contiguous slices for worker threads or for independent
    processes, the per-candidate aggregation of simulated games into a win rate
    and a variance, and the hill-climbing loop that ties them together.

    Games are not simulated here: the number of games won in each simulation
    call, and the random hand costs, are oracle arguments. */
module Evaluation {
  import opened Common
  import opened Cards
  import opened Decks
  import opened Fitness
  import opened Mutations
  import Statistics

  // ---------------------------------------------------------------------------
  // Slicing

  lemma MulMonotone(a: nat, b: nat, q: nat)
    requires a <= b
    ensures a * q <= b * q
  {
    assert b * q - a * q == (b - a) * q;
  }

  /** Where slice `j` starts and ends, with `q = n / parts`. */
  lemma SliceArith(n: nat, parts: nat, j: nat)
    requires 0 < parts && j < parts
    ensures j * (n / parts) + n / parts <= n
    ensures (j + 1) * (n / parts) == j * (n / parts) + n / parts
    ensures j == parts - 1 ==> n - j * (n / parts) == n / parts + n % parts
  {
    var q := n / parts;
    MulMonotone(j + 1, parts, q);
    assert n == parts * q + n % parts;
    assert (j + 1) * q == j * q + q;
    if j == parts - 1 {
      assert parts * q == j * q + q;
    }
  }

  /** Slice `j` of `parts` over `n` items starts at `j * (n / parts)`: every
      slice but the last fits before the end, and the last runs to it. */
  function SliceStart(n: nat, parts: nat, j: nat): (lo: nat)
    requires 0 < parts && j < parts
    ensures lo + n / parts <= n
    ensures j == parts - 1 ==> n - lo == n / parts + n % parts
  {
    SliceArith(n, parts, j);
    j * (n / parts)
  }

  /** Consecutive slices are adjacent. */
  lemma SliceNext(n: nat, parts: nat, j: nat)
    requires 0 < parts && j + 1 < parts
    ensures SliceStart(n, parts, j + 1) == SliceStart(n, parts, j) + n / parts
  {
    SliceArith(n, parts, j);
  }

  /** Every slice holds `n / parts` items except the last, which also takes
      the `n % parts` left over. */
  function SliceLength(n: nat, parts: nat, j: nat): nat
    requires 0 < parts
  {
    if j == parts - 1 then n / parts + n % parts else n / parts
  }

  /** The rule both `EvaluateGeneration` and `TestGenerationPartForBash` use:
      every slice holds `n / parts` items except the last, which also takes the
      `n % parts` left over. */
  function Slice<T>(s: seq<T>, parts: nat, j: nat): (r: seq<T>)
    requires 0 < parts && j < parts
    ensures |r| == SliceLength(|s|, parts, j)
    ensures forall k :: 0 <= k < |r| ==> r[k] == s[SliceStart(|s|, parts, j) + k]
  {
    var lo := SliceStart(|s|, parts, j);
    if j == parts - 1 then s[lo..] else s[lo..lo + |s| / parts]
  }

  function Concat<T>(ss: seq<seq<T>>): seq<T> {
    if |ss| == 0 then [] else Concat(ss[..|ss| - 1]) + ss[|ss| - 1]
  }

  /** One step of the slicing loops: from the start of slice `j`, taking the
      slice's length yields the slice and leaves the rest from slice `j + 1` on. */
  lemma TakeSlice<T>(population: seq<T>, parts: nat, j: nat, part: nat)
    requires 0 < parts && j < parts
    requires part == SliceLength(|population|, parts, j)
    ensures Take(population[SliceStart(|population|, parts, j)..], part) == Slice(population, parts, j)
    ensures j + 1 < parts ==> Skip(population[SliceStart(|population|, parts, j)..], part) ==
                              population[SliceStart(|population|, parts, j + 1)..]
    ensures j + 1 == parts ==> Skip(population[SliceStart(|population|, parts, j)..], part) == []
  {
    if j + 1 < parts {
      SliceNext(|population|, parts, j);
    }
  }

  /** The slices `Partition` produces, in closed form. */
  function Slices<T>(population: seq<T>, threads: nat): (r: seq<seq<T>>)
    requires threads > 0
    ensures |r| == threads
    ensures forall j :: 0 <= j < threads ==> r[j] == Slice(population, threads, j)
  {
    seq(threads, j requires 0 <= j < threads => Slice(population, threads, j))
  }

  lemma ConcatPrefix<T>(ss: seq<seq<T>>, j: nat)
    requires j < |ss|
    ensures Concat(ss[..j + 1]) == Concat(ss[..j]) + ss[j]
  {
    assert ss[..j + 1][..j] == ss[..j];
  }

  /** The population up to the start of slice `j + 1` is the population up to
      the start of slice `j`, then slice `j`. */
  lemma PrefixUpToSlice<T>(population: seq<T>, threads: nat, j: nat)
    requires 0 < threads && j < threads
    ensures j + 1 < threads ==>
              population[..SliceStart(|population|, threads, j + 1)] ==
              population[..SliceStart(|population|, threads, j)] + Slice(population, threads, j)
    ensures j + 1 == threads ==>
              population == population[..SliceStart(|population|, threads, j)] + Slice(population, threads, j)
  {
    if j + 1 < threads {
      SliceNext(|population|, threads, j);
    }
  }

  /** The slices, put back together in order, are the population. */
  lemma SlicesCover<T>(population: seq<T>, threads: nat)
    requires threads > 0
    ensures Concat(Slices(population, threads)) == population
  {
    var S := Slices(population, threads);
    var j := 0;
    while j < threads - 1
      invariant 0 <= j <= threads - 1
      invariant Concat(S[..j]) == population[..SliceStart(|population|, threads, j)]
    {
      PrefixUpToSlice(population, threads, j);
      ConcatPrefix(S, j);
      j := j + 1;
    }
    PrefixUpToSlice(population, threads, j);
    ConcatPrefix(S, j);
    assert S[..threads] == S;
  }

  /** Where the slicing loop stands before slice `j`: the slices taken so far
      are the first `j`, and what is left starts at slice `j`. */
  ghost predicate PartitionState<T>(population: seq<T>, threads: nat, j: nat, slices: seq<seq<T>>, copyGen: seq<T>)
    requires 0 < threads && j <= threads
  {
    slices == Slices(population, threads)[..j] &&
    (j < threads ==> copyGen == population[SliceStart(|population|, threads, j)..])
  }

  lemma PartitionStep<T>(population: seq<T>, threads: nat, j: nat, slices: seq<seq<T>>, copyGen: seq<T>, part: nat)
    requires 0 < threads && j < threads
    requires PartitionState(population, threads, j, slices, copyGen)
    requires part == SliceLength(|population|, threads, j)
    ensures PartitionState(population, threads, j + 1, slices + [Take(copyGen, part)], Skip(copyGen, part))
  {
    TakeSlice(population, threads, j, part);
    assert Slices(population, threads)[..j + 1] == Slices(population, threads)[..j] + [Slice(population, threads, j)];
  }

  /** `copyGen.Take(part)` / `copyGen.Skip(part)` in a loop, with `part += mod`
      before the last slice. The slices follow the rule above, and concatenated
      in task order they give back the population. */
  method Partition<T>(population: seq<T>, threads: nat) returns (slices: seq<seq<T>>)
    requires threads > 0
    ensures slices == Slices(population, threads)
    ensures Concat(slices) == population
  {
    var n := |population|;
    var copyGen := population;
    var part := n / threads;
    var mod := n % threads;
    slices := [];
    for j := 0 to threads
      invariant PartitionState(population, threads, j, slices, copyGen)
      invariant j < threads ==> part == n / threads
    {
      if j == threads - 1 {
        part := part + mod;
      }
      PartitionStep(population, threads, j, slices, copyGen, part);
      var partGen := Take(copyGen, part);
      copyGen := Skip(copyGen, part);
      slices := slices + [partGen];
    }
    assert Slices(population, threads)[..threads] == Slices(population, threads);
    SlicesCover(population, threads);
  }

  /** `TestPopulation`: every candidate evaluated in place, order kept. */
  function MapEval<T>(eval: T -> T, s: seq<T>): (r: seq<T>)
    ensures |r| == |s|
    ensures forall i :: 0 <= i < |s| ==> r[i] == eval(s[i])
  {
    seq(|s|, i requires 0 <= i < |s| => eval(s[i]))
  }

  lemma {:induction false} ConcatMap<T>(eval: T -> T, ss: seq<seq<T>>)
    ensures Concat(seq(|ss|, j requires 0 <= j < |ss| => MapEval(eval, ss[j]))) == MapEval(eval, Concat(ss))
  {
    var mapped := seq(|ss|, j requires 0 <= j < |ss| => MapEval(eval, ss[j]));
    if |ss| > 0 {
      var init := ss[..|ss| - 1];
      ConcatMap(eval, init);
      assert mapped[..|ss| - 1] == seq(|init|, j requires 0 <= j < |init| => MapEval(eval, init[j]));
      assert MapEval(eval, Concat(init) + ss[|ss| - 1]) == MapEval(eval, Concat(init)) + MapEval(eval, ss[|ss| - 1]);
    }
  }

  /** `EvaluateGeneration(population, threads)`: with 0 threads the population
      is evaluated in one go; otherwise each slice is evaluated by its own task
      and the results are concatenated in task order. A negative thread count
      fails when the array of `Task`s is allocated. */
  function EvaluateGeneration<T>(population: seq<T>, threads: int, eval: T -> T): (r: Option<seq<T>>)
    ensures r.None? <==> threads < 0
  {
    if threads < 0 then None
    else if threads == 0 then Some(MapEval(eval, population))
    else
      var slices := Slices(population, threads);
      Some(Concat(seq(threads, j requires 0 <= j < threads => MapEval(eval, slices[j]))))
  }

  /** Splitting the work among threads changes nothing: the result is the
      sequential evaluation of the whole population, in the same order. */
  lemma EvaluateGenerationIsSequential<T>(population: seq<T>, threads: int, eval: T -> T)
    requires threads >= 0
    ensures EvaluateGeneration(population, threads, eval) == Some(MapEval(eval, population))
  {
    if threads > 0 {
      SlicesCover(population, threads);
      ConcatMap(eval, Slices(population, threads));
    }
  }

  /** The loop of `TestGenerationPartForBash`: take slices until slice `index`;
      an index outside `[0, parts)` never breaks the loop and leaves the last
      slice; a negative part count runs no iteration and leaves nothing. The
      caller has already ruled out `parts == 0` (a division by zero). */
  method PartForBashLoop<T>(population: seq<T>, parts: int, index: int) returns (tested: seq<T>)
    requires parts != 0
    ensures parts < 0 ==> tested == []
    ensures parts > 0 && 0 <= index < parts ==> tested == Slice(population, parts, index)
    ensures parts > 0 && !(0 <= index < parts) ==> tested == Slice(population, parts, parts - 1)
  {
    tested := [];
    if parts < 0 {
      return;
    }
    var count: nat := parts;
    var n := |population|;
    var part := n / count;
    var mod := n % count;
    var rest := population;
    var i: nat := 0;
    while i < count
      invariant i <= count
      invariant i < count ==> rest == population[SliceStart(n, count, i)..] && part == n / count
      invariant 0 < i ==> tested == Slice(population, count, i - 1)
      invariant 0 <= index < i ==> false
    {
      if i == count - 1 {
        part := part + mod;
      }
      assert part == SliceLength(n, count, i);
      TakeSlice(population, count, i, part);
      tested := Take(rest, part);
      if i == index {
        return;
      }
      rest := Skip(rest, part);
      i := i + 1;
    }
  }

  /** The slice `TestGenerationPartForBash` evaluates, in closed form; `None`
      for `parts == 0`, where `Count / parts` throws. */
  function BashPart<T>(population: seq<T>, parts: int, index: int): (r: Option<seq<T>>)
    ensures r.None? <==> parts == 0
    ensures parts < 0 ==> r == Some([])
    ensures parts > 0 ==> r.Some? && |r.value| == (if 0 <= index < parts - 1 then |population| / parts
                                                   else |population| / parts + |population| % parts)
  {
    if parts == 0 then None
    else if parts < 0 then Some([])
    else if 0 <= index < parts then Some(Slice(population, parts, index))
    else Some(Slice(population, parts, parts - 1))
  }

  /** The closed form agrees with the loop. */
  method BashPartIsLoop<T>(population: seq<T>, parts: int, index: int) returns (tested: seq<T>)
    requires parts != 0
    ensures BashPart(population, parts, index) == Some(tested)
  {
    tested := PartForBashLoop(population, parts, index);
  }

  /** The parts of all indices 0 .. parts-1 put together are the whole population. */
  lemma BashPartsCover<T>(population: seq<T>, parts: nat)
    requires parts > 0
    ensures Concat(seq(parts, j requires 0 <= j < parts => BashPart(population, parts, j).value)) == population
  {
    SlicesCover(population, parts);
    assert seq(parts, j requires 0 <= j < parts => BashPart(population, parts, j).value) == Slices(population, parts);
  }

  /** `TestGenerationPartForBash(parts, index, threads)`: the neighbourhood of
      the first candidate, cut to the chosen slice, evaluated and sorted. `None`
      where the source throws: an empty generation, `parts == 0`, or a negative
      thread count. */
  function TestGenerationPartForBash(gen: seq<Candidate>, catalog: seq<Card>, parts: int, index: int,
                                     threads: int, eval: Candidate -> Candidate): (r: Option<seq<Candidate>>)
    ensures r.Some? <==> |gen| > 0 && parts != 0 && threads >= 0
    ensures r.Some? ==> Sorted(r.value, NoBetter)
    ensures r.Some? ==> (multiset(r.value) ==
              multiset(MapEval(eval, BashPart(GetAllMutations(gen[0], catalog, true).1, parts, index).value)))
  {
    if |gen| == 0 then None
    else
      var population := GetAllMutations(gen[0], catalog, true).1;
      var tested :- BashPart(population, parts, index);
      var evaluated :- EvaluateGeneration(tested, threads, eval);
      EvaluateGenerationIsSequential(tested, threads, eval);
      Some(SortGeneration(evaluated))
  }

  // ---------------------------------------------------------------------------
  // Hill climbing

  /** One iteration of `HillClimb`: evaluate the cost-bound neighbourhood of the
      incumbent, sort it and take its last (best) candidate. `None` when the
      neighbourhood is empty or the thread count is negative. */
  function ClimbStep(parent: Candidate, catalog: seq<Card>, threads: int, eval: Candidate -> Candidate): (r: Option<Candidate>)
    ensures r.Some? ==> threads >= 0 && r.value in MapEval(eval, GetAllMutations(parent, catalog, true).1)
    ensures r.Some? ==> forall c :: c in MapEval(eval, GetAllMutations(parent, catalog, true).1) ==>
                          Compare(c, r.value) <= 0
  {
    var population := GetAllMutations(parent, catalog, true).1;
    var evaluated :- EvaluateGeneration(population, threads, eval);
    EvaluateGenerationIsSequential(population, threads, eval);
    HillClimbLastGeneration(evaluated)
  }

  /** `HillClimb(iterations, threads)`: the incumbent after that many steps. */
  function HillClimb(parent: Candidate, catalog: seq<Card>, iterations: int, threads: int,
                     eval: Candidate -> Candidate): (r: Option<Candidate>)
    ensures iterations <= 0 ==> r == Some(parent)
    ensures iterations > 0 && r.Some? ==> threads >= 0
    decreases iterations
  {
    if iterations <= 0 then Some(parent)
    else
      var next :- ClimbStep(parent, catalog, threads, eval);
      HillClimb(next, catalog, iterations - 1, threads, eval)
  }

  /** Every incumbent is at least as good as every evaluated neighbour of the
      one before it; in particular the result beats the whole last neighbourhood. */
  lemma HillClimbTakesBest(parent: Candidate, catalog: seq<Card>, threads: int, eval: Candidate -> Candidate)
    requires HillClimb(parent, catalog, 1, threads, eval).Some?
    ensures var best := HillClimb(parent, catalog, 1, threads, eval).value;
            var neighbours := MapEval(eval, GetAllMutations(parent, catalog, true).1);
            best in neighbours && forall c :: c in neighbours ==> Compare(c, best) <= 0
  {
    assert HillClimb(parent, catalog, 1, threads, eval) == ClimbStep(parent, catalog, threads, eval);
  }

  // ---------------------------------------------------------------------------
  // Per-candidate aggregation

  function Total(s: seq<nat>): nat {
    if |s| == 0 then 0 else Total(s[..|s| - 1]) + s[|s| - 1]
  }

  lemma TotalAppend(s: seq<nat>, x: nat)
    ensures Total(s + [x]) == Total(s) + x
  {
    assert (s + [x])[..|s|] == s;
  }

  /** Wins against each reference deck: the sum over its drafts. */
  function RefTotals(wins: seq<seq<nat>>): (r: seq<nat>)
    ensures |r| == |wins|
    ensures forall j :: 0 <= j < |wins| ==> r[j] == Total(wins[j])
  {
    seq(|wins|, j requires 0 <= j < |wins| => Total(wins[j]))
  }

  /** The number of reference drafts over all reference decks. */
  function DraftCount(refs: seq<Deck>): nat {
    if |refs| == 0 then 0 else DraftCount(refs[..|refs| - 1]) + |refs[|refs| - 1].hands|
  }

  /** `gamesWon / (gamesCount / 100.0)` as written: with no games played it is
      0 / 0.0, not a number (`None`). */
  function WinRateAsWritten(won: nat, count: nat): (r: Option<real>)
    ensures r.None? <==> count == 0
  {
    if count == 0 then None else Some(won as real / (count as real / 100.0))
  }

  /** The win rate as a percentage, 0 when no game was played. */
  function WinRate(won: nat, count: nat): (r: real)
    requires won <= count
    ensures 0.0 <= r <= 100.0
    ensures count > 0 ==> Some(r) == WinRateAsWritten(won, count)
    ensures count == 0 ==> r == 0.0
  {
    if count == 0 then 0.0
    else
      assert won as real / (count as real / 100.0) == 100.0 * won as real / count as real;
      100.0 * won as real / count as real
  }

  /** `k` rounds of `n` games, counted the way the loops count them. */
  function Times(n: nat, k: nat): nat {
    if k == 0 then 0 else Times(n, k - 1) + n
  }

  lemma {:induction false} TimesIsProduct(n: nat, k: nat)
    ensures Times(n, k) == n * k
  {
    if k > 0 {
      TimesIsProduct(n, k - 1);
    }
  }

  lemma {:induction false} TimesAdd(n: nat, a: nat, b: nat)
    ensures Times(n, a + b) == Times(n, a) + Times(n, b)
    decreases b
  {
    if b > 0 {
      TimesAdd(n, a, b - 1);
    }
  }

  lemma DraftCountAppend(refs: seq<Deck>, j: nat, numGames: nat)
    requires j < |refs|
    ensures DraftCount(refs[..j + 1]) == DraftCount(refs[..j]) + |refs[j].hands|
    ensures Times(numGames, DraftCount(refs[..j + 1])) == Times(numGames, DraftCount(refs[..j])) + Times(numGames, |refs[j].hands|)
  {
    assert refs[..j + 1][..j] == refs[..j];
    TimesAdd(numGames, DraftCount(refs[..j]), |refs[j].hands|);
  }

  lemma RefTotalsAppend(wins: seq<seq<nat>>, j: nat)
    requires j < |wins|
    ensures RefTotals(wins[..j + 1]) == RefTotals(wins[..j]) + [Total(wins[j])]
    ensures Total(RefTotals(wins[..j + 1])) == Total(RefTotals(wins[..j])) + Total(wins[j])
  {
    assert RefTotals(wins[..j + 1]) == RefTotals(wins[..j]) + [Total(wins[j])];
    TotalAppend(RefTotals(wins[..j]), Total(wins[j]));
  }

  // ---------------------------------------------------------------------------
  // TestDeck

  /** One call of `SimulateGames` made by `TestDeck`, as oracles: the random
      hand costs drawn for the candidate before it, the games the candidate
      won, and the card lists the call leaves in the `deck` fields of the
      candidate and of the reference deck, which the simulator reshuffles (and
      pins) in place. */
  datatype Call = Call(costs: seq<int>, won: nat, candidateLeft: seq<Card>, referenceLeft: seq<Card>)

  /** The games won in each call. */
  function Won(calls: seq<Call>): (r: seq<nat>)
    ensures |r| == |calls| && forall t :: 0 <= t < |calls| ==> r[t] == calls[t].won
  {
    seq(|calls|, t requires 0 <= t < |calls| => calls[t].won)
  }

  /** The games won in each call, per reference deck. */
  function WonPerDeck(calls: seq<seq<Call>>): (r: seq<seq<nat>>)
    ensures |r| == |calls| && forall j :: 0 <= j < |calls| ==> r[j] == Won(calls[j])
  {
    seq(|calls|, j requires 0 <= j < |calls| => Won(calls[j]))
  }

  /** The oracle shape of `TestDeck`: one call per draft of every reference
      deck, none winning more than the games it plays. */
  predicate TestDeckOracle(refs: seq<Deck>, numGames: nat, calls: seq<seq<Call>>) {
    |calls| == |refs| &&
    (forall j :: 0 <= j < |refs| ==> |calls[j]| == |refs[j].hands|) &&
    (forall j, t :: 0 <= j < |calls| && 0 <= t < |calls[j]| ==> calls[j][t].won <= numGames)
  }

  /** The candidate's card list after `calls`: what the last of them left, or
      `cards` when there was none. */
  function CandidateAfter(cards: seq<Card>, calls: seq<Call>): seq<Card> {
    if |calls| == 0 then cards else calls[|calls| - 1].candidateLeft
  }

  /** The reference deck's card list after `calls`. */
  function ReferenceAfter(cards: seq<Card>, calls: seq<Call>): seq<Card> {
    if |calls| == 0 then cards else calls[|calls| - 1].referenceLeft
  }

  /** The candidate's card list after the calls against every reference deck
      in turn. */
  function CandidateAfterAll(cards: seq<Card>, calls: seq<seq<Call>>): seq<Card> {
    if |calls| == 0 then cards
    else CandidateAfter(CandidateAfterAll(cards, calls[..|calls| - 1]), calls[|calls| - 1])
  }

  /** Every call finds the candidate's hand in the card list the call before it
      left (the first call, in `cards`). */
  predicate HandsFound(cards: seq<Card>, forbidden: seq<Card>, calls: seq<Call>)
    decreases |calls|
  {
    |calls| == 0 ||
    (HandForCosts(cards, forbidden, calls[0].costs).Some? &&
     HandsFound(calls[0].candidateLeft, forbidden, calls[1..]))
  }

  /** Hands are found against every reference deck in turn, each deck's calls
      starting from the list the previous deck's calls left. */
  predicate AllHandsFound(cards: seq<Card>, forbidden: seq<Card>, calls: seq<seq<Call>>)
    decreases |calls|
  {
    |calls| == 0 ||
    (HandsFound(cards, forbidden, calls[0]) &&
     AllHandsFound(CandidateAfter(cards, calls[0]), forbidden, calls[1..]))
  }

  /** Call `t` searches the list left by call `t - 1`, or the deck's own list
      for the first call. */
  lemma {:induction false} HandsFoundEvery(cards: seq<Card>, forbidden: seq<Card>, calls: seq<Call>)
    ensures HandsFound(cards, forbidden, calls) <==>
            forall t :: 0 <= t < |calls| ==> HandForCosts(CandidateAfter(cards, calls[..t]), forbidden, calls[t].costs).Some?
    decreases |calls|
  {
    if |calls| > 0 {
      var rest := calls[1..];
      HandsFoundEvery(calls[0].candidateLeft, forbidden, rest);
      assert calls[..0] == [];
      forall t | 1 <= t < |calls|
        ensures CandidateAfter(calls[0].candidateLeft, rest[..t - 1]) == CandidateAfter(cards, calls[..t])
        ensures rest[t - 1] == calls[t]
      {
        if t > 1 {
          assert rest[..t - 1][t - 2] == calls[t - 1];
        }
      }
      if HandsFound(cards, forbidden, calls) {
        forall t | 0 <= t < |calls|
          ensures HandForCosts(CandidateAfter(cards, calls[..t]), forbidden, calls[t].costs).Some?
        {
          if t > 0 {
            assert HandForCosts(CandidateAfter(calls[0].candidateLeft, rest[..t - 1]), forbidden, rest[t - 1].costs).Some?;
          }
        }
      }
      if forall t :: 0 <= t < |calls| ==> HandForCosts(CandidateAfter(cards, calls[..t]), forbidden, calls[t].costs).Some? {
        assert HandForCosts(CandidateAfter(cards, calls[..0]), forbidden, calls[0].costs).Some?;
        forall t | 0 <= t < |rest|
          ensures HandForCosts(CandidateAfter(calls[0].candidateLeft, rest[..t]), forbidden, rest[t].costs).Some?
        {
          assert HandForCosts(CandidateAfter(cards, calls[..t + 1]), forbidden, calls[t + 1].costs).Some?;
        }
      }
    }
  }

  /** What the draft loop of `TestDeck` knows after `t` calls against one
      reference deck. */
  ghost predicate DraftsState(d: Deck, ref: Deck, numGames: nat, calls: seq<Call>, t: nat,
                              e: Deck, theirs: Deck, won: nat, count: nat)
    requires t <= |calls|
  {
    e == d.(cards := CandidateAfter(d.cards, calls[..t]), hands := e.hands) &&
    theirs == ref.(cards := ReferenceAfter(ref.cards, calls[..t])) &&
    (t == 0 ==> e.hands == d.hands) &&
    (t > 0 ==> var h := HandForCosts(CandidateAfter(d.cards, calls[..t - 1]), d.forbidden, calls[t - 1].costs);
               h.Some? && e.hands == [Draft(h.value, 0.0)]) &&
    (HandsFound(d.cards, d.forbidden, calls) <==> HandsFound(e.cards, d.forbidden, calls[t..])) &&
    won == Total(Won(calls)[..t]) && count == Times(numGames, t) && won <= count
  }

  lemma DraftsStep(d: Deck, ref: Deck, numGames: nat, calls: seq<Call>, t: nat,
                   e: Deck, theirs: Deck, won: nat, count: nat, found: Deck)
    requires t < |calls| && calls[t].won <= numGames
    requires DraftsState(d, ref, numGames, calls, t, e, theirs, won, count)
    requires found == e.(hands := found.hands) && |found.hands| == 1
    requires HandForCosts(e.cards, e.forbidden, calls[t].costs).Some?
    requires found.hands == [Draft(HandForCosts(e.cards, e.forbidden, calls[t].costs).value, 0.0)]
    ensures DraftsState(d, ref, numGames, calls, t + 1, found.(cards := calls[t].candidateLeft),
                        theirs.(cards := calls[t].referenceLeft), won + calls[t].won, count + numGames)
  {
    assert calls[..t + 1][..t] == calls[..t];
    assert calls[t..][1..] == calls[t + 1..];
    assert Won(calls)[..t + 1] == Won(calls)[..t] + [calls[t].won];
    TotalAppend(Won(calls)[..t], calls[t].won);
  }

  /** The inner loop of `TestDeck` against one reference deck: per draft, one
      random hand for the candidate, found in the card list the previous call
      left, and one call of `numGames` games with it. Returns the candidate and
      the reference deck as the calls leave them, the games won and the games
      played. */
  method PlayDrafts(d: Deck, ref: Deck, numGames: nat, calls: seq<Call>)
    returns (r: Option<(Deck, Deck, nat, nat)>)
    requires forall t :: 0 <= t < |calls| ==> calls[t].won <= numGames
    ensures r.Some? <==> HandsFound(d.cards, d.forbidden, calls)
    ensures r.Some? ==> r.value.0 == d.(cards := CandidateAfter(d.cards, calls), hands := r.value.0.hands)
    ensures r.Some? && |calls| == 0 ==> r.value.0.hands == d.hands
    ensures r.Some? && |calls| > 0 ==>
              var h := HandForCosts(CandidateAfter(d.cards, calls[..|calls| - 1]), d.forbidden, calls[|calls| - 1].costs);
              h.Some? && r.value.0.hands == [Draft(h.value, 0.0)]
    ensures r.Some? ==> r.value.1 == ref.(cards := ReferenceAfter(ref.cards, calls))
    ensures r.Some? ==> r.value.2 == Total(Won(calls)) && r.value.3 == Times(numGames, |calls|) && r.value.2 <= r.value.3
    ensures r.Some? ==> r.value.3 == numGames * |calls|
  {
    var e := d;
    var theirs := ref;
    var won: nat := 0;
    var count: nat := 0;
    assert calls[..0] == [] && calls[0..] == calls;
    for t := 0 to |calls|
      invariant DraftsState(d, ref, numGames, calls, t, e, theirs, won, count)
    {
      var found := FindHand(e, calls[t].costs);
      if found.None? {
        assert calls[t..][0] == calls[t];
        return None;
      }
      DraftsStep(d, ref, numGames, calls, t, e, theirs, won, count, found.value);
      e := found.value.(cards := calls[t].candidateLeft);
      theirs := theirs.(cards := calls[t].referenceLeft);
      won := won + calls[t].won;
      count := count + numGames;
    }
    assert calls[..|calls|] == calls;
    assert Won(calls)[..|calls|] == Won(calls);
    TimesIsProduct(numGames, |calls|);
    return Some((e, theirs, won, count));
  }

  /** `DeckGames` after a run over `refs`: every reference deck overwrites it
      with its own count, so the last one's stays; none leaves it as it was. */
  function LastDeckGames(refs: seq<Deck>, numGames: nat, before: int): int {
    if |refs| == 0 then before else numGames * |refs[|refs| - 1].hands|
  }

  lemma LastDeckGamesAppend(refs: seq<Deck>, j: nat, numGames: nat, before: int)
    requires j < |refs|
    ensures LastDeckGames(refs[..j + 1], numGames, before) == numGames * |refs[j].hands|
  {
  }

  /** What the outer loop of `TestDeck` has accumulated after the first `j`
      reference decks: the counts, and the card lists and hands. */
  ghost predicate PlayAllState(deck: Deck, refs: seq<Deck>, numGames: nat, calls: seq<seq<Call>>, j: nat,
                               cards: seq<Card>, hands: seq<Draft>, results: seq<nat>, deckGames: int,
                               gamesWon: nat, gamesCount: nat, refsAfter: seq<Deck>)
    requires j <= |refs| && |calls| == |refs|
  {
    PlayAllTotals(deck, refs, numGames, calls, j, results, deckGames, gamesWon, gamesCount) &&
    PlayAllLists(deck, refs, calls, j, cards, hands, refsAfter)
  }

  ghost predicate PlayAllTotals(deck: Deck, refs: seq<Deck>, numGames: nat, calls: seq<seq<Call>>, j: nat,
                                results: seq<nat>, deckGames: int, gamesWon: nat, gamesCount: nat)
    requires j <= |refs| && |calls| == |refs|
  {
    var wins := WonPerDeck(calls);
    results == deck.sim.results + RefTotals(wins[..j]) &&
    gamesWon == Total(RefTotals(wins[..j])) &&
    gamesCount == Times(numGames, DraftCount(refs[..j])) &&
    gamesWon <= gamesCount &&
    deckGames == LastDeckGames(refs[..j], numGames, deck.sim.deckGames)
  }

  ghost predicate PlayAllLists(deck: Deck, refs: seq<Deck>, calls: seq<seq<Call>>, j: nat,
                               cards: seq<Card>, hands: seq<Draft>, refsAfter: seq<Deck>)
    requires j <= |refs| && |calls| == |refs|
  {
    (DraftCount(refs[..j]) > 0 ==> |hands| == 1) &&
    cards == CandidateAfterAll(deck.cards, calls[..j]) &&
    (AllHandsFound(deck.cards, deck.forbidden, calls) <==> AllHandsFound(cards, deck.forbidden, calls[j..])) &&
    |refsAfter| == j &&
    forall k :: 0 <= k < j ==> refsAfter[k] == refs[k].(cards := ReferenceAfter(refs[k].cards, calls[k]))
  }

  /** One reference deck played to the end adds its wins and games. */
  lemma PlayAllTotalsStep(deck: Deck, refs: seq<Deck>, numGames: nat, calls: seq<seq<Call>>, j: nat,
                          results: seq<nat>, deckGames: int, gamesWon: nat, gamesCount: nat, deckWon: nat, deckCount: nat)
    requires j < |refs| && |calls| == |refs|
    requires PlayAllTotals(deck, refs, numGames, calls, j, results, deckGames, gamesWon, gamesCount)
    requires deckWon == Total(Won(calls[j])) && deckCount == Times(numGames, |refs[j].hands|) && deckWon <= deckCount
    ensures PlayAllTotals(deck, refs, numGames, calls, j + 1, results + [deckWon], numGames * |refs[j].hands|,
                          gamesWon + deckWon, gamesCount + deckCount)
  {
    var wins := WonPerDeck(calls);
    LastDeckGamesAppend(refs, j, numGames, deck.sim.deckGames);
    RefTotalsAppend(wins, j);
    DraftCountAppend(refs, j, numGames);
  }

  /** One reference deck played to the end leaves the candidate's list as its
      calls left it, one hand when it has drafts, and its own list as the
      calls left it. */
  lemma PlayAllListsStep(deck: Deck, refs: seq<Deck>, calls: seq<seq<Call>>, j: nat,
                         cards: seq<Card>, hands: seq<Draft>, refsAfter: seq<Deck>, hands': seq<Draft>)
    requires j < |refs| && |calls| == |refs|
    requires PlayAllLists(deck, refs, calls, j, cards, hands, refsAfter)
    requires HandsFound(cards, deck.forbidden, calls[j])
    requires |refs[j].hands| > 0 ==> |hands'| == 1
    requires |refs[j].hands| == 0 ==> hands' == hands
    ensures PlayAllLists(deck, refs, calls, j + 1, CandidateAfter(cards, calls[j]), hands',
                         refsAfter + [refs[j].(cards := ReferenceAfter(refs[j].cards, calls[j]))])
  {
    assert calls[..j + 1][..j] == calls[..j];
    assert calls[j..][0] == calls[j] && calls[j..][1..] == calls[j + 1..];
    DraftCountAppend(refs, j, 0);
  }

  /** One reference deck played to the end keeps the loop's accounting. */
  lemma PlayAllStep(deck: Deck, refs: seq<Deck>, numGames: nat, calls: seq<seq<Call>>, j: nat,
                    cards: seq<Card>, hands: seq<Draft>, results: seq<nat>, deckGames: int,
                    gamesWon: nat, gamesCount: nat, refsAfter: seq<Deck>,
                    hands': seq<Draft>, deckWon: nat, deckCount: nat)
    requires j < |refs| && TestDeckOracle(refs, numGames, calls)
    requires PlayAllState(deck, refs, numGames, calls, j, cards, hands, results, deckGames, gamesWon, gamesCount, refsAfter)
    requires HandsFound(cards, deck.forbidden, calls[j])
    requires |refs[j].hands| > 0 ==> |hands'| == 1
    requires |refs[j].hands| == 0 ==> hands' == hands
    requires deckWon == Total(Won(calls[j])) && deckCount == Times(numGames, |refs[j].hands|) && deckWon <= deckCount
    ensures PlayAllState(deck, refs, numGames, calls, j + 1, CandidateAfter(cards, calls[j]), hands', results + [deckWon],
                         numGames * |refs[j].hands|, gamesWon + deckWon, gamesCount + deckCount,
                         refsAfter + [refs[j].(cards := ReferenceAfter(refs[j].cards, calls[j]))])
  {
    PlayAllTotalsStep(deck, refs, numGames, calls, j, results, deckGames, gamesWon, gamesCount, deckWon, deckCount);
    PlayAllListsStep(deck, refs, calls, j, cards, hands, refsAfter, hands');
  }

  /** A hand search against reference deck `j` never ends. */
  lemma PlayAllStuck(deck: Deck, refs: seq<Deck>, numGames: nat, calls: seq<seq<Call>>, j: nat,
                     cards: seq<Card>, hands: seq<Draft>, results: seq<nat>, deckGames: int,
                     gamesWon: nat, gamesCount: nat, refsAfter: seq<Deck>)
    requires j < |refs| && |calls| == |refs|
    requires PlayAllState(deck, refs, numGames, calls, j, cards, hands, results, deckGames, gamesWon, gamesCount, refsAfter)
    requires !HandsFound(cards, deck.forbidden, calls[j])
    ensures !AllHandsFound(deck.cards, deck.forbidden, calls)
  {
    assert calls[j..][0] == calls[j];
  }

  /** After the last reference deck the accounting is the one `PlayAll`
      promises. */
  lemma PlayAllEnd(deck: Deck, refs: seq<Deck>, numGames: nat, calls: seq<seq<Call>>,
                   cards: seq<Card>, hands: seq<Draft>, results: seq<nat>, deckGames: int,
                   gamesWon: nat, gamesCount: nat, refsAfter: seq<Deck>)
    requires |calls| == |refs|
    requires PlayAllState(deck, refs, numGames, calls, |refs|, cards, hands, results, deckGames, gamesWon, gamesCount, refsAfter)
    ensures AllHandsFound(deck.cards, deck.forbidden, calls)
    ensures cards == CandidateAfterAll(deck.cards, calls)
    ensures results == deck.sim.results + RefTotals(WonPerDeck(calls))
    ensures gamesWon == Total(RefTotals(WonPerDeck(calls))) && gamesCount == Times(numGames, DraftCount(refs)) &&
            gamesWon <= gamesCount
    ensures deckGames == LastDeckGames(refs, numGames, deck.sim.deckGames)
    ensures DraftCount(refs) > 0 ==> |hands| == 1
    ensures |refsAfter| == |refs| &&
            forall j :: 0 <= j < |refs| ==> refsAfter[j] == refs[j].(cards := ReferenceAfter(refs[j].cards, calls[j]))
  {
    assert WonPerDeck(calls)[..|refs|] == WonPerDeck(calls);
    assert refs[..|refs|] == refs;
    assert calls[..|refs|] == calls;
  }

  /** The outer loop of `TestDeck`: returns the candidate with its
      per-reference results appended and its cards as the last call left them,
      the reference decks as the calls left them, the games won and the games
      played. */
  method PlayAll(deck: Deck, refs: seq<Deck>, numGames: nat, calls: seq<seq<Call>>)
    returns (r: Option<(Deck, seq<Deck>, nat, nat)>)
    requires TestDeckOracle(refs, numGames, calls)
    ensures r.Some? <==> AllHandsFound(deck.cards, deck.forbidden, calls)
    ensures r.Some? ==> r.value.0 == deck.(cards := CandidateAfterAll(deck.cards, calls), hands := r.value.0.hands,
                                          sim := r.value.0.sim)
    ensures r.Some? ==> r.value.0.sim == deck.sim.(results := r.value.0.sim.results, deckGames := r.value.0.sim.deckGames)
    ensures r.Some? ==> r.value.0.sim.results == deck.sim.results + RefTotals(WonPerDeck(calls))
    ensures r.Some? ==> r.value.2 == Total(RefTotals(WonPerDeck(calls))) && r.value.3 == Times(numGames, DraftCount(refs)) &&
                        r.value.2 <= r.value.3
    ensures r.Some? ==> r.value.0.sim.deckGames == LastDeckGames(refs, numGames, deck.sim.deckGames)
    ensures r.Some? && DraftCount(refs) > 0 ==> |r.value.0.hands| == 1
    ensures r.Some? ==> |r.value.1| == |refs| &&
                        forall j :: 0 <= j < |refs| ==> r.value.1[j] == refs[j].(cards := ReferenceAfter(refs[j].cards, calls[j]))
  {
    var cards := deck.cards;
    var hands := deck.hands;
    var results := deck.sim.results;
    var deckGames := deck.sim.deckGames;
    var gamesWon: nat := 0;
    var gamesCount: nat := 0;
    var refsAfter: seq<Deck> := [];
    assert calls[..0] == [] && calls[0..] == calls;
    for j := 0 to |refs|
      invariant PlayAllState(deck, refs, numGames, calls, j, cards, hands, results, deckGames, gamesWon, gamesCount, refsAfter)
    {
      var played := PlayDrafts(deck.(cards := cards, hands := hands), refs[j], numGames, calls[j]);
      if played.None? {
        PlayAllStuck(deck, refs, numGames, calls, j, cards, hands, results, deckGames, gamesWon, gamesCount, refsAfter);
        return None;
      }
      var (e, theirs, deckWon, deckCount) := played.value;
      PlayAllStep(deck, refs, numGames, calls, j, cards, hands, results, deckGames, gamesWon, gamesCount, refsAfter,
                  e.hands, deckWon, deckCount);
      cards := e.cards;
      hands := e.hands;
      results := results + [deckWon];
      deckGames := deckCount;
      gamesWon := gamesWon + deckWon;
      gamesCount := gamesCount + deckCount;
      refsAfter := refsAfter + [theirs];
    }
    PlayAllEnd(deck, refs, numGames, calls, cards, hands, results, deckGames, gamesWon, gamesCount, refsAfter);
    return Some((deck.(cards := cards, hands := hands, sim := deck.sim.(results := results, deckGames := deckGames)),
                 refsAfter, gamesWon, gamesCount));
  }

  /** `HillClimbing.TestDeck`: for every reference deck and every one of its
      drafts, find one random hand for the candidate and play `numGames` games;
      record the wins per reference deck, then set the win rate and variance.
      Results from earlier calls stay in front. The simulator reshuffles the
      `deck` lists of both decks in place, so every hand is searched in the
      list the call before it left, and both decks come back with the lists
      the last call left. `None`: a hand search that never ends. */
  method TestDeck(deck: Deck, refs: seq<Deck>, numGames: nat, calls: seq<seq<Call>>)
    returns (r: Option<(Deck, seq<Deck>)>)
    requires TestDeckOracle(refs, numGames, calls)
    ensures r.Some? <==> AllHandsFound(deck.cards, deck.forbidden, calls)
    ensures r.Some? ==> r.value.0.cards == CandidateAfterAll(deck.cards, calls) && r.value.0.forbidden == deck.forbidden &&
                        r.value.0.positions == deck.positions && r.value.0.heroClass == deck.heroClass
    ensures r.Some? ==> r.value.0.sim.results == deck.sim.results + RefTotals(WonPerDeck(calls))
    ensures r.Some? ==> var won := Total(RefTotals(WonPerDeck(calls)));
                        var count := numGames * DraftCount(refs);
                        won <= count && r.value.0.winrate == WinRate(won, count) &&
                        r.value.0.sim.winrate == r.value.0.winrate &&
                        (WinRateAsWritten(won, count).Some? ==> WinRateAsWritten(won, count) == Some(r.value.0.winrate))
    ensures r.Some? ==> r.value.0.variance == Statistics.Variance(r.value.0.sim.results)
    ensures r.Some? && |refs| > 0 ==> r.value.0.sim.deckGames == numGames * |refs[|refs| - 1].hands|
    ensures r.Some? && DraftCount(refs) > 0 ==> |r.value.0.hands| == 1
    ensures r.Some? ==> |r.value.1| == |refs| &&
                        forall j :: 0 <= j < |refs| ==> r.value.1[j] == refs[j].(cards := ReferenceAfter(refs[j].cards, calls[j]))
  {
    var played := PlayAll(deck, refs, numGames, calls);
    if played.None? {
      return None;
    }
    var (d, refsAfter, gamesWon, gamesCount) := played.value;
    TimesIsProduct(numGames, DraftCount(refs));
    var rate := WinRate(gamesWon, gamesCount);
    d := d.(winrate := rate, sim := d.sim.(winrate := rate));
    d := d.(variance := Statistics.Variance(d.sim.results));
    r := Some((d, refsAfter));
  }

  lemma {:induction false} DraftCountZero(refs: seq<Deck>)
    ensures DraftCount(refs) == 0 <==> forall j :: 0 <= j < |refs| ==> |refs[j].hands| == 0
  {
    if |refs| > 0 {
      var init := refs[..|refs| - 1];
      DraftCountZero(init);
      assert forall j :: 0 <= j < |init| ==> init[j] == refs[j];
    }
  }

  /** The division as written is undefined exactly when no game is asked
      for or no reference deck has a draft, whatever the wins. */
  lemma RateUndefinedWhen(won: nat, refs: seq<Deck>, numGames: nat)
    ensures WinRateAsWritten(won, numGames * DraftCount(refs)).None? <==>
            numGames == 0 || forall j :: 0 <= j < |refs| ==> |refs[j].hands| == 0
  {
    DraftCountZero(refs);
    var drafts := DraftCount(refs);
    if numGames == 0 || drafts == 0 {
      assert numGames * drafts == 0;
    } else {
      assert numGames * drafts == (numGames - 1) * drafts + drafts;
    }
  }

  /** As written, the win rate `TestDeck` sets is not a number exactly when no
      game is asked for or no reference deck has a draft; a NaN win rate makes
      `CompareTo` rank the candidate below every other. */
  lemma TestDeckRateUndefined(refs: seq<Deck>, numGames: nat, calls: seq<seq<Call>>)
    requires TestDeckOracle(refs, numGames, calls)
    ensures WinRateAsWritten(Total(RefTotals(WonPerDeck(calls))), numGames * DraftCount(refs)).None? <==>
            numGames == 0 || forall j :: 0 <= j < |refs| ==> |refs[j].hands| == 0
  {
    RateUndefinedWhen(Total(RefTotals(WonPerDeck(calls))), refs, numGames);
  }

  // ---------------------------------------------------------------------------
  // TestDeckNoHands

  /** One game of `TestDeckNoHands`, as oracles: the random hand costs of the
      candidate and of the reference deck, the outcome of the single-game
      simulation (`None`: it threw), and the card lists the game leaves in the
      two decks. In the source no game throws: `SimulateGames` catches a failed
      attempt inside its own loop and retries (SimulateGames.cs:118-213), and
      `myHands[0]` exists once `FindHands` has run; `None` models the handler of
      `TestDeckNoHands` all the same. */
  datatype NoHandsGame = NoHandsGame(candidateCosts: seq<int>, refCosts: seq<int>, won: Option<nat>,
                                     candidateLeft: seq<Card>, referenceLeft: seq<Card>)

  predicate NoHandsOracle(refs: seq<Deck>, numGames: nat, games: seq<seq<NoHandsGame>>) {
    |games| == |refs| &&
    (forall j :: 0 <= j < |refs| ==> |games[j]| == numGames) &&
    (forall j, g :: 0 <= j < |games| && 0 <= g < |games[j]| && games[j][g].won.Some? ==> games[j][g].won.value <= 1)
  }

  function Wins(games: seq<NoHandsGame>): (r: seq<nat>)
    ensures |r| == |games|
  {
    seq(|games|, g requires 0 <= g < |games| => if games[g].won.Some? then games[g].won.value else 0)
  }

  /** The games won against each reference deck. */
  function WinsPerDeck(games: seq<seq<NoHandsGame>>): (r: seq<nat>)
    ensures |r| == |games|
    ensures forall j :: 0 <= j < |games| ==> r[j] == Total(Wins(games[j]))
  {
    seq(|games|, j requires 0 <= j < |games| => Total(Wins(games[j])))
  }

  /** No game of `games` throws. */
  predicate NoThrowIn(games: seq<NoHandsGame>) {
    forall g :: 0 <= g < |games| ==> games[g].won.Some?
  }

  predicate NoThrow(games: seq<seq<NoHandsGame>>) {
    forall j :: 0 <= j < |games| ==> NoThrowIn(games[j])
  }

  /** The candidate's card list after `games`. */
  function GamesCandidateAfter(cards: seq<Card>, games: seq<NoHandsGame>): seq<Card> {
    if |games| == 0 then cards else games[|games| - 1].candidateLeft
  }

  /** The reference deck's card list after `games`. */
  function GamesReferenceAfter(cards: seq<Card>, games: seq<NoHandsGame>): seq<Card> {
    if |games| == 0 then cards else games[|games| - 1].referenceLeft
  }

  /** The candidate's card list after the games against every reference deck
      in turn. */
  function NoHandsCandidateAfter(cards: seq<Card>, games: seq<seq<NoHandsGame>>): seq<Card> {
    if |games| == 0 then cards
    else GamesCandidateAfter(NoHandsCandidateAfter(cards, games[..|games| - 1]), games[|games| - 1])
  }

  /** Every game finds both hands, each in the list the game before it left,
      up to the first game that throws. */
  predicate SinglesFinish(mine: seq<Card>, myForbidden: seq<Card>, theirs: seq<Card>, theirForbidden: seq<Card>,
                          games: seq<NoHandsGame>)
    decreases |games|
  {
    |games| == 0 ||
    (HandForCosts(mine, myForbidden, games[0].candidateCosts).Some? &&
     HandForCosts(theirs, theirForbidden, games[0].refCosts).Some? &&
     (games[0].won.None? ||
      SinglesFinish(games[0].candidateLeft, myForbidden, games[0].referenceLeft, theirForbidden, games[1..])))
  }

  /** The games against every reference deck in turn finish, up to the first
      game that throws. */
  predicate NoHandsFinish(mine: seq<Card>, myForbidden: seq<Card>, refs: seq<Deck>, games: seq<seq<NoHandsGame>>)
    decreases |refs|
  {
    |refs| == 0 || |games| == 0 ||
    (SinglesFinish(mine, myForbidden, refs[0].cards, refs[0].forbidden, games[0]) &&
     (!NoThrowIn(games[0]) ||
      NoHandsFinish(GamesCandidateAfter(mine, games[0]), myForbidden, refs[1..], games[1..])))
  }

  /** How the games against one reference deck ended: a hand search that never
      ends, a simulation that threw, or all games played with this many won;
      with the candidate and the reference deck as the games left them.
      `Threw` models a branch the source never reaches (see `NoHandsGame`). */
  datatype Outcome = Stuck | Threw(deck: Deck, ref: Deck) | Played(deck: Deck, ref: Deck, won: nat)

  /** What `PlaySingles` knows after the first `g` games. */
  ghost predicate PlaySinglesState(d: Deck, ref: Deck, games: seq<NoHandsGame>, g: nat, e: Deck, theirs: Deck, deckWon: nat)
    requires g <= |games|
  {
    e == d.(cards := GamesCandidateAfter(d.cards, games[..g]), hands := e.hands) &&
    theirs == ref.(cards := GamesReferenceAfter(ref.cards, games[..g]), hands := theirs.hands) &&
    (g > 0 ==> |theirs.hands| == 1) &&
    (SinglesFinish(d.cards, d.forbidden, ref.cards, ref.forbidden, games) <==>
     SinglesFinish(e.cards, d.forbidden, theirs.cards, ref.forbidden, games[g..])) &&
    deckWon == Total(Wins(games)[..g]) &&
    deckWon <= g &&
    forall g' :: 0 <= g' < g ==> games[g'].won.Some?
  }

  lemma PlaySinglesStep(d: Deck, ref: Deck, games: seq<NoHandsGame>, g: nat, e: Deck, theirs: Deck, deckWon: nat,
                        mine: Deck, ours: Deck)
    requires g < |games| && PlaySinglesState(d, ref, games, g, e, theirs, deckWon)
    requires games[g].won.Some? && games[g].won.value <= 1
    requires HandForCosts(e.cards, d.forbidden, games[g].candidateCosts).Some?
    requires HandForCosts(theirs.cards, ref.forbidden, games[g].refCosts).Some?
    requires mine == e.(hands := mine.hands) && ours == theirs.(hands := ours.hands) && |ours.hands| == 1
    ensures PlaySinglesState(d, ref, games, g + 1, mine.(cards := games[g].candidateLeft),
                             ours.(cards := games[g].referenceLeft), deckWon + games[g].won.value)
  {
    assert games[..g + 1][..g] == games[..g];
    assert games[g..][1..] == games[g + 1..];
    assert Wins(games)[..g + 1] == Wins(games)[..g] + [games[g].won.value];
    TotalAppend(Wins(games)[..g], games[g].won.value);
  }

  /** The inner loop of `TestDeckNoHands`: `numGames` single games against one
      reference deck, each with fresh hands for both sides, found in the lists
      the game before left. The reference deck's own hands are replaced. */
  method PlaySingles(d: Deck, ref: Deck, numGames: nat, games: seq<NoHandsGame>) returns (r: Outcome)
    requires |games| == numGames
    requires forall g :: 0 <= g < numGames && games[g].won.Some? ==> games[g].won.value <= 1
    ensures r.Stuck? <==> !SinglesFinish(d.cards, d.forbidden, ref.cards, ref.forbidden, games)
    ensures !r.Stuck? ==> r.deck == d.(cards := r.deck.cards, hands := r.deck.hands) &&
                          r.ref == ref.(cards := r.ref.cards, hands := r.ref.hands)
    ensures r.Threw? ==> exists g :: 0 <= g < numGames && games[g].won.None? &&
                          r.deck.cards == games[g].candidateLeft && r.ref.cards == games[g].referenceLeft
    ensures r.Played? ==> NoThrowIn(games) && r.won == Total(Wins(games)) && r.won <= numGames &&
                          r.deck.cards == GamesCandidateAfter(d.cards, games) &&
                          r.ref.cards == GamesReferenceAfter(ref.cards, games) &&
                          (numGames > 0 ==> |r.ref.hands| == 1)
  {
    var e := d;
    var theirs := ref;
    var deckWon: nat := 0;
    assert games[..0] == [] && games[0..] == games;
    for g := 0 to numGames
      invariant PlaySinglesState(d, ref, games, g, e, theirs, deckWon)
    {
      var mine := FindHand(e, games[g].candidateCosts);
      var ours := FindHand(theirs, games[g].refCosts);
      assert games[g..][0] == games[g];
      if mine.None? || ours.None? {
        return Stuck;
      }
      if games[g].won.None? {
        return Threw(mine.value.(cards := games[g].candidateLeft), ours.value.(cards := games[g].referenceLeft));
      }
      PlaySinglesStep(d, ref, games, g, e, theirs, deckWon, mine.value, ours.value);
      e := mine.value.(cards := games[g].candidateLeft);
      theirs := ours.value.(cards := games[g].referenceLeft);
      deckWon := deckWon + games[g].won.value;
    }
    assert games[..numGames] == games;
    assert Wins(games)[..numGames] == Wins(games);
    return Played(e, theirs, deckWon);
  }

  /** What the outer loop of `TestDeckNoHands` knows after `j` reference
      decks played without a throw. */
  ghost predicate NoHandsState(deck: Deck, refs: seq<Deck>, numGames: nat, games: seq<seq<NoHandsGame>>, j: nat,
                               d: Deck, refsAfter: seq<Deck>, done: seq<nat>)
    requires j <= |refs| && |games| == |refs|
  {
    NoHandsCounts(deck, numGames, games, j, d.sim, done) &&
    NoHandsLists(deck, refs, numGames, games, j, d, refsAfter)
  }

  /** The counts part of `NoHandsState`: one result per deck played, none of
      whose games threw. */
  ghost predicate NoHandsCounts(deck: Deck, numGames: nat, games: seq<seq<NoHandsGame>>, j: nat,
                                sim: SimResult, done: seq<nat>)
    requires j <= |games|
  {
    |done| == j &&
    (forall k :: 0 <= k < j ==> done[k] == Total(Wins(games[k]))) &&
    NoHandsTally(deck, numGames, j, sim, done) &&
    (forall k :: 0 <= k < j ==> NoThrowIn(games[k]))
  }

  /** The lists part of `NoHandsState`: the candidate's list and the
      reference decks as the games played left them. */
  ghost predicate NoHandsLists(deck: Deck, refs: seq<Deck>, numGames: nat, games: seq<seq<NoHandsGame>>, j: nat,
                               d: Deck, refsAfter: seq<Deck>)
    requires j <= |refs| && |games| == |refs|
  {
    d == deck.(cards := d.cards, hands := d.hands, sim := d.sim) &&
    d.cards == NoHandsCandidateAfter(deck.cards, games[..j]) &&
    (NoHandsFinish(deck.cards, deck.forbidden, refs, games) <==>
     NoHandsFinish(d.cards, deck.forbidden, refs[j..], games[j..])) &&
    |refsAfter| == |refs| &&
    (forall k :: 0 <= k < |refs| ==> refsAfter[k] == refs[k].(cards := refsAfter[k].cards, hands := refsAfter[k].hands)) &&
    (forall k :: 0 <= k < j ==> refsAfter[k].cards == GamesReferenceAfter(refs[k].cards, games[k]) &&
                                (numGames > 0 ==> |refsAfter[k].hands| == 1))
  }

  /** The counts of the outer loop of `TestDeckNoHands` after `j` reference
      decks: one result per deck, at most `numGames` each, and the last
      deck's game count. */
  ghost predicate NoHandsTally(deck: Deck, numGames: nat, j: nat, sim: SimResult, done: seq<nat>)
  {
    sim.results == deck.sim.results + done &&
    sim.deckGames == (if j == 0 then deck.sim.deckGames else numGames) &&
    Total(done) <= Times(numGames, j)
  }

  lemma NoHandsTallyStep(deck: Deck, numGames: nat, j: nat, sim: SimResult, done: seq<nat>, deckWon: nat)
    requires NoHandsTally(deck, numGames, j, sim, done) && deckWon <= numGames
    ensures NoHandsTally(deck, numGames, j + 1, sim.(results := sim.results + [deckWon], deckGames := numGames),
                         done + [deckWon])
  {
    TotalAppend(done, deckWon);
  }

  /** The games against reference deck `j` add their wins as one result. */
  lemma NoHandsCountsStep(deck: Deck, numGames: nat, games: seq<seq<NoHandsGame>>, j: nat,
                          sim: SimResult, done: seq<nat>, deckWon: nat)
    requires j < |games|
    requires NoHandsCounts(deck, numGames, games, j, sim, done)
    requires NoThrowIn(games[j])
    requires deckWon == Total(Wins(games[j])) && deckWon <= numGames
    ensures NoHandsCounts(deck, numGames, games, j + 1,
                          sim.(results := sim.results + [deckWon], deckGames := numGames), done + [deckWon])
  {
    NoHandsTallyStep(deck, numGames, j, sim, done, deckWon);
  }

  /** The games against reference deck `j` leave the lists they leave. */
  lemma NoHandsListsStep(deck: Deck, refs: seq<Deck>, numGames: nat, games: seq<seq<NoHandsGame>>, j: nat,
                         d: Deck, refsAfter: seq<Deck>, e: Deck, theirs: Deck)
    requires j < |refs| && |games| == |refs|
    requires NoHandsLists(deck, refs, numGames, games, j, d, refsAfter)
    requires SinglesFinish(d.cards, d.forbidden, refs[j].cards, refs[j].forbidden, games[j]) && NoThrowIn(games[j])
    requires e == d.(cards := GamesCandidateAfter(d.cards, games[j]), hands := e.hands)
    requires theirs == refs[j].(cards := GamesReferenceAfter(refs[j].cards, games[j]), hands := theirs.hands)
    requires numGames > 0 ==> |theirs.hands| == 1
    ensures forall sim :: NoHandsLists(deck, refs, numGames, games, j + 1, e.(sim := sim), refsAfter[j := theirs])
  {
    assert games[..j + 1][..j] == games[..j];
    assert games[j..][0] == games[j] && games[j..][1..] == games[j + 1..];
    assert refs[j..][0] == refs[j] && refs[j..][1..] == refs[j + 1..];
  }

  lemma NoHandsStep(deck: Deck, refs: seq<Deck>, numGames: nat, games: seq<seq<NoHandsGame>>, j: nat,
                    d: Deck, refsAfter: seq<Deck>, done: seq<nat>,
                    e: Deck, theirs: Deck, deckWon: nat)
    requires j < |refs| && NoHandsOracle(refs, numGames, games)
    requires NoHandsState(deck, refs, numGames, games, j, d, refsAfter, done)
    requires SinglesFinish(d.cards, d.forbidden, refs[j].cards, refs[j].forbidden, games[j]) && NoThrowIn(games[j])
    requires e == d.(cards := GamesCandidateAfter(d.cards, games[j]), hands := e.hands)
    requires theirs == refs[j].(cards := GamesReferenceAfter(refs[j].cards, games[j]), hands := theirs.hands)
    requires numGames > 0 ==> |theirs.hands| == 1
    requires deckWon == Total(Wins(games[j])) && deckWon <= numGames
    ensures NoHandsState(deck, refs, numGames, games, j + 1,
                         e.(sim := e.sim.(results := e.sim.results + [deckWon], deckGames := numGames)),
                         refsAfter[j := theirs], done + [deckWon])
  {
    NoHandsCountsStep(deck, numGames, games, j, d.sim, done, deckWon);
    NoHandsListsStep(deck, refs, numGames, games, j, d, refsAfter, e, theirs);
  }

  lemma NoHandsInit(deck: Deck, refs: seq<Deck>, numGames: nat, games: seq<seq<NoHandsGame>>)
    requires NoHandsOracle(refs, numGames, games)
    ensures NoHandsState(deck, refs, numGames, games, 0, deck, refs, [])
  {
    assert games[..0] == [] && games[0..] == games && refs[0..] == refs;
  }

  /** A hand search against reference deck `j` never ends. */
  lemma NoHandsStuck(deck: Deck, refs: seq<Deck>, numGames: nat, games: seq<seq<NoHandsGame>>, j: nat,
                     d: Deck, refsAfter: seq<Deck>, done: seq<nat>)
    requires j < |refs| && NoHandsOracle(refs, numGames, games)
    requires NoHandsState(deck, refs, numGames, games, j, d, refsAfter, done)
    requires !SinglesFinish(d.cards, d.forbidden, refs[j].cards, refs[j].forbidden, games[j])
    ensures !NoHandsFinish(deck.cards, deck.forbidden, refs, games)
  {
    assert games[j..][0] == games[j] && refs[j..][0] == refs[j];
  }

  /** A game against reference deck `j` threw: the calls so far still finish,
      and the candidate holds the results of the decks played before it. */
  lemma NoHandsThrew(deck: Deck, refs: seq<Deck>, numGames: nat, games: seq<seq<NoHandsGame>>, j: nat,
                     d: Deck, refsAfter: seq<Deck>, done: seq<nat>, e: Deck, theirs: Deck)
    requires j < |refs| && NoHandsOracle(refs, numGames, games)
    requires NoHandsState(deck, refs, numGames, games, j, d, refsAfter, done)
    requires SinglesFinish(d.cards, d.forbidden, refs[j].cards, refs[j].forbidden, games[j])
    requires exists g :: 0 <= g < numGames && games[j][g].won.None?
    requires e == d.(cards := e.cards, hands := e.hands)
    requires theirs == refs[j].(cards := theirs.cards, hands := theirs.hands)
    ensures !NoThrow(games) && NoHandsFinish(deck.cards, deck.forbidden, refs, games)
    ensures e == deck.(cards := e.cards, hands := e.hands, sim := e.sim)
    ensures var out := refsAfter[j := theirs];
            |out| == |refs| &&
            forall k :: 0 <= k < |refs| ==> out[k] == refs[k].(cards := out[k].cards, hands := out[k].hands)
    ensures e.sim.deckGames == (if |e.sim.results| > |deck.sim.results| then numGames else deck.sim.deckGames)
    ensures |deck.sim.results| <= |e.sim.results| < |deck.sim.results| + |refs|
    ensures e.sim.results[..|deck.sim.results|] == deck.sim.results
  {
    assert games[j..][0] == games[j] && refs[j..][0] == refs[j];
    assert !NoThrowIn(games[j]);
  }

  /** Once every reference deck is played, no game threw and the counts are
      the totals over all of them. */
  lemma NoHandsEnd(deck: Deck, refs: seq<Deck>, numGames: nat, games: seq<seq<NoHandsGame>>,
                   d: Deck, refsAfter: seq<Deck>, done: seq<nat>)
    requires NoHandsOracle(refs, numGames, games)
    requires NoHandsState(deck, refs, numGames, games, |refs|, d, refsAfter, done)
    ensures NoThrow(games) && NoHandsFinish(deck.cards, deck.forbidden, refs, games)
    ensures d == deck.(cards := d.cards, hands := d.hands, sim := d.sim)
    ensures d.cards == NoHandsCandidateAfter(deck.cards, games)
    ensures |refsAfter| == |refs| &&
            forall k :: 0 <= k < |refs| ==> refsAfter[k] == refs[k].(cards := refsAfter[k].cards, hands := refsAfter[k].hands) &&
                                            refsAfter[k].cards == GamesReferenceAfter(refs[k].cards, games[k]) &&
                                            (numGames > 0 ==> |refsAfter[k].hands| == 1)
    ensures d.sim.results == deck.sim.results + WinsPerDeck(games)
    ensures d.sim.deckGames == (if |refs| > 0 then numGames else deck.sim.deckGames)
    ensures done == WinsPerDeck(games) && Total(done) <= numGames * |refs|
  {
    assert games[..|refs|] == games;
    var wins := WinsPerDeck(games);
    assert forall k :: 0 <= k < |done| ==> done[k] == wins[k];
    assert done == wins;
    TimesIsProduct(numGames, |refs|);
  }

  /** What `TestDeckNoHands` leaves when no game throws: the candidate holds
      the list the last game left, one result per reference deck (the games
      it won against that deck), the last deck's game count, and the win
      rate over all games; each reference deck holds the list and the hand
      of its last game. */
  ghost predicate NoHandsCompleted(deck: Deck, refs: seq<Deck>, numGames: nat, games: seq<seq<NoHandsGame>>,
                                   c: Deck, refsOut: seq<Deck>)
  {
    c.cards == NoHandsCandidateAfter(deck.cards, games) &&
    |refsOut| == |refs| == |games| &&
    (forall j :: 0 <= j < |refs| ==> refsOut[j].cards == GamesReferenceAfter(refs[j].cards, games[j]) &&
                                     (numGames > 0 ==> |refsOut[j].hands| == 1)) &&
    c.sim.results == deck.sim.results + WinsPerDeck(games) &&
    c.sim.deckGames == (if |refs| > 0 then numGames else deck.sim.deckGames) &&
    c.winrate == c.sim.winrate && 0.0 <= c.winrate <= 100.0 &&
    (if numGames * |refs| == 0 then c.winrate == 0.0
     else Some(c.winrate) == WinRateAsWritten(Total(WinsPerDeck(games)), numGames * |refs|)) &&
    c.variance == Statistics.Variance(c.sim.results)
  }

  /** What the handler of `TestDeckNoHands` leaves after a throw: win rates
      and variance 0, and the results of the reference decks played in full
      before it, the last of which set the game count. */
  ghost predicate NoHandsAbandoned(deck: Deck, refs: seq<Deck>, numGames: nat, c: Deck) {
    c.winrate == 0.0 && c.sim.winrate == 0.0 && c.variance == 0.0 &&
    |deck.sim.results| <= |c.sim.results| < |deck.sim.results| + |refs| &&
    c.sim.results[..|deck.sim.results|] == deck.sim.results &&
    c.sim.deckGames == (if |c.sim.results| > |deck.sim.results| then numGames else deck.sim.deckGames)
  }

  /** How the loops of `TestDeckNoHands` ended: a hand search that never
      ends, a game that threw, or every game played, with the games won and
      played; with the candidate and the reference decks as they left them.
      `RunThrew` models a branch the source never reaches (see `NoHandsGame`). */
  datatype NoHandsRun = RunStuck
                      | RunThrew(deck: Deck, refs: seq<Deck>)
                      | RunPlayed(deck: Deck, refs: seq<Deck>, won: nat, count: nat)

  /** The loops of `TestDeckNoHands`, up to the first game that throws. Each
      reference deck played in full adds the candidate's wins against it to
      the results and sets the game count. */
  method PlayAllSingles(deck: Deck, refs: seq<Deck>, numGames: nat, games: seq<seq<NoHandsGame>>)
    returns (r: NoHandsRun)
    requires NoHandsOracle(refs, numGames, games)
    ensures r.RunStuck? <==> !NoHandsFinish(deck.cards, deck.forbidden, refs, games)
    ensures r.RunThrew? <==> !r.RunStuck? && !NoThrow(games)
    ensures !r.RunStuck? ==> r.deck == deck.(cards := r.deck.cards, hands := r.deck.hands, sim := r.deck.sim) &&
                             |r.refs| == |refs| &&
                             forall j :: 0 <= j < |refs| ==> r.refs[j] == refs[j].(cards := r.refs[j].cards, hands := r.refs[j].hands)
    ensures r.RunThrew? ==>
              |deck.sim.results| <= |r.deck.sim.results| < |deck.sim.results| + |refs| &&
              r.deck.sim.results[..|deck.sim.results|] == deck.sim.results &&
              r.deck.sim.deckGames == (if |r.deck.sim.results| > |deck.sim.results| then numGames else deck.sim.deckGames)
    ensures r.RunPlayed? ==>
              r.deck.cards == NoHandsCandidateAfter(deck.cards, games) &&
              (forall j :: 0 <= j < |refs| ==> r.refs[j].cards == GamesReferenceAfter(refs[j].cards, games[j]) &&
                                               (numGames > 0 ==> |r.refs[j].hands| == 1)) &&
              r.deck.sim.results == deck.sim.results + WinsPerDeck(games) &&
              r.deck.sim.deckGames == (if |refs| > 0 then numGames else deck.sim.deckGames) &&
              r.won == Total(WinsPerDeck(games)) && r.count == numGames * |refs| && r.won <= r.count
  {
    var d := deck;
    var refsAfter := refs;
    var done: seq<nat> := [];
    NoHandsInit(deck, refs, numGames, games);
    for j := 0 to |refs|
      invariant NoHandsState(deck, refs, numGames, games, j, d, refsAfter, done)
    {
      var outcome := PlaySingles(d, refs[j], numGames, games[j]);
      match outcome {
        case Stuck =>
          NoHandsStuck(deck, refs, numGames, games, j, d, refsAfter, done);
          return RunStuck;
        case Threw(e, theirs) =>
          NoHandsThrew(deck, refs, numGames, games, j, d, refsAfter, done, e, theirs);
          return RunThrew(e, refsAfter[j := theirs]);
        case Played(e, theirs, deckWon) =>
          NoHandsStep(deck, refs, numGames, games, j, d, refsAfter, done, e, theirs, deckWon);
          d := e.(sim := e.sim.(results := e.sim.results + [deckWon], deckGames := numGames));
          refsAfter := refsAfter[j := theirs];
          done := done + [deckWon];
      }
    }
    NoHandsEnd(deck, refs, numGames, games, d, refsAfter, done);
    return RunPlayed(d, refsAfter, Total(done), numGames * |refs|);
  }

  /** `HillClimbing.TestDeckNoHands`: `numGames` single games per reference
      deck, each with fresh random hands for both sides, searched in the lists
      the game before left; every reference deck ends with the hand of its last
      game and its list reshuffled. If a game throws, the exception skips the
      rest of the loops and the handler resets the win rates and the variance
      to 0; the per-deck results recorded before it stay. That handler is
      never reached in the source (see `NoHandsGame`).
      `None`: a hand search that never ends. */
  method TestDeckNoHands(deck: Deck, refs: seq<Deck>, numGames: nat, games: seq<seq<NoHandsGame>>)
    returns (r: Option<(Deck, seq<Deck>)>)
    requires NoHandsOracle(refs, numGames, games)
    ensures r.Some? <==> NoHandsFinish(deck.cards, deck.forbidden, refs, games)
    ensures r.Some? ==> r.value.0.forbidden == deck.forbidden && r.value.0.positions == deck.positions &&
                        r.value.0.heroClass == deck.heroClass
    ensures r.Some? ==> |r.value.1| == |refs| &&
                        forall j :: 0 <= j < |refs| ==> r.value.1[j] == refs[j].(cards := r.value.1[j].cards, hands := r.value.1[j].hands)
    ensures r.Some? && NoThrow(games) ==> NoHandsCompleted(deck, refs, numGames, games, r.value.0, r.value.1)
    ensures r.Some? && !NoThrow(games) ==> NoHandsAbandoned(deck, refs, numGames, r.value.0)
  {
    var run := PlayAllSingles(deck, refs, numGames, games);
    match run {
      case RunStuck =>
        r := None;
      case RunThrew(e, refsAfter) =>
        r := Some((e.(winrate := 0.0, sim := e.sim.(winrate := 0.0), variance := 0.0), refsAfter));
      case RunPlayed(e, refsAfter, won, count) =>
        var rate := WinRate(won, count);
        var d := e.(winrate := rate, sim := e.sim.(winrate := rate));
        r := Some((d.(variance := Statistics.Variance(d.sim.results)), refsAfter));
    }
  }
}

=== FILE: fitness.dfy ===
/** Candidates of the search (`MutatingDeck`: a deck plus the mutation that
    produced it), the fitness order they are sorted by, and the hill-climbing
    step that takes the best candidate of a sorted generation. */
module Fitness {
  import opened Common
  import opened Decks

  /** `MutatingDeck`: the deck and the (removed, added) card-name pairs that
      produced it; a null mutation list is the empty sequence. */
  datatype Candidate = Candidate(deck: Deck, mutations: seq<(string, string)>)

  /** `Double.CompareTo` on non-NaN values. */
  function CompareReal(a: real, b: real): (r: int)
    ensures r == 0 <==> a == b
    ensures r < 0 <==> a < b
    ensures -1 <= r <= 1
  {
    if a < b then -1 else if a > b then 1 else 0
  }

  /** `MutatingDeck.CompareTo`: win rate first; on equal win rates the lower
      variance is the greater candidate. */
  function Compare(x: Candidate, y: Candidate): (r: int)
    ensures -1 <= r <= 1
    ensures r < 0 <==> x.deck.winrate < y.deck.winrate ||
                        (x.deck.winrate == y.deck.winrate && x.deck.variance > y.deck.variance)
    ensures r == 0 <==> x.deck.winrate == y.deck.winrate && x.deck.variance == y.deck.variance
  {
    if x.deck.winrate == y.deck.winrate then -CompareReal(x.deck.variance, y.deck.variance)
    else CompareReal(x.deck.winrate, y.deck.winrate)
  }

  /** "Not better than": the order `List.Sort` arranges a generation in. */
  predicate NoBetter(x: Candidate, y: Candidate) {
    Compare(x, y) <= 0
  }

  /** The comparator is a total preorder, so sorting by it is well defined. */
  lemma CompareIsTotalPreorder()
    ensures TotalRel(NoBetter)
    ensures TransitiveRel(NoBetter)
  {
    forall a: Candidate, b: Candidate, c: Candidate | NoBetter(a, b) && NoBetter(b, c)
      ensures NoBetter(a, c)
    {
    }
  }

  /** How two candidates rank, both ways round: a lower win rate ranks lower
      whatever the variances, and at equal win rates the higher variance
      ranks lower. */
  lemma CompareRanks(x: Candidate, y: Candidate)
    ensures x.deck.winrate < y.deck.winrate ==> Compare(x, y) < 0 && Compare(y, x) > 0
    ensures x.deck.winrate == y.deck.winrate && x.deck.variance > y.deck.variance ==>
              Compare(x, y) < 0 && Compare(y, x) > 0
  {
  }

  /** `List<IEvolvable>.Sort()`: a permutation of the generation in ascending
      fitness order. */
  function SortGeneration(gen: seq<Candidate>): (r: seq<Candidate>)
    ensures multiset(r) == multiset(gen)
    ensures |r| == |gen|
    ensures Sorted(r, NoBetter)
  {
    CompareIsTotalPreorder();
    SortBySorted(gen, NoBetter);
    AdjacentSortedIsSorted(SortBy(gen, NoBetter), NoBetter);
    SortBy(gen, NoBetter)
  }

  /** `HillClimbing.HillClimbStep`: the last candidate of the current
      generation, `None` for an empty one (the source indexes out of range).
      On a sorted generation that is a best candidate. */
  function HillClimbStep(gen: seq<Candidate>): (r: Option<Candidate>)
    ensures r.None? <==> |gen| == 0
    ensures r.Some? ==> r.value in gen
    ensures r.Some? && Sorted(gen, NoBetter) ==> forall x :: x in gen ==> Compare(x, r.value) <= 0
  {
    if |gen| == 0 then None else Some(gen[|gen| - 1])
  }

  /** `HillClimbLastGeneration`: sort, then step; the result is a maximum of the
      generation whatever order it came in. */
  function HillClimbLastGeneration(gen: seq<Candidate>): (r: Option<Candidate>)
    ensures r.None? <==> |gen| == 0
    ensures r.Some? ==> r.value in gen && forall x :: x in gen ==> Compare(x, r.value) <= 0
  {
    var sorted := SortGeneration(gen);
    assert forall x :: x in gen <==> x in sorted by {
      assert forall x :: x in gen <==> x in multiset(gen);
      assert forall x :: x in sorted <==> x in multiset(sorted);
    }
    HillClimbStep(sorted)
  }

  /** The three win rates the evolution summary reports: the worst, median and
      best of a sorted generation, in non-decreasing order. */
  function Summary(gen: seq<Candidate>): (r: Option<(real, real, real)>)
    requires Sorted(gen, NoBetter)
    ensures r.None? <==> |gen| == 0
    ensures r.Some? ==> r.value.0 <= r.value.1 <= r.value.2
    ensures r.Some? ==> r.value.0 == gen[0].deck.winrate && r.value.1 == gen[|gen| / 2].deck.winrate &&
                        r.value.2 == gen[|gen| - 1].deck.winrate
    ensures r.Some? ==> forall x :: x in gen ==> r.value.0 <= x.deck.winrate <= r.value.2
  {
    if |gen| == 0 then None
    else
      var n := |gen|;
      assert 0 < n / 2 ==> NoBetter(gen[0], gen[n / 2]);
      assert n / 2 < n - 1 ==> NoBetter(gen[n / 2], gen[n - 1]);
      Some((gen[0].deck.winrate, gen[n / 2].deck.winrate, gen[n - 1].deck.winrate))
  }
}

=== FILE: metrics.dfy ===
/** `GameStateObserver.GetGameState`: the board metrics of a game state,
    computed from a snapshot of the two players. */
module Metrics {
  import opened Common

  datatype Minion = Minion(cost: int, attack: int, frozen: bool)

  /** What the observer reads from one player: hero health and armour, the
      minions on the board, the hand size, the weapon's attack if a weapon is
      equipped, and the mana used and cards drawn this turn. */
  datatype Side = Side(health: int, armor: int, board: seq<Minion>, handSize: int,
                       weaponAttack: Option<int>, usedMana: int, cardsDrawn: int)

  /** The current player and the opponent. */
  datatype Snapshot = Snapshot(current: Side, opponent: Side)

  /** The metric values of a `GameState`; the memory-of-last-task fields stay 0. */
  datatype GameState = GameState(
    manaSpent: int, cardsDrawn: int, boardMana: int, boardSize: int, handSize: int,
    damageSetUp: int, setUpLethal: int,
    taunt: int, divineShield: int, charge: int, manaCost: int, createdOptions: int,
    cardAdvantage: int, healthAdvantage: int, boardManaAdvantage: int,
    boardSizeAdvantage: int, damageSetUpAdvantage: int, tradeAdvantage: int)

  /** The sum of the minions' costs. */
  function CostSum(board: seq<Minion>): int {
    if |board| == 0 then 0 else CostSum(board[..|board| - 1]) + board[|board| - 1].cost
  }

  /** The sum of the attacks of the minions that are not frozen. */
  function AttackSum(board: seq<Minion>): int {
    if |board| == 0 then 0
    else AttackSum(board[..|board| - 1]) + (if board[|board| - 1].frozen then 0 else board[|board| - 1].attack)
  }

  /** Health plus armour. */
  function Toughness(side: Side): int {
    side.health + side.armor
  }

  /** The damage a player has ready for next turn: unfrozen minions plus the
      weapon. */
  function DamageReady(side: Side): int {
    AttackSum(side.board) + (if side.weaponAttack.Some? then side.weaponAttack.value else 0)
  }

  /** The `foreach` over one board: its mana and the attack of its unfrozen
      minions. */
  method ObserveBoard(board: seq<Minion>) returns (mana: int, damage: int)
    ensures mana == CostSum(board) && damage == AttackSum(board)
  {
    mana, damage := 0, 0;
    for i := 0 to |board|
      invariant mana == CostSum(board[..i]) && damage == AttackSum(board[..i])
    {
      assert board[..i + 1][..i] == board[..i];
      mana := mana + board[i].cost;
      if !board[i].frozen {
        damage := damage + board[i].attack;
      }
    }
    assert board[..|board|] == board;
  }

  /** `GetGameState`. */
  function GetGameState(s: Snapshot): (r: GameState)
    ensures r.setUpLethal == 1 <==> DamageReady(s.current) >= Toughness(s.opponent)
    ensures r.setUpLethal == 0 || r.setUpLethal == 1
    ensures r.cardAdvantage == r.boardSize + r.handSize - (|s.opponent.board| + s.opponent.handSize)
    ensures r.boardSizeAdvantage == r.boardSize - |s.opponent.board|
    ensures r.boardManaAdvantage == r.boardMana - CostSum(s.opponent.board)
    ensures r.tradeAdvantage == 0
    ensures r.healthAdvantage == Toughness(s.current) - Toughness(s.opponent)
    ensures r.damageSetUp == DamageReady(s.current)
    ensures r.boardMana == CostSum(s.current.board)
    ensures r.damageSetUpAdvantage == DamageReady(s.current) - DamageReady(s.opponent)
    ensures r.boardSize == |s.current.board| && r.handSize == s.current.handSize
    ensures r.manaSpent == s.current.usedMana && r.cardsDrawn == s.current.cardsDrawn
  {
    var me := s.current;
    var them := s.opponent;
    var damage := DamageReady(me);
    GameState(
      me.usedMana, me.cardsDrawn, CostSum(me.board), |me.board|, me.handSize,
      damage, if damage >= Toughness(them) then 1 else 0,
      0, 0, 0, 0, 0,
      (|me.board| + me.handSize) - (|them.board| + them.handSize),
      Toughness(me) - Toughness(them),
      CostSum(me.board) - CostSum(them.board),
      |me.board| - |them.board|,
      damage - DamageReady(them),
      0)
  }

  /** Seen from the other side, every advantage metric changes sign. */
  lemma AdvantagesAntisymmetric(s: Snapshot)
    ensures var a := GetGameState(s);
            var b := GetGameState(Snapshot(s.opponent, s.current));
            a.healthAdvantage == -b.healthAdvantage &&
            a.cardAdvantage == -b.cardAdvantage &&
            a.boardManaAdvantage == -b.boardManaAdvantage &&
            a.boardSizeAdvantage == -b.boardSizeAdvantage &&
            a.damageSetUpAdvantage == -b.damageSetUpAdvantage
  {
  }

  /** A frozen minion adds its cost to the board mana but nothing to the
      damage set up. */
  lemma FrozenMinionDealsNoDamage(side: Side, m: Minion)
    requires m.frozen
    ensures var side' := side.(board := side.board + [m]);
            DamageReady(side') == DamageReady(side) &&
            CostSum(side'.board) == CostSum(side.board) + m.cost
  {
    assert (side.board + [m])[..|side.board|] == side.board;
  }

  /** The sums split over a concatenation of boards. */
  lemma {:induction false} SumsAppend(a: seq<Minion>, b: seq<Minion>)
    ensures CostSum(a + b) == CostSum(a) + CostSum(b)
    ensures AttackSum(a + b) == AttackSum(a) + AttackSum(b)
    decreases |b|
  {
    if |b| == 0 {
      assert a + b == a;
    } else {
      var b' := b[..|b| - 1];
      assert (a + b)[..|a + b| - 1] == a + b';
      SumsAppend(a, b');
    }
  }
}

=== FILE: mutations.dfy ===
/** The neighbourhood of a candidate (`HillClimbingTester.GetAllMutations`)
    and the random mutation operator (`MutatingDeck.Mutate`). */
module Mutations {
  import opened Common
  import opened Cards
  import opened Decks
  import opened Fitness

  /** Replacements never used: they break the heuristics. */
  const DenyList: seq<string> := ["The Darkness", "Devilsaur Egg"]

  /** The name `lastcard` starts with: a real card assumed never to head a sorted deck. */
  const SentinelName := "Ultrasaur"

  function Abs(x: int): nat {
    if x < 0 then -x else x
  }

  /** Slot `i` of the sorted deck is mutated: its name differs from the card
      before it, or from the sentinel for the first slot. */
  predicate IsSource(cards: seq<Card>, i: nat)
    requires i < |cards|
  {
    cards[i].name != (if i == 0 then SentinelName else cards[i - 1].name)
  }

  /** The three filters a replacement passes before the copy-limit check. */
  predicate Admissible(cards: seq<Card>, source: Card, m: Card, costBound: bool) {
    NameCount(cards, m.name) != 2 &&
    !(costBound && Abs(m.cost - source.cost) > 1) &&
    m.name !in DenyList
  }

  /** Replacing slot `i` of `d` by `m` yields a child. */
  predicate Accepted(d: Deck, i: nat, m: Card, costBound: bool)
    requires i < |d.cards|
  {
    IsSource(d.cards, i) && Admissible(d.cards, d.cards[i], m, costBound) && CardAvailable(DeepCopy(d), m)
  }

  /** A child: a deep copy with slot `i` replaced by `m`, `m` forbidden on the
      opening hand, `m` pinned at its cost, tagged (source name, `m`'s name). */
  function MakeChild(parent: Deck, i: nat, m: Card): (c: Candidate)
    requires i < |parent.cards|
    ensures |c.deck.cards| == |parent.cards|
    ensures c.deck.cards[i] == m
    ensures forall j :: 0 <= j < |parent.cards| && j != i ==> c.deck.cards[j] == parent.cards[j]
    ensures c.deck.forbidden == parent.forbidden + [m]
    ensures (m, m.cost) in c.deck.positions
    ensures c.mutations == [(parent.cards[i].name, m.name)]
    ensures c.deck.heroClass == parent.heroClass && c.deck.winrate == parent.winrate
    ensures c.deck.variance == 0.0 && c.deck.sim == NoSimulation
  {
    var copy := DeepCopy(parent);
    Candidate(copy.(cards := copy.cards[i := m],
                    forbidden := copy.forbidden + [m],
                    positions := SetPosition(copy.positions, m, m.cost)),
              [(parent.cards[i].name, m.name)])
  }

  /** The inner `foreach (Card mutation in class_ok)` for source slot `i`. */
  function ChildrenFor(d: Deck, i: nat, pool: seq<Card>, costBound: bool): seq<Candidate>
    requires i < |d.cards|
  {
    if |pool| == 0 then []
    else
      var m := pool[0];
      (if Admissible(d.cards, d.cards[i], m, costBound) && CardAvailable(DeepCopy(d), m)
       then [MakeChild(d, i, m)] else [])
      + ChildrenFor(d, i, pool[1..], costBound)
  }

  /** The outer loop over the slots `i, i + 1, ...` of the sorted deck. */
  function ChildrenFrom(d: Deck, i: nat, pool: seq<Card>, costBound: bool): seq<Candidate>
    decreases |d.cards| - i
  {
    if i >= |d.cards| then []
    else (if IsSource(d.cards, i) then ChildrenFor(d, i, pool, costBound) else [])
         + ChildrenFrom(d, i + 1, pool, costBound)
  }

  /** `GetAllMutations(parent, costBound)`: the parent with its cards sorted by
      name (the sort happens in place, so the caller sees it), and the children. */
  function GetAllMutations(parent: Candidate, catalog: seq<Card>, costBound: bool): (r: (Candidate, seq<Candidate>))
    ensures r.0 == parent.(deck := parent.deck.(cards := r.0.deck.cards))
    ensures multiset(r.0.deck.cards) == multiset(parent.deck.cards)
    ensures Sorted(r.0.deck.cards, ByName)
  {
    var sorted := parent.deck.(cards := SortByName(parent.deck.cards));
    (parent.(deck := sorted), ChildrenFrom(sorted, 0, ClassOk(catalog, parent.deck.heroClass), costBound))
  }

  lemma {:induction false} ChildrenForMembers(d: Deck, i: nat, pool: seq<Card>, costBound: bool, c: Candidate)
    requires i < |d.cards|
    ensures c in ChildrenFor(d, i, pool, costBound) <==>
            exists m :: m in pool && Admissible(d.cards, d.cards[i], m, costBound) &&
                        CardAvailable(DeepCopy(d), m) && c == MakeChild(d, i, m)
  {
    if |pool| > 0 {
      ChildrenForMembers(d, i, pool[1..], costBound, c);
      assert forall m :: m in pool <==> m == pool[0] || m in pool[1..];
    }
  }

  lemma {:induction false} ChildrenFromMembers(d: Deck, i0: nat, pool: seq<Card>, costBound: bool, c: Candidate)
    ensures c in ChildrenFrom(d, i0, pool, costBound) <==>
            exists i, m :: i0 <= i < |d.cards| && m in pool && Accepted(d, i, m, costBound) && c == MakeChild(d, i, m)
    decreases |d.cards| - i0
  {
    if i0 < |d.cards| {
      ChildrenFromMembers(d, i0 + 1, pool, costBound, c);
      ChildrenForMembers(d, i0, pool, costBound, c);
      if c in ChildrenFrom(d, i0, pool, costBound) && c !in ChildrenFrom(d, i0 + 1, pool, costBound) {
        var m :| m in pool && Admissible(d.cards, d.cards[i0], m, costBound) &&
                 CardAvailable(DeepCopy(d), m) && c == MakeChild(d, i0, m);
        assert Accepted(d, i0, m, costBound);
      }
      if exists i, m :: i0 <= i < |d.cards| && m in pool && Accepted(d, i, m, costBound) && c == MakeChild(d, i, m) {
        var i, m :| i0 <= i < |d.cards| && m in pool && Accepted(d, i, m, costBound) && c == MakeChild(d, i, m);
        if i == i0 {
          assert c in ChildrenFor(d, i0, pool, costBound);
        } else {
          assert c in ChildrenFrom(d, i0 + 1, pool, costBound);
        }
      }
    }
  }

  /** The children are exactly the accepted single-slot replacements of the
      sorted parent by class-legal cards. */
  lemma GetAllMutationsMembers(parent: Candidate, catalog: seq<Card>, costBound: bool, c: Candidate)
    ensures var (sorted, children) := GetAllMutations(parent, catalog, costBound);
            c in children <==>
            exists i, m :: 0 <= i < |sorted.deck.cards| && m in catalog && FitsClass(m, parent.deck.heroClass) &&
                           Accepted(sorted.deck, i, m, costBound) && c == MakeChild(sorted.deck, i, m)
  {
    var (sorted, children) := GetAllMutations(parent, catalog, costBound);
    ChildrenFromMembers(sorted.deck, 0, ClassOk(catalog, parent.deck.heroClass), costBound, c);
  }

  /** What every child is: the sorted parent with one source slot `i` replaced
      by a class-legal card `m` that passed every filter, that respects the copy
      limit in the child, and whose slot is the first of its name. */
  lemma ChildShape(parent: Candidate, catalog: seq<Card>, costBound: bool, c: Candidate) returns (i: nat, m: Card)
    requires c in GetAllMutations(parent, catalog, costBound).1
    ensures var sorted := GetAllMutations(parent, catalog, costBound).0.deck;
            i < |sorted.cards| && c == MakeChild(sorted, i, m) &&
            c.deck.cards == sorted.cards[i := m] &&
            c.mutations == [(sorted.cards[i].name, m.name)] &&
            m in catalog && FitsClass(m, parent.deck.heroClass) &&
            m.name !in DenyList &&
            NameCount(sorted.cards, m.name) != 2 &&
            (costBound ==> Abs(m.cost - sorted.cards[i].cost) <= 1) &&
            NameCount(c.deck.cards, m.name) <= CopyLimit(m) &&
            m in c.deck.forbidden && (m, m.cost) in c.deck.positions &&
            (i == 0 ==> sorted.cards[0].name != SentinelName) &&
            (forall j :: 0 <= j < i ==> sorted.cards[j].name != sorted.cards[i].name)
  {
    var sorted := GetAllMutations(parent, catalog, costBound).0.deck;
    GetAllMutationsMembers(parent, catalog, costBound, c);
    i, m :| 0 <= i < |sorted.cards| && m in catalog && FitsClass(m, parent.deck.heroClass) &&
            Accepted(sorted, i, m, costBound) && c == MakeChild(sorted, i, m);
    AvailableReplacementWithinLimit(sorted, i, m);
    assert c.deck.cards == sorted.cards[i := m];
    if i > 0 {
      NameRunStart(sorted.cards, i);
    }
  }

  /** Two different (slot, replacement) choices give different children: they
      differ in the card written or in the mutation tag. */
  lemma ChildrenDiffer(d: Deck, i: nat, m: Card, j: nat, m': Card)
    requires Sorted(d.cards, ByName)
    requires i < |d.cards| && j < |d.cards|
    requires IsSource(d.cards, i) && IsSource(d.cards, j)
    requires (i, m) != (j, m')
    ensures MakeChild(d, i, m) != MakeChild(d, j, m')
  {
    if i < j {
      NameRunStart(d.cards, j);
      assert MakeChild(d, i, m).mutations[0].0 != MakeChild(d, j, m').mutations[0].0;
    } else if j < i {
      NameRunStart(d.cards, i);
      assert MakeChild(d, i, m).mutations[0].0 != MakeChild(d, j, m').mutations[0].0;
    } else {
      assert MakeChild(d, i, m).deck.cards[i] != MakeChild(d, j, m').deck.cards[i];
    }
  }

  /** A child can equal its parent: a single non-legendary copy of a class-legal
      card replaced by itself passes every filter. */
  lemma ChildMayEqualParent(parent: Candidate, catalog: seq<Card>, costBound: bool, i: nat)
    requires var sorted := GetAllMutations(parent, catalog, costBound).0.deck.cards;
             i < |sorted| && IsSource(sorted, i) &&
             sorted[i] in catalog && FitsClass(sorted[i], parent.deck.heroClass) &&
             !sorted[i].legendary && NameCount(sorted, sorted[i].name) == 1 &&
             sorted[i].name !in DenyList
    ensures var (sorted, children) := GetAllMutations(parent, catalog, costBound);
            MakeChild(sorted.deck, i, sorted.deck.cards[i]) in children &&
            MakeChild(sorted.deck, i, sorted.deck.cards[i]).deck.cards == sorted.deck.cards
  {
    var (sorted, children) := GetAllMutations(parent, catalog, costBound);
    var m := sorted.deck.cards[i];
    assert Accepted(sorted.deck, i, m, costBound);
    GetAllMutationsMembers(parent, catalog, costBound, MakeChild(sorted.deck, i, m));
    assert sorted.deck.cards[i := m] == sorted.deck.cards;
  }

  // ---------------------------------------------------------------------------
  // Mutate

  /** The random choices of one mutation step: the slot (`r.Next(30)`) and the
      index stream of `GetRandomCardOfManaCost`. */
  predicate ValidSteps(steps: seq<(nat, seq<nat>)>, poolSize: nat) {
    forall k :: 0 <= k < |steps| ==>
      steps[k].0 < 30 && forall j :: 0 <= j < |steps[k].1| ==> steps[k].1[j] < poolSize
  }

  /** The mutation loop over the one card list the parent and the clone share.
      The cost looked up is the current card's, so a slot hit twice is replaced
      relative to its first replacement. `None`: a slot past the end of the deck
      (an exception) or a random draw that does not finish. */
  function MutateCards(cards: seq<Card>, n: nat, pool: seq<Card>, steps: seq<(nat, seq<nat>)>): (r: Option<seq<Card>>)
    requires ValidSteps(steps, |pool|)
    ensures r.Some? ==> |r.value| == |cards|
    ensures r.Some? ==> forall j :: 0 <= j < |cards| ==>
              r.value[j] == cards[j] || (r.value[j] in pool && r.value[j].cost >= cards[j].cost)
    ensures r.Some? ==> forall j :: 0 <= j < |cards| && r.value[j] != cards[j] ==>
              exists k :: 0 <= k < n && k < |steps| && steps[k].0 == j
    ensures n == 0 ==> r == Some(cards)
    decreases n
  {
    if n == 0 then Some(cards)
    else if |steps| == 0 then None
    else
      var idx := steps[0].0;
      if idx >= |cards| then None
      else
        match RandomCardOfManaCost(pool, cards[idx].cost, steps[0].1)
        case None => None
        case Some(c) =>
          var r := MutateCards(cards[idx := c], n - 1, pool, steps[1..]);
          if r.Some? then
            forall j | 0 <= j < |cards| && r.value[j] != cards[j]
              ensures exists k :: 0 <= k < n && k < |steps| && steps[k].0 == j
            {
              if j != idx {
                var k :| 0 <= k < n - 1 && k < |steps[1..]| && steps[1..][k].0 == j;
                assert steps[k + 1].0 == j;
              } else {
                assert steps[0].0 == j;
              }
            }
            r
          else r
  }

  /** `MutatingDeck.Mutate(mutations)`: `Deck.Clone` is a memberwise copy, so
      the clone shares every list of the parent (the cards, the simulation
      result, the forbidden-on-hand cards, the positions and the curve) and
      only its hands are a new list; the parent's cards change too. The child keeps the parent's fitness
      fields and gets one opening hand of the cards in slots 0, 5 and 9, and no
      mutation tag. The result is the parent as it is afterwards and the child. */
  function Mutate(parent: Candidate, count: int, catalog: seq<Card>, steps: seq<(nat, seq<nat>)>): (r: Option<(Candidate, Candidate)>)
    requires ValidSteps(steps, |ClassOk(catalog, parent.deck.heroClass)|)
    ensures r.Some? ==> r.value.0.deck.cards == r.value.1.deck.cards
    ensures r.Some? ==> r.value.0 == parent.(deck := parent.deck.(cards := r.value.0.deck.cards))
    ensures r.Some? ==> |r.value.1.deck.cards| == |parent.deck.cards| >= 10
    ensures r.Some? ==> r.value.1.deck.hands == [Draft([r.value.1.deck.cards[0], r.value.1.deck.cards[5], r.value.1.deck.cards[9]], 0.0)]
    ensures r.Some? ==> r.value.1.mutations == [] &&
                        r.value.1.deck == parent.deck.(cards := r.value.1.deck.cards, hands := r.value.1.deck.hands)
    ensures r.Some? ==> forall j :: 0 <= j < |parent.deck.cards| ==>
              r.value.1.deck.cards[j] == parent.deck.cards[j] ||
              (r.value.1.deck.cards[j] in catalog && FitsClass(r.value.1.deck.cards[j], parent.deck.heroClass) &&
               r.value.1.deck.cards[j].cost >= parent.deck.cards[j].cost)
    ensures count <= 0 && |parent.deck.cards| >= 10 ==> r.Some? && r.value.1.deck.cards == parent.deck.cards
  {
    var pool := ClassOk(catalog, parent.deck.heroClass);
    var n := if count < 0 then 0 else count;
    match MutateCards(parent.deck.cards, n, pool, steps)
    case None => None
    case Some(cards) =>
      if |cards| < 10 then None
      else
        var hand := Draft([cards[0], cards[5], cards[9]], 0.0);
        var child := Candidate(parent.deck.(cards := cards, hands := [hand]), []);
        Some((parent.(deck := parent.deck.(cards := cards)), child))
  }

  /** The clone's writes reach the parent: whenever a mutation changes a card,
      the parent no longer holds its original cards. */
  lemma MutateAliasesParent(parent: Candidate, count: int, catalog: seq<Card>, steps: seq<(nat, seq<nat>)>)
    requires ValidSteps(steps, |ClassOk(catalog, parent.deck.heroClass)|)
    requires Mutate(parent, count, catalog, steps).Some?
    requires Mutate(parent, count, catalog, steps).value.1.deck.cards != parent.deck.cards
    ensures Mutate(parent, count, catalog, steps).value.0 != parent
  {
  }
}

=== FILE: reports.dfy ===
/** The generation reports: the `Winrate-<w>-<v>` / card names / dashes
    blocks the game executor appends per tested candidate, `GetLastGeneration`
    (and the evolution parser's `GetGeneration`) that reads them back, the
    hill-climbing step's `Main` that appends the best deck's card names, and
    the evolution parser's per-generation worst/median/best summary.
    Number formatting and `Double.Parse` are culture-dependent and are
    parameters (`show`, `parse`). */
module Reports {
  import opened Common
  import opened Cards
  import opened Decks
  import opened Fitness
  import Statistics
  import Commands
  import DeckFiles

  /** The line that ends a candidate's block: 39 dashes. */
  const Separator := "---------------------------------------"

  type Show = real -> string
  type Parse = string -> Option<real>

  // ---------------------------------------------------------------------------
  // The writer

  /** The header of a candidate: its win rate and the variance of its results. */
  function ReportHeader(d: Deck, show: Show): string {
    "Winrate-" + show(d.winrate) + "-" + show(Statistics.Variance(d.sim.results))
  }

  /** One line per card name, followed by `after`. */
  function NamesThen(cards: seq<Card>, after: seq<string>): (r: seq<string>)
    ensures |r| == |cards| + |after|
  {
    if |cards| == 0 then after else [cards[0].name] + NamesThen(cards[1..], after)
  }

  /** A candidate's block, followed by `after`. */
  function BlockThen(c: Candidate, show: Show, after: seq<string>): seq<string> {
    [ReportHeader(c.deck, show)] + NamesThen(c.deck.cards, [Separator] + after)
  }

  /** The lines the executor appends for the candidates it tested. */
  function Report(gen: seq<Candidate>, show: Show): seq<string> {
    if |gen| == 0 then [] else BlockThen(gen[0], show, Report(gen[1..], show))
  }

  /** The reports of consecutive parts of a generation, one after the other,
      are the report of the whole: appending part files in task order is
      the same as writing the generation at once. */
  lemma {:induction false} ReportConcat(a: seq<Candidate>, b: seq<Candidate>, show: Show)
    ensures Report(a, show) + Report(b, show) == Report(a + b, show)
  {
    if |a| > 0 {
      ReportConcat(a[1..], b, show);
      assert (a + b)[0] == a[0] && (a + b)[1..] == a[1..] + b;
      BlockThenAppend(a[0], show, Report(a[1..], show), Report(b, show));
    } else {
      assert a + b == b;
    }
  }

  lemma BlockThenAppend(c: Candidate, show: Show, x: seq<string>, y: seq<string>)
    ensures BlockThen(c, show, x) + y == BlockThen(c, show, x + y)
  {
    NamesThenAppend(c.deck.cards, [Separator] + x, y);
    assert [Separator] + x + y == [Separator] + (x + y);
  }

  lemma {:induction false} NamesThenAppend(cards: seq<Card>, x: seq<string>, y: seq<string>)
    ensures NamesThen(cards, x) + y == NamesThen(cards, x + y)
  {
    if |cards| > 0 {
      NamesThenAppend(cards[1..], x, y);
    }
  }

  // ---------------------------------------------------------------------------
  // The reader

  /** Every card is the catalogue's card for its name. */
  ghost predicate Resolved(cards: seq<Card>, catalog: seq<Card>) {
    forall c :: c in cards ==> FromName(catalog, c.name) == Some(c)
  }

  lemma CostsAppend(cards: seq<Card>, c: Card)
    ensures Costs(cards + [c]) == Costs(cards) + [c.cost]
  {
    assert forall i :: 0 <= i < |cards| + 1 ==> Costs(cards + [c])[i] == (Costs(cards) + [c.cost])[i];
  }

  /** The cards of a block, the curve and class built while reading them, and
      the lines after the separator. */
  datatype Block = Block(cards: seq<Card>, curve: seq<int>, cls: CardClass, rest: seq<string>)

  /** The inner loop: card names up to the separator line, each appended to
      the deck, its cost to the curve, and its class kept unless neutral. The
      end of the file or a name the catalogue does not know dereferences a
      null card (`None`). */
  function ReadCards(lines: seq<string>, cards: seq<Card>, curve: seq<int>, cls: CardClass,
                     catalog: seq<Card>): (r: Option<Block>)
    requires curve == Costs(cards) && cls == LastClass(cards, Invalid) && Resolved(cards, catalog)
    ensures r.Some? ==> r.value.curve == Costs(r.value.cards) && r.value.cls == LastClass(r.value.cards, Invalid)
    ensures r.Some? ==> Resolved(r.value.cards, catalog) && |r.value.rest| < |lines|
    decreases |lines|
  {
    if |lines| == 0 then None
    else if lines[0] == Separator then Some(Block(cards, curve, cls, lines[1..]))
    else match FromName(catalog, lines[0])
      case None => None
      case Some(c) =>
        CostsAppend(cards, c);
        LastClassAppend(cards, c, Invalid);
        ReadCards(lines[1..], cards + [c], curve + [c.cost], if c.cls != Neutral then c.cls else cls, catalog)
  }

  /** What the reader promises of each candidate: the curve mirrors the card
      costs, the class is that of the last non-neutral card or INVALID, the
      simulation result carries the win rate, the deck has no name and no
      mutation history, and every card came from the catalogue. */
  ghost predicate WellRead(c: Candidate, catalog: seq<Card>) {
    c.deck.curve == Costs(c.deck.cards) && c.deck.heroClass == LastClass(c.deck.cards, Invalid) &&
    c.deck.sim.winrate == c.deck.winrate && c.deck.deckname == "" && c.mutations == [] &&
    Resolved(c.deck.cards, catalog)
  }

  /** The number in a header token, with the '.' to ',' swap of the source. */
  function ParseToken(token: string, parse: Parse): Option<real> {
    parse(ReplaceChar(token, '.', ','))
  }

  /** `GetLastGeneration` (both hill-climbing step programs) and the evolution
      parser's `GetGeneration`: one candidate per header line while lines
      remain. A header with fewer than three '-' tokens or a number that does
      not parse throws (`None`). */
  function GetLastGeneration(lines: seq<string>, catalog: seq<Card>, parse: Parse): (r: Option<seq<Candidate>>)
    ensures r.Some? ==> forall c :: c in r.value ==> WellRead(c, catalog)
    ensures |lines| == 0 ==> r == Some([])
    decreases |lines|
  {
    if |lines| == 0 then Some([])
    else
      var tokens := Split(lines[0], '-');
      if |tokens| < 3 then None
      else match ParseToken(tokens[2], parse)
        case None => None
        case Some(variance) =>
          match ParseToken(tokens[1], parse)
          case None => None
          case Some(winrate) =>
            match ReadCards(lines[1..], [], [], Invalid, catalog)
            case None => None
            case Some(b) =>
              var d := EmptyDeck().(cards := b.cards, curve := b.curve, heroClass := b.cls, winrate := winrate,
                                    variance := variance, sim := NoSimulation.(winrate := winrate));
              match GetLastGeneration(b.rest, catalog, parse)
              case None => None
              case Some(more) => Some([Candidate(d, [])] + more)
  }

  // ---------------------------------------------------------------------------
  // Reading a report back

  /** A number the writer shows is read back as itself, and its text has no '-'. */
  ghost predicate ReadsBack(show: Show, parse: Parse, x: real) {
    '-' !in show(x) && ParseToken(show(x), parse) == Some(x)
  }

  /** What the round trip needs of a candidate: both header numbers read back,
      and its cards are the catalogue's cards for names other than the
      separator. */
  ghost predicate Reportable(c: Candidate, catalog: seq<Card>, show: Show, parse: Parse) {
    ReadsBack(show, parse, c.deck.winrate) && ReadsBack(show, parse, Statistics.Variance(c.deck.sim.results)) &&
    Resolved(c.deck.cards, catalog) && forall x :: x in c.deck.cards ==> x.name != Separator
  }

  /** A parsed generation stands for the written one: same candidates in the
      same order, with the same cards, win rate and variance. */
  ghost predicate ReadAs(read: seq<Candidate>, gen: seq<Candidate>) {
    |read| == |gen| &&
    forall k :: 0 <= k < |gen| ==>
      read[k].deck.cards == gen[k].deck.cards && read[k].deck.winrate == gen[k].deck.winrate &&
      read[k].deck.variance == Statistics.Variance(gen[k].deck.sim.results)
  }

  lemma HeaderTokens(d: Deck, show: Show)
    requires '-' !in show(d.winrate) && '-' !in show(Statistics.Variance(d.sim.results))
    ensures Split(ReportHeader(d, show), '-') ==
            ["Winrate", show(d.winrate), show(Statistics.Variance(d.sim.results))]
  {
    var w := show(d.winrate);
    var v := show(Statistics.Variance(d.sim.results));
    assert ReportHeader(d, show) == "Winrate" + ['-'] + (w + ['-'] + v);
    SplitPrefix("Winrate", w + ['-'] + v, '-');
    SplitPrefix(w, v, '-');
    SplitNoSep(v, '-');
  }

  lemma ConsAppend<T>(acc: seq<T>, s: seq<T>)
    requires |s| > 0
    ensures acc + [s[0]] + s[1..] == acc + s
  {
    assert s == [s[0]] + s[1..];
  }

  /** One known card name, not the separator, is read as that card. */
  lemma ReadCardsStep(lines: seq<string>, c: Card, acc: seq<Card>, catalog: seq<Card>)
    requires |lines| > 0 && lines[0] == c.name && c.name != Separator && FromName(catalog, c.name) == Some(c)
    requires Resolved(acc, catalog)
    ensures Resolved(acc + [c], catalog)
    ensures ReadCards(lines, acc, Costs(acc), LastClass(acc, Invalid), catalog) ==
            ReadCards(lines[1..], acc + [c], Costs(acc + [c]), LastClass(acc + [c], Invalid), catalog)
  {
    CostsAppend(acc, c);
    LastClassAppend(acc, c, Invalid);
  }

  lemma {:induction false} ReadCardsNames(cards: seq<Card>, after: seq<string>, acc: seq<Card>, catalog: seq<Card>)
    requires Resolved(acc, catalog) && Resolved(cards, catalog)
    requires forall x :: x in cards ==> x.name != Separator
    ensures ReadCards(NamesThen(cards, [Separator] + after), acc, Costs(acc), LastClass(acc, Invalid), catalog) ==
            Some(Block(acc + cards, Costs(acc + cards), LastClass(acc + cards, Invalid), after))
    decreases |cards|
  {
    if |cards| == 0 {
      assert acc + cards == acc;
    } else {
      var c := cards[0];
      var lines := NamesThen(cards, [Separator] + after);
      assert c in cards;
      ReadCardsStep(lines, c, acc, catalog);
      assert forall x :: x in cards[1..] ==> x in cards;
      ReadCardsNames(cards[1..], after, acc + [c], catalog);
      ConsAppend(acc, cards);
    }
  }

  /** The first candidate of a report is read from its block. */
  lemma ReadFirstBlock(c: Candidate, show: Show, after: seq<string>, catalog: seq<Card>, parse: Parse)
    requires Reportable(c, catalog, show, parse)
    requires GetLastGeneration(after, catalog, parse).Some?
    ensures var r := GetLastGeneration(BlockThen(c, show, after), catalog, parse);
            r.Some? && |r.value| > 0 && r.value[0].deck.cards == c.deck.cards &&
            r.value[0].deck.winrate == c.deck.winrate &&
            r.value[0].deck.variance == Statistics.Variance(c.deck.sim.results) &&
            r.value[1..] == GetLastGeneration(after, catalog, parse).value
  {
    var lines := BlockThen(c, show, after);
    HeaderTokens(c.deck, show);
    ReadCardsNames(c.deck.cards, after, [], catalog);
    assert [] + c.deck.cards == c.deck.cards;
    assert lines[1..] == NamesThen(c.deck.cards, [Separator] + after);
  }

  lemma ReadAsCons(read: seq<Candidate>, gen: seq<Candidate>)
    requires |read| > 0 && |gen| > 0 && ReadAs(read[1..], gen[1..])
    requires read[0].deck.cards == gen[0].deck.cards && read[0].deck.winrate == gen[0].deck.winrate &&
             read[0].deck.variance == Statistics.Variance(gen[0].deck.sim.results)
    ensures ReadAs(read, gen)
  {
    forall k | 0 < k < |gen|
      ensures read[k].deck.cards == gen[k].deck.cards && read[k].deck.winrate == gen[k].deck.winrate &&
              read[k].deck.variance == Statistics.Variance(gen[k].deck.sim.results)
    {
      assert read[k] == read[1..][k - 1];
      assert gen[k] == gen[1..][k - 1];
    }
  }

  /** Parsing the writer's output gives back every candidate's cards, win rate
      and variance, in order. */
  lemma {:induction false} ReportRoundTrip(gen: seq<Candidate>, catalog: seq<Card>, show: Show, parse: Parse)
    requires forall c :: c in gen ==> Reportable(c, catalog, show, parse)
    ensures var r := GetLastGeneration(Report(gen, show), catalog, parse);
            r.Some? && ReadAs(r.value, gen)
  {
    if |gen| > 0 {
      assert gen[0] in gen;
      assert forall c :: c in gen[1..] ==> c in gen;
      ReportRoundTrip(gen[1..], catalog, show, parse);
      ReadFirstBlock(gen[0], show, Report(gen[1..], show), catalog, parse);
      ReadAsCons(GetLastGeneration(Report(gen, show), catalog, parse).value, gen);
    }
  }

  // ---------------------------------------------------------------------------
  // The hill-climbing step

  /** `c` is a best candidate of the generation. */
  ghost predicate BestIn(c: Candidate, gen: seq<Candidate>) {
    c in gen && forall x :: x in gen ==> Compare(x, c) <= 0
  }

  /** The hill-climbing step's `Main`: read the last generation, sort it, take
      its best candidate and append that deck's card names to `newdeck`. A
      report that does not parse, or an empty one, throws (`None`). */
  function HillClimbMain(out: seq<string>, newdeck: seq<string>, catalog: seq<Card>, parse: Parse): (r: Option<seq<string>>)
    ensures r.Some? <==> GetLastGeneration(out, catalog, parse).Some? && |GetLastGeneration(out, catalog, parse).value| > 0
    ensures r.Some? ==> exists c :: BestIn(c, GetLastGeneration(out, catalog, parse).value) &&
                                    r.value == newdeck + Names(c.deck.cards)
  {
    match GetLastGeneration(out, catalog, parse)
    case None => None
    case Some(gen) =>
      var sorted := SortGeneration(gen);
      assert forall x :: x in gen <==> x in sorted by {
        assert forall x :: x in gen <==> x in multiset(gen);
        assert forall x :: x in sorted <==> x in multiset(sorted);
      }
      match HillClimbLastGeneration(sorted)
      case None => None
      case Some(best) =>
        assert BestIn(best, gen);
        Some(newdeck + Names(best.deck.cards))
  }

  /** The next generation starts from the deck the step wrote: on a fresh
      `newdeck.txt`, `GetBestDeckOfLastGeneration` reads back exactly the
      cards of a best candidate of the last generation. */
  lemma StepFeedsNextGeneration(out: seq<string>, catalog: seq<Card>, parse: Parse, newdeck: seq<string>)
    requires forall c :: c in catalog ==> c.name != ""
    requires HillClimbMain(out, [], catalog, parse) == Some(newdeck)
    ensures exists c :: BestIn(c, GetLastGeneration(out, catalog, parse).value) &&
                        DeckFiles.GetBestDeckOfLastGeneration(newdeck, catalog).cards == c.deck.cards
  {
    var gen := GetLastGeneration(out, catalog, parse).value;
    var c :| BestIn(c, gen) && newdeck == [] + Names(c.deck.cards);
    assert c in gen;
    assert WellRead(c, catalog);
    BestDeckOfCards(c.deck.cards, catalog, newdeck);
  }

  lemma BestDeckOfCards(cards: seq<Card>, catalog: seq<Card>, newdeck: seq<string>)
    requires forall x :: x in catalog ==> x.name != ""
    requires Resolved(cards, catalog) && newdeck == [] + Names(cards)
    ensures DeckFiles.GetBestDeckOfLastGeneration(newdeck, catalog).cards == cards
  {
    forall x | x in cards
      ensures x.name != "" && FromName(catalog, x.name) == Some(x)
    {
      assert FromName(catalog, x.name) == Some(x);
      assert x in catalog;
    }
    assert newdeck == Names(cards);
    DeckFiles.BestDeckRoundTrip(cards, catalog);
  }

  // ---------------------------------------------------------------------------
  // The evolution parser's summary

  /** The worst, median and best win rates of one generation's report, after
      sorting it. A report that does not parse or holds no candidate throws
      (`None`). */
  function GenerationFitness(lines: seq<string>, catalog: seq<Card>, parse: Parse): (r: Option<(real, real, real)>)
    ensures r.Some? <==> GetLastGeneration(lines, catalog, parse).Some? && |GetLastGeneration(lines, catalog, parse).value| > 0
    ensures r.Some? ==> r.value.0 <= r.value.1 <= r.value.2
    ensures r.Some? ==> forall c :: c in GetLastGeneration(lines, catalog, parse).value ==>
                          r.value.0 <= c.deck.winrate <= r.value.2
  {
    match GetLastGeneration(lines, catalog, parse)
    case None => None
    case Some(gen) =>
      var sorted := SortGeneration(gen);
      assert forall x :: x in gen ==> x in sorted by {
        assert forall x :: x in gen ==> x in multiset(gen);
        assert forall x :: x in sorted <==> x in multiset(sorted);
      }
      Summary(sorted)
  }

  /** The summary line of a generation: `f1-f2-f3`. */
  function FitnessLine(f: (real, real, real), show: Show): string {
    show(f.0) + "-" + show(f.1) + "-" + show(f.2)
  }

  /** The summary line splits back into the three win rates. */
  lemma FitnessLineTokens(f: (real, real, real), show: Show)
    requires '-' !in show(f.0) && '-' !in show(f.1) && '-' !in show(f.2)
    ensures Split(FitnessLine(f, show), '-') == [show(f.0), show(f.1), show(f.2)]
  {
    assert FitnessLine(f, show) == show(f.0) + ['-'] + (show(f.1) + ['-'] + show(f.2));
    SplitPrefix(show(f.0), show(f.1) + ['-'] + show(f.2), '-');
    SplitPrefix(show(f.1), show(f.2), '-');
    SplitNoSep(show(f.2), '-');
  }

  /** `String.Replace(s, "")` for a one-character `s`. */
  function RemoveChar(s: string, ch: char): (r: string)
    ensures forall x :: x in r <==> x in s && x != ch
  {
    if |s| == 0 then "" else (if s[0] == ch then "" else [s[0]]) + RemoveChar(s[1..], ch)
  }

  lemma {:induction false} RemoveAbsentChar(s: string, ch: char)
    requires ch !in s
    ensures RemoveChar(s, ch) == s
  {
    if |s| > 0 {
      RemoveAbsentChar(s[1..], ch);
      assert s == [s[0]] + s[1..];
    }
  }

  /** The generation number of a directory: `None` when the name is too short
      for the digit test or the number does not parse (both throw),
      `Some(None)` for a directory skipped because its third character is not
      a digit, else the integer after the first '.' with the backslashes
      removed. */
  function GenerationNumber(dir: string): (r: Option<Option<int>>)
    ensures r == Some(None) <==> |dir| > 2 && !Commands.IsDigit(dir[2])
    ensures |dir| <= 2 ==> r.None?
  {
    if |dir| <= 2 then None
    else if !Commands.IsDigit(dir[2]) then Some(None)
    else
      var tokens := Split(dir, '.');
      if |tokens| < 2 then None
      else match Commands.ParseInt32(RemoveChar(tokens[1], '\\'))
        case None => None
        case Some(n) => Some(Some(n))
  }

  /** The directory `.\<n>` is generation `n`. */
  lemma GenerationNumberOfName(n: nat)
    requires n <= Commands.Int32Max
    ensures GenerationNumber(".\\" + Commands.NatToString(n)) == Some(Some(n))
  {
    var digits := Commands.NatToString(n);
    var dir := ".\\" + digits;
    assert dir[2] == digits[0];
    assert '.' !in digits by {
      assert forall i :: 0 <= i < |digits| ==> Commands.IsDigit(digits[i]);
    }
    assert '\\' !in digits by {
      assert forall i :: 0 <= i < |digits| ==> Commands.IsDigit(digits[i]);
    }
    assert dir == "" + ['.'] + ("\\" + digits);
    SplitPrefix("", "\\" + digits, '.');
    SplitNoSep("\\" + digits, '.');
    RemoveAbsentChar(digits, '\\');
    assert RemoveChar("\\" + digits, '\\') == RemoveChar(digits, '\\') by {
      assert ("\\" + digits)[1..] == digits;
    }
    Commands.ParseNatToString(n);
  }

  /** The (generation number, summary line) of every generation directory in
      the order the directories are listed; `None` when one of them throws. */
  function GenerationLines(dirs: seq<string>, files: string -> seq<string>, catalog: seq<Card>,
                           parse: Parse, show: Show): (r: Option<seq<(int, string)>>)
    ensures r.Some? ==> |r.value| <= |dirs|
    ensures r.Some? ==> forall d :: d in dirs ==>
                          GenerationNumber(d).Some? &&
                          (GenerationNumber(d).value.Some? ==> GenerationFitness(files(d), catalog, parse).Some?)
  {
    if |dirs| == 0 then Some([])
    else
      var more := GenerationLines(dirs[1..], files, catalog, parse, show);
      match GenerationNumber(dirs[0])
      case None => None
      case Some(None) => more
      case Some(Some(num)) =>
        match GenerationFitness(files(dirs[0]), catalog, parse)
        case None => None
        case Some(f) => if more.None? then None else Some([(num, FitnessLine(f, show))] + more.value)
  }

  /** The line of the last entry for generation `num`, if any. */
  function LastEntry(entries: seq<(int, string)>, num: int): (r: Option<string>)
    ensures r.Some? <==> exists i :: 0 <= i < |entries| && entries[i].0 == num
    ensures r.Some? ==> exists i :: 0 <= i < |entries| && entries[i] == (num, r.value) &&
                                    forall j :: i < j < |entries| ==> entries[j].0 != num
  {
    if |entries| == 0 then None
    else
      var later := LastEntry(entries[1..], num);
      if later.Some? then
        assert forall i :: 0 <= i < |entries[1..]| ==> entries[1..][i] == entries[i + 1];
        later
      else if entries[0].0 == num then
        assert forall i :: 0 <= i < |entries[1..]| ==> entries[1..][i] == entries[i + 1];
        Some(entries[0].1)
      else
        assert forall i :: 1 <= i < |entries| ==> entries[i] == entries[1..][i - 1];
        None
  }

  /** The table after `allgen_fitness[num - 1] = res` for every entry in turn:
      `None` when an index falls outside it; otherwise each slot holds the
      line of the last entry for its generation, or what it held before. */
  function FillTable(entries: seq<(int, string)>, table: seq<string>): (r: Option<seq<string>>)
    ensures r.Some? <==> forall e :: e in entries ==> 1 <= e.0 <= |table|
    ensures r.Some? ==> |r.value| == |table|
    ensures r.Some? ==> forall k :: 0 <= k < |table| ==>
                          r.value[k] == match LastEntry(entries, k + 1) case Some(line) => line case None => table[k]
  {
    if |entries| == 0 then Some(table)
    else
      var (num, line) := entries[0];
      assert forall e :: e in entries <==> e == entries[0] || e in entries[1..];
      if !(1 <= num <= |table|) then None
      else FillTable(entries[1..], table[num - 1 := line])
  }

  /** The evolution parser's `Main`: a table of `|dirs| - 2` lines, each the
      summary of the generation with that number or an empty line. Fewer than
      two directories make the array size negative (`None`). */
  function SummarizeGenerations(dirs: seq<string>, files: string -> seq<string>, catalog: seq<Card>,
                                parse: Parse, show: Show): (r: Option<seq<string>>)
    ensures |dirs| < 2 ==> r.None?
    ensures r.Some? ==> |r.value| == |dirs| - 2
    ensures r.Some? ==> GenerationLines(dirs, files, catalog, parse, show).Some? &&
                        forall k :: 0 <= k < |r.value| ==>
                          r.value[k] == match LastEntry(GenerationLines(dirs, files, catalog, parse, show).value, k + 1)
                                        case Some(line) => line case None => ""
  {
    if |dirs| < 2 then None
    else match GenerationLines(dirs, files, catalog, parse, show)
      case None => None
      case Some(entries) => FillTable(entries, seq(|dirs| - 2, _ => ""))
  }
}

=== FILE: simulator.dfy ===
/** `Simulator.SimulateGames`: play a number of games between two decks,
    retrying every game that throws, with the per-game reshuffle, the pinning
    of cards to draw positions, the removal of fixed opening hands and the
    circuit breaker against games that never end a turn. The game engine and
    the two agents are an oracle; so is the random number generator. */
module Simulator {
  import opened Common
  import opened Cards
  import opened Decks
  import opened Combinatorics

  /** A game is aborted once more than this many actions in a row were not
      `EndTurnTask`s. */
  const MaxActionsWithoutEndTurn := 10000

  /** `Shuffle(30)`: the size the decks are cut to before every game. */
  const ShuffledSize := 30

  // ---------------------------------------------------------------------------
  // Circuit breaker

  /** How many actions at the end of `actions` are not an end of turn
      (`true` marks an `EndTurnTask`). */
  function TrailingRun(actions: seq<bool>): nat {
    if |actions| == 0 then 0
    else if actions[|actions| - 1] then 0
    else TrailingRun(actions[..|actions| - 1]) + 1
  }

  /** The run counts exactly the actions since the last end of turn: it is at
      least `n` iff the last `n` actions are all something else. */
  lemma {:induction false} TrailingRunMeaning(actions: seq<bool>, n: nat)
    requires n <= |actions|
    ensures TrailingRun(actions) >= n <==> forall k :: |actions| - n <= k < |actions| ==> !actions[k]
    decreases n
  {
    if n > 0 {
      var last := |actions| - 1;
      var front := actions[..last];
      assert forall k :: 0 <= k < last ==> front[k] == actions[k];
      if !actions[last] {
        TrailingRunMeaning(front, n - 1);
      }
    }
  }

  /** The check before processing action `j`: the action is refused (the game
      throws) when more than `MaxActionsWithoutEndTurn` actions in a row
      precede it without an end of turn. */
  ghost predicate Aborts(actions: seq<bool>) {
    exists j :: 0 <= j < |actions| && TrailingRun(actions[..j]) > MaxActionsWithoutEndTurn
  }

  /** Action `j` comes after 10001 consecutive actions that are not an end
      of turn. */
  ghost predicate QuietBefore(actions: seq<bool>, j: int) {
    MaxActionsWithoutEndTurn < j < |actions| &&
    forall k :: j - MaxActionsWithoutEndTurn - 1 <= k < j ==> !actions[k]
  }

  /** The same condition stated over the actions themselves: some action is
      preceded by 10001 consecutive actions that are not an end of turn. */
  lemma AbortsMeaning(actions: seq<bool>)
    ensures Aborts(actions) <==> exists j :: QuietBefore(actions, j)
  {
    var n := MaxActionsWithoutEndTurn + 1;
    if Aborts(actions) {
      var j :| 0 <= j < |actions| && TrailingRun(actions[..j]) > MaxActionsWithoutEndTurn;
      assert TrailingRun(actions[..j]) <= j by {
        RunAtMostLength(actions[..j]);
      }
      TrailingRunMeaning(actions[..j], n);
      assert forall k :: j - n <= k < j ==> actions[..j][k] == actions[k];
      assert QuietBefore(actions, j);
    }
    if exists j :: QuietBefore(actions, j) {
      var j :| QuietBefore(actions, j);
      assert forall k :: j - n <= k < j ==> actions[..j][k] == actions[k];
      TrailingRunMeaning(actions[..j], n);
    }
  }

  lemma {:induction false} RunAtMostLength(actions: seq<bool>)
    ensures TrailingRun(actions) <= |actions|
  {
    if |actions| > 0 && !actions[|actions| - 1] {
      RunAtMostLength(actions[..|actions| - 1]);
    }
  }

  /** The inner `while (game.State != State.COMPLETE)` loop over the actions
      the agents choose: `aborted` when the circuit breaker throws. An end of
      turn resets the counter, any other action increments it. */
  method PlayActions(actions: seq<bool>) returns (aborted: bool)
    ensures aborted <==> Aborts(actions)
  {
    var counter: nat := 0;
    for j := 0 to |actions|
      invariant counter == TrailingRun(actions[..j])
      invariant forall j' :: 0 <= j' < j ==> TrailingRun(actions[..j']) <= MaxActionsWithoutEndTurn
    {
      if counter > MaxActionsWithoutEndTurn {
        return true;
      }
      assert actions[..j + 1][..j] == actions[..j];
      counter := if actions[j] then 0 else counter + 1;
    }
    return false;
  }

  /** One attempt at a game, as the engine and the agents play it: whether
      each action was an end of turn, and the result (`Some(true)`: player 1
      won; `None`: the engine threw). */
  datatype GameRun = GameRun(actions: seq<bool>, won: Option<bool>)

  /** An attempt that counts: it neither tripped the circuit breaker nor threw. */
  ghost predicate Completes(g: GameRun) {
    !Aborts(g.actions) && g.won.Some?
  }

  // ---------------------------------------------------------------------------
  // Pinning cards to draw positions

  /** `deck.FindIndex(c => c.Name == name)`: -1 when there is none. */
  function FindIndexByName(d: seq<Card>, name: string): (r: int)
    ensures -1 <= r < |d|
    ensures r >= 0 ==> d[r].name == name && forall k :: 0 <= k < r ==> d[k].name != name
    ensures r == -1 ==> forall k :: 0 <= k < |d| ==> d[k].name != name
  {
    if |d| == 0 then -1
    else if d[0].name == name then 0
    else
      var r := FindIndexByName(d[1..], name);
      assert forall k :: 1 <= k < |d| ==> d[k] == d[1..][k - 1];
      if r == -1 then -1 else r + 1
  }

  /** The slot a pinned card goes to: `pos - 1`, or 0 for a position of 0 or below. */
  function RealPos(pos: int): nat {
    if pos > 0 then pos - 1 else 0
  }

  /** One pin exactly as written: read the card at `realpos`, write the pinned
      card there, then write the read card at the index found by name. The
      second flag is false when an index is out of range and the pin throws;
      a missing name throws only after the first write. */
  function PinOneAsWritten(d: seq<Card>, key: Card, pos: int): (r: (seq<Card>, bool))
    ensures |r.0| == |d|
  {
    var realpos := RealPos(pos);
    var index := FindIndexByName(d, key.name);
    if realpos >= |d| then (d, false)
    else
      var written := d[realpos := key];
      if index < 0 then (written, false)
      else (written[index := d[realpos]], true)
  }

  /** The `foreach` over the positions exactly as written; a throwing pin
      stops the loop with the list as far as it got. */
  function PinAllAsWritten(d: seq<Card>, positions: seq<(Card, int)>): (r: (seq<Card>, bool))
    ensures |r.0| == |d|
    decreases |positions|
  {
    if |positions| == 0 then (d, true)
    else
      var step := PinOneAsWritten(d, positions[0].0, positions[0].1);
      if !step.1 then step else PinAllAsWritten(step.0, positions[1..])
  }

  /** As written, pinning a card whose name is no longer in the deck replaces
      the card at its slot: the deck loses a card it held and gains the pinned
      one, and the next game reshuffles that deck. */
  lemma PinAsWrittenReplacesCard(a: Card, b: Card, c: Card)
    requires c.name != a.name && c.name != b.name && a != c
    ensures PinAllAsWritten([a, b], [(c, 1)]) == ([c, b], false)
    ensures multiset(PinAllAsWritten([a, b], [(c, 1)]).0) != multiset([a, b])
  {
    assert FindIndexByName([b], c.name) == -1;
    assert FindIndexByName([a, b], c.name) == -1;
    assert [a, b][0 := c] == [c, b];
    assert multiset([a, b])[c] == 0;
    assert multiset([c, b])[c] >= 1;
  }

  /** One pin as intended: swap the first card with the pinned card's name
      into slot `realpos`, and leave the deck as it is when that name is gone.
      A slot past the end still throws, before anything is written (the flag
      is false). Whenever the name is present, this is the pin as written. */
  function PinOne(d: seq<Card>, key: Card, pos: int): (r: (seq<Card>, bool))
    ensures |r.0| == |d|
    ensures r.1 <==> RealPos(pos) < |d|
    ensures multiset(Names(r.0)) == multiset(Names(d))
    ensures var index := FindIndexByName(d, key.name);
            if index >= 0 && RealPos(pos) < |d| then r.0[RealPos(pos)].name == key.name else r.0 == d
    ensures var index := FindIndexByName(d, key.name);
            index >= 0 && RealPos(pos) < |d| && d[index] == key ==> r.0[RealPos(pos)] == key && multiset(r.0) == multiset(d)
    ensures FindIndexByName(d, key.name) >= 0 ==> r == PinOneAsWritten(d, key, pos)
  {
    var realpos := RealPos(pos);
    var index := FindIndexByName(d, key.name);
    if realpos >= |d| then (d, false)
    else if index < 0 then (d, true)
    else
      SwapNames(d, realpos, index, key);
      (d[realpos := key][index := d[realpos]], true)
  }

  /** Exchanging two entries keeps the multiset. */
  lemma SwapPermutes<T>(s: seq<T>, i: nat, j: nat)
    requires i < |s| && j < |s|
    ensures multiset(s[i := s[j]][j := s[i]]) == multiset(s)
  {
    if i != j {
      var t := s[i := s[j]];
      assert multiset(t) == multiset(s) - multiset{s[i]} + multiset{s[j]};
      assert t[j] == s[j];
    }
  }

  /** Writing `key` at `i` and the old `d[i]` at the index of a card with
      `key`'s name swaps two names. */
  lemma SwapNames(d: seq<Card>, i: nat, j: nat, key: Card)
    requires i < |d| && j < |d| && d[j].name == key.name
    ensures multiset(Names(d[i := key][j := d[i]])) == multiset(Names(d))
    ensures d[j] == key ==> multiset(d[i := key][j := d[i]]) == multiset(d)
  {
    if d[j] == key {
      SwapPermutes(d, i, j);
    }
    var r := d[i := key][j := d[i]];
    var ns := Names(d);
    assert Names(r) == ns[i := ns[j]][j := ns[i]];
    SwapPermutes(ns, i, j);
  }

  /** Every pin in turn; a pin past the end throws and stops the loop with
      the pins before it applied. */
  function PinAll(d: seq<Card>, positions: seq<(Card, int)>): (r: (seq<Card>, bool))
    ensures |r.0| == |d|
    ensures multiset(Names(r.0)) == multiset(Names(d))
    ensures r.1 <==> forall k :: 0 <= k < |positions| ==> RealPos(positions[k].1) < |d|
    decreases |positions|
  {
    if |positions| == 0 then (d, true)
    else
      var step := PinOne(d, positions[0].0, positions[0].1);
      if !step.1 then step
      else
        var rest := PinAll(step.0, positions[1..]);
        assert forall k :: 1 <= k < |positions| ==> positions[1..][k - 1] == positions[k];
        rest
  }

  // ---------------------------------------------------------------------------
  // Deck preparation

  /** `deck.Shuffle(30)`, with the oracle `key` giving card `i` its sort key. */
  function ShuffleDeck(d: seq<Card>, key: nat -> nat): (r: seq<Card>)
    ensures |r| == if |d| < ShuffledSize then |d| else ShuffledSize
    ensures multiset(r) <= multiset(d)
  {
    Shuffle(d, seq(|d|, i requires 0 <= i < |d| => key(i)), ShuffledSize)
  }

  /** How many cards `Shuffle(30)` keeps of a deck of `n`. */
  function CutSize(n: nat): nat {
    if n < ShuffledSize then n else ShuffledSize
  }

  /** The decks as a game leaves them: both shuffled; with pinned positions
      the first deck is reversed, pinned and reversed back. A pin past the end
      throws (the flag is false) and leaves the first deck reversed with the
      pins before it applied. */
  function PrepareDecks(d1: seq<Card>, d2: seq<Card>, positions: seq<(Card, int)>, key1: nat -> nat, key2: nat -> nat)
    : (r: (seq<Card>, seq<Card>, bool))
    ensures |r.0| == CutSize(|d1|) && |r.1| == CutSize(|d2|)
    ensures multiset(Names(r.0)) <= multiset(Names(d1))
    ensures multiset(r.1) <= multiset(d2)
    ensures r.2 <==> forall k :: 0 <= k < |positions| ==> RealPos(positions[k].1) < CutSize(|d1|)
    ensures |positions| == 0 ==> r.0 == ShuffleDeck(d1, key1)
  {
    var s1 := ShuffleDeck(d1, key1);
    var s2 := ShuffleDeck(d2, key2);
    NamesMonotone(s1, d1);
    if |positions| == 0 then (s1, s2, true)
    else
      var pinned := PinAll(Reverse(s1), positions);
      ReversePermutes(s1);
      NamesPermute(Reverse(s1), s1);
      if !pinned.1 then (pinned.0, s2, false)
      else
        ReversePermutes(pinned.0);
        NamesPermute(Reverse(pinned.0), pinned.0);
        (Reverse(pinned.0), s2, true)
  }

  /** Card lists with the same cards have the same names. */
  lemma NamesPermute(a: seq<Card>, b: seq<Card>)
    requires multiset(a) == multiset(b)
    ensures multiset(Names(a)) == multiset(Names(b))
  {
    NamesMonotone(a, b);
    NamesMonotone(b, a);
  }

  /** Taking fewer cards takes fewer names. */
  lemma {:induction false} NamesMonotone(a: seq<Card>, b: seq<Card>)
    requires multiset(a) <= multiset(b)
    ensures multiset(Names(a)) <= multiset(Names(b))
    decreases |a|
  {
    if |a| > 0 {
      var x := a[0];
      assert x in multiset(b);
      var b' := RemoveFirst(b, x);
      NamesCons(x, a[1..]);
      assert a == [x] + a[1..];
      assert multiset(a[1..]) <= multiset(b');
      NamesMonotone(a[1..], b');
      NamesRemoveFirst(b, x);
    }
  }

  lemma NamesCons(x: Card, s: seq<Card>)
    ensures Names([x] + s) == [x.name] + Names(s)
  {
  }

  lemma {:induction false} NamesRemoveFirst(b: seq<Card>, x: Card)
    requires x in b
    ensures multiset(Names(b)) == multiset(Names(RemoveFirst(b, x))) + multiset{x.name}
  {
    var rest := b[1..];
    assert b == [b[0]] + rest;
    NamesCons(b[0], rest);
    var nb := Names(b);
    assert multiset(nb) == multiset{b[0].name} + multiset(Names(rest));
    if b[0] == x {
      assert RemoveFirst(b, x) == rest;
    } else {
      var r' := RemoveFirst(rest, x);
      assert RemoveFirst(b, x) == [b[0]] + r';
      NamesRemoveFirst(rest, x);
      NamesCons(b[0], r');
      assert multiset(Names([b[0]] + r')) == multiset{b[0].name} + multiset(Names(r'));
    }
  }

  /** The decks handed to the game: with fixed opening hands, each deck
      without one occurrence of each of its hand's cards; otherwise the decks
      themselves. */
  function GameDecks(d1: seq<Card>, d2: seq<Card>, hands: Option<(seq<Card>, seq<Card>)>): (r: (seq<Card>, seq<Card>))
    ensures hands.None? ==> r == (d1, d2)
    ensures hands.Some? ==> multiset(r.0) == multiset(d1) - multiset(hands.value.0) &&
                            multiset(r.1) == multiset(d2) - multiset(hands.value.1)
  {
    if hands.None? then (d1, d2) else (RemoveEach(d1, hands.value.0), RemoveEach(d2, hands.value.1))
  }

  // ---------------------------------------------------------------------------
  // The game-count loop

  /** What `SimulateGames` returns, with the two card lists it leaves in the
      decks (the decks are shared objects) and the number of attempts made. */
  datatype Simulation = Simulation(p1Wins: nat, p2Wins: nat, cards1: seq<Card>, cards2: seq<Card>, attempts: nat)

  /** Some pinned position of the deck lies past the end of the shuffled
      deck, so that every attempt throws while pinning. */
  predicate PinPastEnd(deck: Deck) {
    exists k :: 0 <= k < |deck.positions| && RealPos(deck.positions[k].1) >= CutSize(|deck.cards|)
  }

  /** The shuffle keys of player `side`'s deck in attempt `a`. */
  function SideKeys(keys: (nat, nat, nat) -> nat, a: nat, side: nat): nat -> nat {
    i => keys(a, side, i)
  }

  /** Attempt `a` of `SimulateGames` on the lists the attempt before it left:
      the lists it prepares (the decks keep them whether or not the attempt
      counts), whether it counts, and whether player 1 won it. */
  ghost function Attempt(c1: seq<Card>, c2: seq<Card>, deck1: Deck, hands: Option<(seq<Card>, seq<Card>)>,
                         keys: (nat, nat, nat) -> nat, play: (nat, seq<Card>, seq<Card>) -> GameRun, a: nat)
    : (seq<Card>, seq<Card>, bool, bool)
  {
    var prepared := PrepareDecks(c1, c2, deck1.positions, SideKeys(keys, a, 1), SideKeys(keys, a, 2));
    if !prepared.2 then (prepared.0, prepared.1, false, false)
    else
      var game := GameDecks(prepared.0, prepared.1, hands);
      var run := play(a, game.0, game.1);
      (prepared.0, prepared.1, Completes(run), Completes(run) && run.won.value)
  }

  /** The wins of both players and the decks' lists after the first `n`
      attempts, one attempt after another; once `total` attempts have
      counted, the loop has stopped and further attempts change nothing. */
  ghost function Tally(total: int, deck1: Deck, deck2: Deck, hands: Option<(seq<Card>, seq<Card>)>,
                       keys: (nat, nat, nat) -> nat, play: (nat, seq<Card>, seq<Card>) -> GameRun, n: nat): Simulation
  {
    if n == 0 then Simulation(0, 0, deck1.cards, deck2.cards, 0)
    else
      var s := Tally(total, deck1, deck2, hands, keys, play, n - 1);
      if s.p1Wins + s.p2Wins >= total then s
      else
        var t := Attempt(s.cards1, s.cards2, deck1, hands, keys, play, n - 1);
        Simulation(if t.2 && t.3 then s.p1Wins + 1 else s.p1Wins,
                   if t.2 && !t.3 then s.p2Wins + 1 else s.p2Wins,
                   t.0, t.1, n)
  }

  lemma AttemptIs(c1: seq<Card>, c2: seq<Card>, deck1: Deck, hands: Option<(seq<Card>, seq<Card>)>,
                  keys: (nat, nat, nat) -> nat, play: (nat, seq<Card>, seq<Card>) -> GameRun, a: nat,
                  prepared: (seq<Card>, seq<Card>, bool), counted: bool, won: bool)
    requires prepared == PrepareDecks(c1, c2, deck1.positions, SideKeys(keys, a, 1), SideKeys(keys, a, 2))
    requires var game := GameDecks(prepared.0, prepared.1, hands);
             counted == (prepared.2 && Completes(play(a, game.0, game.1))) &&
             won == (counted && play(a, game.0, game.1).won.value)
    ensures Attempt(c1, c2, deck1, hands, keys, play, a) == (prepared.0, prepared.1, counted, won)
  {
  }

  /** One more attempt of the loop, as `Tally` sees it: from the tally `s`
      after `s.attempts` attempts, through the attempt `t` that follows it,
      to the tally `next` one attempt later. */
  lemma TallyStep(total: int, deck1: Deck, deck2: Deck, hands: Option<(seq<Card>, seq<Card>)>,
                  keys: (nat, nat, nat) -> nat, play: (nat, seq<Card>, seq<Card>) -> GameRun, s: Simulation,
                  t: (seq<Card>, seq<Card>, bool, bool), next: Simulation)
    requires Tally(total, deck1, deck2, hands, keys, play, s.attempts) == s && s.p1Wins + s.p2Wins < total
    requires Attempt(s.cards1, s.cards2, deck1, hands, keys, play, s.attempts) == t
    requires next == Simulation(if t.2 && t.3 then s.p1Wins + 1 else s.p1Wins,
                                if t.2 && !t.3 then s.p2Wins + 1 else s.p2Wins,
                                t.0, t.1, s.attempts + 1)
    ensures Tally(total, deck1, deck2, hands, keys, play, next.attempts) == next
  {
  }

  /** One pass of the loop of `SimulateGames`, attempt `a`: shuffle and pin
      the lists `c1` and `c2` the previous attempt left, play the game, and
      tell whether it counts (`counted`) and whether player 1 won it (`won`). */
  method PlayAttempt(c1: seq<Card>, c2: seq<Card>, deck1: Deck, hands: Option<(seq<Card>, seq<Card>)>,
                     keys: (nat, nat, nat) -> nat, play: (nat, seq<Card>, seq<Card>) -> GameRun, a: nat)
    returns (next1: seq<Card>, next2: seq<Card>, counted: bool, won: bool)
    ensures Attempt(c1, c2, deck1, hands, keys, play, a) == (next1, next2, counted, won)
    ensures won ==> counted
    ensures |next1| == CutSize(|c1|) && |next2| == CutSize(|c2|)
    ensures multiset(Names(next1)) <= multiset(Names(c1)) && multiset(next2) <= multiset(c2)
    ensures (exists k :: 0 <= k < |deck1.positions| && RealPos(deck1.positions[k].1) >= CutSize(|c1|)) ==> !counted
    ensures ((forall a, x, y :: Completes(play(a, x, y))) &&
             (forall k :: 0 <= k < |deck1.positions| ==> RealPos(deck1.positions[k].1) < CutSize(|c1|))) ==> counted
  {
    var prepared := PrepareDecks(c1, c2, deck1.positions, SideKeys(keys, a, 1), SideKeys(keys, a, 2));
    counted, won := false, false;
    if prepared.2 {
      var game := GameDecks(prepared.0, prepared.1, hands);
      var run := play(a, game.0, game.1);
      var aborted := PlayActions(run.actions);
      counted := !aborted && run.won.Some?;
      won := counted && run.won.value;
    }
    next1, next2 := prepared.0, prepared.1;
    AttemptIs(c1, c2, deck1, hands, keys, play, a, prepared, counted, won);
  }

  /** `SimulateGames(ai1, ai2, totalGames, deck1, deck2, hand1, hand2)`:
      attempts games until `totalGames` of them completed; an attempt that
      throws (a pin past the end of the deck, the engine, or the circuit
      breaker) counts for nobody and is retried with a fresh shuffle of the
      decks as the previous attempt left them. `keys(a, p, i)` is the shuffle
      key of card `i` of player `p`'s deck in attempt `a`; `play(a, d1, d2)` is
      the game the agents play in attempt `a` with those decks. `None`: more
      than `maxAttempts` attempts would be needed, standing for a loop that
      does not end. */
  method SimulateGames(total: int, deck1: Deck, deck2: Deck, hands: Option<(seq<Card>, seq<Card>)>,
                       keys: (nat, nat, nat) -> nat, play: (nat, seq<Card>, seq<Card>) -> GameRun, maxAttempts: nat)
    returns (r: Option<Simulation>)
    ensures r.Some? ==> r.value.p1Wins + r.value.p2Wins == (if total > 0 then total else 0)
    ensures total <= 0 ==> r == Some(Simulation(0, 0, deck1.cards, deck2.cards, 0))
    ensures r.Some? ==> r.value.p1Wins + r.value.p2Wins <= r.value.attempts <= maxAttempts
    ensures r.Some? && total > 0 ==> |r.value.cards1| == CutSize(|deck1.cards|) && |r.value.cards2| == CutSize(|deck2.cards|)
    ensures r.Some? ==> multiset(Names(r.value.cards1)) <= multiset(Names(deck1.cards)) &&
                        multiset(r.value.cards2) <= multiset(deck2.cards)
    ensures total > 0 && PinPastEnd(deck1) ==> r.None?
    ensures (forall a, x, y :: Completes(play(a, x, y))) && !PinPastEnd(deck1) && total <= maxAttempts ==>
              r.Some? && r.value.attempts == (if total > 0 then total else 0)
    ensures r.Some? ==> r.value == Tally(total, deck1, deck2, hands, keys, play, r.value.attempts)
    ensures r.None? ==> total > 0 && Tally(total, deck1, deck2, hands, keys, play, maxAttempts).p1Wins +
                         Tally(total, deck1, deck2, hands, keys, play, maxAttempts).p2Wins < total
  {
    var s := Simulation(0, 0, deck1.cards, deck2.cards, 0);
    var i: nat := 0;
    ghost var allComplete := (forall a, x, y :: Completes(play(a, x, y))) && !PinPastEnd(deck1);
    while i < total
      invariant s.p1Wins + s.p2Wins == i && i <= s.attempts <= maxAttempts
      invariant i <= (if total > 0 then total else 0) && (total <= 0 ==> s.attempts == 0)
      invariant s.attempts > 0 ==> |s.cards1| == CutSize(|deck1.cards|) && |s.cards2| == CutSize(|deck2.cards|)
      invariant s.attempts == 0 ==> s.cards1 == deck1.cards && s.cards2 == deck2.cards
      invariant multiset(Names(s.cards1)) <= multiset(Names(deck1.cards)) && multiset(s.cards2) <= multiset(deck2.cards)
      invariant allComplete ==> s.attempts == i
      invariant PinPastEnd(deck1) ==> i == 0
      invariant Tally(total, deck1, deck2, hands, keys, play, s.attempts) == s
      decreases maxAttempts - s.attempts
    {
      if s.attempts == maxAttempts {
        return None;
      }
      assert CutSize(|s.cards1|) == CutSize(|deck1.cards|);
      var c1, c2, counted, won := PlayAttempt(s.cards1, s.cards2, deck1, hands, keys, play, s.attempts);
      // A counted attempt is a win for one of the players; the decks keep
      // the lists the attempt prepared either way.
      var next := Simulation(if counted && won then s.p1Wins + 1 else s.p1Wins,
                             if counted && !won then s.p2Wins + 1 else s.p2Wins,
                             c1, c2, s.attempts + 1);
      TallyStep(total, deck1, deck2, hands, keys, play, s, (c1, c2, counted, won), next);
      if counted {
        i := i + 1;
      }
      s := next;
    }
    r := Some(s);
  }

  /** `SimulatorConfiguration`: the arguments of `SimulateGames` in one record
      (the agents are part of the `play` oracle). */
  datatype SimulatorConfiguration = SimulatorConfiguration(
    numGames: int, deck1: Deck, deck2: Deck, hands: Option<(seq<Card>, seq<Card>)>)

  /** `SimulateGames(conf)`: the seven-argument form applied to the fields. */
  method SimulateConfigured(conf: SimulatorConfiguration, keys: (nat, nat, nat) -> nat,
                            play: (nat, seq<Card>, seq<Card>) -> GameRun, maxAttempts: nat)
    returns (r: Option<Simulation>)
    ensures r.Some? ==> r.value.p1Wins + r.value.p2Wins == (if conf.numGames > 0 then conf.numGames else 0)
    ensures conf.numGames <= 0 ==> r == Some(Simulation(0, 0, conf.deck1.cards, conf.deck2.cards, 0))
  {
    r := SimulateGames(conf.numGames, conf.deck1, conf.deck2, conf.hands, keys, play, maxAttempts);
  }
}

=== FILE: statistics.dfy ===
/** The spread of a candidate's per-opponent win counts (`MathsExtension.Variance`).

    The source accumulates `result / numdecks` and `(result * result) / numdecks`
    with integer division before taking the square root of
    `EsquaredX - EX * EX`. The square root is monotone, so the model keeps the
    radicand: it is what the fitness order compares. */
module Statistics {

  function Sum(s: seq<int>): int {
    if |s| == 0 then 0 else s[0] + Sum(s[1..])
  }

  function SumSq(s: seq<int>): int {
    if |s| == 0 then 0 else s[0] * s[0] + SumSq(s[1..])
  }

  lemma {:induction false} SumSqNonNegative(s: seq<int>)
    ensures SumSq(s) >= 0
  {
    if |s| > 0 {
      SumSqNonNegative(s[1..]);
    }
  }

  /** Cauchy-Schwarz against the all-ones vector: (sum x)^2 <= n * (sum x^2). */
  lemma {:induction false} SquareOfSumBound(s: seq<int>)
    ensures Sum(s) * Sum(s) <= |s| * SumSq(s)
  {
    if |s| > 0 {
      var t := s[1..];
      SquareOfSumBound(t);
      SumSqNonNegative(t);
      CauchyStep(|t|, Sum(t), SumSq(t), s[0]);
    }
  }

  /** The induction step: from k Q >= S^2, (k + 1)(Q + x^2) >= (S + x)^2. */
  lemma CauchyStep(k: nat, S: int, Q: int, x: int)
    requires k * Q >= S * S && Q >= 0
    requires k == 0 ==> S == 0
    ensures (S + x) * (S + x) <= (k + 1) * (Q + x * x)
  {
    var y := Q + k * (x * x) - 2 * (S * x);
    assert (k + 1) * (Q + x * x) - (S + x) * (S + x) == (k * Q - S * S) + y by {
      assert (k + 1) * (Q + x * x) == k * Q + Q + k * (x * x) + x * x;
      assert (S + x) * (S + x) == S * S + 2 * (S * x) + x * x;
    }
    if k > 0 {
      var d := S - k * x;
      assert d * d == S * S - 2 * k * (S * x) + k * (k * (x * x)) by {
        assert d * d == S * S - 2 * (S * (k * x)) + (k * x) * (k * x);
      }
      assert k * y == k * Q + k * (k * (x * x)) - 2 * k * (S * x);
      assert k * y >= d * d >= 0;
      PositiveFactor(k, y);
    }
  }

  lemma PositiveFactor(k: int, y: int)
    requires k > 0 && k * y >= 0
    ensures y >= 0
  {
  }

  // ---------------------------------------------------------------------------
  // The variance as written: truncating integer division on every term.

  /** `sum (result / n)` over the results. */
  function TruncatedMean(results: seq<nat>, n: nat): int
    requires n > 0
  {
    if |results| == 0 then 0 else results[0] / n + TruncatedMean(results[1..], n)
  }

  /** `sum ((result * result) / n)` over the results. */
  function TruncatedMeanSq(results: seq<nat>, n: nat): int
    requires n > 0
  {
    if |results| == 0 then 0 else (results[0] * results[0]) / n + TruncatedMeanSq(results[1..], n)
  }

  function Quotients(results: seq<nat>, n: nat): (q: seq<int>)
    requires n > 0
    ensures |q| == |results|
    ensures Sum(q) == TruncatedMean(results, n)
  {
    if |results| == 0 then [] else [results[0] / n] + Quotients(results[1..], n)
  }

  /** floor(r^2 / n) >= n * floor(r / n)^2, since r >= n * floor(r / n) >= 0. */
  lemma SquareQuotientBound(r: nat, n: nat)
    requires n > 0
    ensures (r * r) / n >= n * ((r / n) * (r / n))
  {
    var q := r / n;
    assert r >= n * q >= 0;
    assert r * r >= (n * q) * (n * q) by {
      MulMonotone(r, n * q);
    }
    assert (n * q) * (n * q) == n * (n * q * q);
    DivAtLeast(r * r, n, n * q * q);
  }

  lemma MulMonotone(a: int, b: int)
    requires a >= b >= 0
    ensures a * a >= b * b
  {
    assert a * a - b * b == (a - b) * (a + b);
  }

  /** x >= n * m implies x / n >= m for positive n. */
  lemma DivAtLeast(x: int, n: int, m: int)
    requires n > 0 && x >= n * m
    ensures x / n >= m
  {
    var q, r := x / n, x % n;
    assert x == n * q + r && 0 <= r < n;
    if q < m {
      MulLeftMonotone(n, q + 1, m);
      assert false;
    }
  }

  lemma MulLeftMonotone(n: int, a: int, b: int)
    requires n >= 0 && a <= b
    ensures n * a <= n * b
  {
    assert n * b - n * a == n * (b - a);
  }

  lemma {:induction false} TruncatedMeanSqBound(results: seq<nat>, n: nat)
    requires n > 0
    ensures TruncatedMeanSq(results, n) >= n * SumSq(Quotients(results, n))
  {
    if |results| > 0 {
      TruncatedMeanSqBound(results[1..], n);
      SquareQuotientBound(results[0], n);
      var q := Quotients(results, n);
      assert q[1..] == Quotients(results[1..], n);
      assert SumSq(q) == (results[0] / n) * (results[0] / n) + SumSq(q[1..]);
      assert n * SumSq(q) == n * ((results[0] / n) * (results[0] / n)) + n * SumSq(q[1..]);
    }
  }

  /** The radicand `EsquaredX - EX * EX` exactly as `Variance` computes it. An
      empty result list leaves both sums at 0. */
  function TruncatedVariance(results: seq<nat>): int {
    var n := |results|;
    if n == 0 then 0 else TruncatedMeanSq(results, n) - TruncatedMean(results, n) * TruncatedMean(results, n)
  }

  /** The truncated radicand is never negative, so the square root is always defined. */
  lemma TruncatedVarianceNonNegative(results: seq<nat>)
    ensures TruncatedVariance(results) >= 0
    ensures |results| == 0 ==> TruncatedVariance(results) == 0
  {
    var n := |results|;
    if n > 0 {
      var q := Quotients(results, n);
      TruncatedMeanSqBound(results, n);
      SquareOfSumBound(q);
    }
  }

  /** Equal win counts should have no spread, but the truncation reports one:
      two opponents with 3 wins each give a radicand of 4. */
  lemma TruncatedVarianceOfEqualResults()
    ensures TruncatedVariance([3, 3]) == 4
  {
    assert TruncatedMean([3, 3], 2) == 2 by {
      assert [3, 3][1..] == [3];
    }
    assert TruncatedMeanSq([3, 3], 2) == 8 by {
      assert [3, 3][1..] == [3];
    }
  }

  // ---------------------------------------------------------------------------
  // The variance as intended: mean of squares minus square of the mean.

  function NatsToInts(results: seq<nat>): (r: seq<int>)
    ensures |r| == |results|
    ensures forall i :: 0 <= i < |r| ==> r[i] == results[i]
  {
    seq(|results|, i requires 0 <= i < |results| => results[i] as int)
  }

  /** E[X^2] - E[X]^2 of the per-opponent win counts in exact arithmetic,
      written over the common denominator: (n sum x^2 - (sum x)^2) / n^2. */
  function Variance(results: seq<nat>): (v: real)
    ensures v >= 0.0
    ensures |results| == 0 ==> v == 0.0
  {
    var n := |results|;
    if n == 0 then 0.0
    else
      var xs := NatsToInts(results);
      SquareOfSumBound(xs);
      (n * SumSq(xs) - Sum(xs) * Sum(xs)) as real / (n * n) as real
  }

  function Repeat(v: nat, n: nat): (r: seq<nat>)
    ensures |r| == n
    ensures forall i :: 0 <= i < n ==> r[i] == v
  {
    seq(n, i => v)
  }

  lemma {:induction false} SumRepeat(v: nat, n: nat)
    ensures Sum(NatsToInts(Repeat(v, n))) == n * v
    ensures SumSq(NatsToInts(Repeat(v, n))) == n * (v * v)
  {
    if n > 0 {
      SumRepeat(v, n - 1);
      assert NatsToInts(Repeat(v, n))[1..] == NatsToInts(Repeat(v, n - 1));
    }
  }

  /** Equal win counts against every opponent have zero spread. */
  lemma VarianceOfEqualResults(v: nat, n: nat)
    ensures Variance(Repeat(v, n)) == 0.0
  {
    if n > 0 {
      SumRepeat(v, n);
      assert n * (n * (v * v)) == (n * v) * (n * v);
    }
  }
}
